=== FILE: README.md ===
# Lazy buffers in awkward: virtual arrays, backend rules and `from_virtual`

This project models the part of awkward that defers reading buffers. It proves
properties of that model in Dafny.

- **`VirtualArray`** (`virtual.py`) is a buffer that knows its declared shape
  and dtype and holds a generator for its data. It runs the generator on
  first use, checks the result against the declared metadata and caches it.
  Once the cache is filled the generator does not run again; a generator that
  raises leaves nothing cached and runs again on the next use. Transposes, dtype views, slices, copies and reshapes of an
  unmaterialised array are new virtual arrays. Their generator materialises
  the parent and applies the operation eagerly.
- **The array-module backends** (`array_module.py`, `torch.py`) route each
  operation three ways:
  - a `PlaceholderArray` (metadata only, no data) is answered from its
    metadata or refused;
  - an unmaterialised virtual array gets a deferred result;
  - anything else is materialised and handed to the eager library.
  The backends also own the shape and index arithmetic: `-1` wildcards in
  `reshape`, slice lengths, negative indices and C-contiguous strides.
- **`from_virtual`** (`ak_from_virtual.py`) rebuilds a layout tree from a
  `Form`.
  - A `Form` is a type description that names buffers by form key.
  - The container maps buffer keys to lazy buffers.
  - At each node it fetches that node's buffers under `buffer_key`. With
    `use_dtypes_from_form` it overwrites their dtypes from the form. It then
    asserts the dtypes match, builds the children and calls the node's
    constructor, or the `.simplified` one under `allow_noncanonical_form`.

## How the model is built

- `Results`: Python's exceptions become an `Error` value inside a `Result`.
- `DTypes`: dtypes, itemsizes and primitive names.
- `Shapes`, `Slicing`: the backend arithmetic as pure functions. Two reference
  definitions stand beside it: the range a slice selects (`RangeSeq`) and
  row-major strides (`IsCStrides`).
- `VirtualArrays`: the lazy arrays form a pure heap of nodes.
  - Each node has an nplike, a declared shape and dtype, a producer, a cache
    and a count of how often its producer ran.
  - A producer is either an opaque generator or "apply this eager operation
    to node `parent`". The generator is a function parameter. It is given how
    often it already ran, and it returns an array or raises. The heap therefore records the
    shared parent that a derived array's closure captures.
  - `Materialize` returns the new heap together with the result.
  - Eager NumPy is modelled only at the level of metadata: shape, dtype, a
    C-contiguity flag and a symbolic record of the data. Strides are not
    modelled, so the flag follows fixed rules per operation that approximate
    NumPy's (see Left out).
- `ArrayModule`, `TorchBackend`: the backend methods over three kinds of value:
  eager, placeholder and virtual.
- `Forms`, `FromVirtual`: forms, layouts and containers.
  - A layout holds a buffer by its container key. A later dtype overwrite of
    that buffer is therefore visible through every layout that holds it, as
    it is with Python object aliasing.
  - `Reconstitute` is factored into three steps, in source order:
    - fetch the node's own buffers (`FetchOwn`); for a list node this is the
      corrected `ListBuffers`, not the code as written (see Findings);
    - build the children left to right, threading the container through
      (`ReconstituteAll`);
    - construct the node (`Assemble`). A literal constructor refuses a
      non-canonical node, such as an option directly inside an option, with
      `TypeError` (`Canonical`); the `.simplified` one accepts it.

Every operation has a partner:
- a deferred operation is related to its eager counterpart by what its
  materialisation returns;
- the shape computations are related to `Product`;
- the slice arithmetic is related to the range it selects;
- the reconstruction is related to the form it mirrors and to the keys it
  touches.

## Model

| member | source | states |
|---|---|---|
| `VirtualArrays.NewVirtual` | src/awkward/_nplikes/virtual.py:35-56 | Construction succeeds exactly when the nplike is NumPy or CuPy and every shape item is a known integer; otherwise `TypeError`. The new array is unmaterialised, its producer has not run, the rest of the heap is untouched, and the declared shape and dtype are kept. |
| `VirtualArrays.Materialize` | src/awkward/_nplikes/virtual.py:110-120 | A cached array is returned without any change to the heap. Otherwise the producer runs exactly once more; it may raise, and its exception is the result. Success means the cache is filled with the result, and the result has the declared shape and dtype. Only arrays in the node's own lineage are touched. |
| `VirtualArrays.GeneratorFailureRetries` | src/awkward/_nplikes/virtual.py:110-120 | A generator that raises passes its exception on and nothing is cached. The next materialisation runs the generator again. |
| `VirtualArrays.FlakyGeneratorRecovers` | src/awkward/_nplikes/virtual.py:110-120 | A generator that fails once: the first materialisation raises `ValueError`, and the second returns the array. |
| `VirtualArrays.MaterializeTwice` | src/awkward/_nplikes/virtual.py:110-120 | A second materialisation after a successful one returns the same array and leaves the heap as it was. |
| `VirtualArrays.GeneratorRunsOnce` | src/awkward/_nplikes/virtual.py:110-120 | A generator that has never run runs once on the first successful materialisation and is not run again by the second. |
| `VirtualArrays.MismatchIsFatal` | src/awkward/_nplikes/virtual.py:112-118 | A generator whose array differs from the declared shape or dtype gives an `AssertionError`, and nothing is cached. |
| `VirtualArrays.Lineage` | src/awkward/_nplikes/virtual.py:126-161 | A node's lineage is the chain of parents its derived generators materialise: it contains the node and only nodes created before it. |
| `VirtualArrays.IsMaterialized` | src/awkward/_nplikes/virtual.py:122-124 | `is_materialized` holds exactly when materialising would change nothing, and then materialising succeeds. |
| `VirtualArrays.Len` | src/awkward/_nplikes/virtual.py:268-269 | `len` reads the declared first extent without materialising. It is an `IndexError` for a 0-d array, and it equals the first extent of the materialised array whenever materialising succeeds. |
| `VirtualArrays.Size` | src/awkward/_nplikes/virtual.py:96-98 | `size` is the product of the declared shape, which equals the product of the materialised shape. A 0-d shape fails as the source's reduce over an empty tuple does. |
| `VirtualArrays.NBytes` | src/awkward/_nplikes/virtual.py:100-104 | `nbytes` is 0 until the array is materialised, and is element count times itemsize afterwards. |
| `VirtualArrays.Reverse` | src/awkward/_nplikes/virtual.py:126-136 | Reversing a shape puts each axis at the mirrored position. |
| `VirtualArrays.Transposed` | src/awkward/_nplikes/virtual.py:126-136 | The transpose of a materialised array is eager. Otherwise it is a new unmaterialised array whose declared shape is the reversed shape and whose dtype is the same; the heap only grows. |
| `VirtualArrays.TransposeMaterializes` | src/awkward/_nplikes/virtual.py:126-136 | Materialising the deferred transpose succeeds exactly when materialising the parent does, and then yields the eager transpose of the parent's array. |
| `VirtualArrays.ViewShape` | src/awkward/_nplikes/virtual.py:138-161 | The shape of a dtype view. It keeps every axis but the last. The last axis times the new itemsize equals the old last axis times the old itemsize. It is a `ValueError` exactly when that byte count is not divisible. |
| `VirtualArrays.View` | src/awkward/_nplikes/virtual.py:138-161 | An unmaterialised array's view fails with `ValueError` exactly when the last axis does not divide. Otherwise it is a new lazy array with the new dtype and a shape of the same byte size. |
| `VirtualArrays.ViewIsDeferred` | src/awkward/_nplikes/virtual.py:146-161 | For an unmaterialised array, `view` is the generic deferral of the eager view, with the computed shape. |
| `VirtualArrays.ViewMaterializes` | src/awkward/_nplikes/virtual.py:138-161 | Materialising the deferred view fails with the parent's error, or equals the eager view of the parent's array. With at least one axis it succeeds exactly when the parent does and NumPy accepts the view of the parent's array: the itemsize is kept, the last axis has length 1, the array is empty, or it is C-contiguous. A 0-d view needs equal itemsizes. NumPy checks both only at materialisation. |
| `VirtualArrays.EagerViewOk` | src/awkward/_nplikes/virtual.py:138-161 | The eager view of an array with at least one axis whose last axis divides is a `ValueError` when the itemsize changes, the last axis is longer than 1, the array is not empty and it is not C-contiguous. Otherwise it has the computed view shape and the new dtype. |
| `VirtualArrays.StridedViewRefused` | src/awkward/_nplikes/virtual.py:160 | A C-contiguous int32 array of shape (6,) can be viewed as int16, but its slice `[0:6:2]` cannot: `ValueError`. |
| `VirtualArrays.SliceShape` | src/awkward/_nplikes/virtual.py:224-244 | The shape of an eager slice: the first extent becomes the number of indices the slice selects, and the other extents are kept. A 0-d array gives `IndexError` and a zero step gives `ValueError`. |
| `VirtualArrays.EagerApplyReduces` | src/awkward/_nplikes/virtual.py:126-185 | Each deferred operation's eager action is the corresponding eager rule. |
| `VirtualArrays.DeferOn` | src/awkward/_nplikes/virtual.py:146-161 | A deferred operation appends one unmaterialised node whose producer applies the operation to its parent; the existing nodes are unchanged. |
| `VirtualArrays.Defer` | src/awkward/_nplikes/virtual.py:146-161 | As `DeferOn`, with the parent's nplike. |
| `VirtualArrays.DeferredMaterialize` | src/awkward/_nplikes/virtual.py:110-120 | Materialising a deferred array propagates the parent's error, then the eager operation's error. It returns the eager result exactly when that result has the declared shape and dtype, and `AssertionError` otherwise. |
| `VirtualArrays.DeferredAgrees` | src/awkward/_nplikes/virtual.py:110-120 | When the declared metadata is what the eager operation produces from any array of the parent's metadata, the deferred array materialises to exactly the eager result of the parent's array. |
| `VirtualArrays.MaterializeExtend` | src/awkward/_nplikes/virtual.py:110-120 | Appending an unrelated node to the heap does not change what an existing node materialises to. |
| `VirtualArrays.ProduceExtend` | src/awkward/_nplikes/virtual.py:110-120 | Appending a node does not change what an existing producer computes. |
| `VirtualArrays.AsPySlice` | src/awkward/_nplikes/virtual.py:227-234 | A slice converts to integer bounds exactly when none of its bounds is `unknown_length`. |
| `VirtualArrays.GetItem` | src/awkward/_nplikes/virtual.py:220-246 | Slicing an unmaterialised array as written. A 0-d array gives `IndexError` and an unknown bound gives `TypeError`. A success is one new lazy 1-d array of the same dtype. An integer index materialises first. |
| `VirtualArrays.FiveHeap` | src/awkward/_nplikes/virtual.py:35-56 | A valid heap holding one unmaterialised array of shape `(5,)`. |
| `VirtualArrays.SliceFloorDeclares` | src/awkward/_nplikes/virtual.py:236-244 | `x[0:5:2]` of a lazy length-5 array is declared with length 2. |
| `VirtualArrays.SliceFloorMismatch` | src/awkward/_nplikes/virtual.py:236-237 | That slice selects 3 elements. Its declared length is 2, so materialising it fails with `AssertionError`. |
| `VirtualArrays.GetItemCorrected` | src/awkward/_nplikes/virtual.py:220-246 | Slicing with the declared first extent equal to the number of selected indices, keeping the trailing extents. |
| `VirtualArrays.SliceCorrectedMaterializes` | src/awkward/_nplikes/virtual.py:224-244 | The corrected lazy slice materialises exactly when its parent does, to the eager slice of the parent's array. |
| `VirtualArrays.Copy` | src/awkward/_nplikes/virtual.py:177-185 | `copy` materialises the source. It succeeds exactly when that does, giving a new materialised array with the same shape and dtype. |
| `VirtualArrays.MaterializeIfVirtual` | src/awkward/_nplikes/virtual.py:25-31 | Every virtual argument is materialised and replaced by its cached array. Every other argument is passed through in place. |
| `ArrayModule.ArrayOf` | src/awkward/_nplikes/array_module.py:48-72 | The eager array behind a value has the value's shape and dtype. |
| `ArrayModule.Converted` | src/awkward/_nplikes/array_module.py:48-72 | Conversion keeps the shape and takes the requested dtype if one is given. Without a copy or a dtype change, it is the same array. |
| `ArrayModule.AsArray` | src/awkward/_nplikes/array_module.py:48-72 | A placeholder or unmaterialised array is returned unchanged when the dtype matches; a dtype change is an `AssertionError`. Other values convert to an eager array of the same shape and the requested dtype. `copy=False` with a dtype change is a `ValueError`. |
| `ArrayModule.AsArrayIdempotent` | src/awkward/_nplikes/array_module.py:48-72 | Applying `asarray` to its own result returns that result again. |
| `ArrayModule.AsContiguousArrayAsWritten` | src/awkward/_nplikes/array_module.py:74-89 | As written: a placeholder is returned as is. An unmaterialised array becomes a lazy array declaring its own shape and dtype. Anything else becomes a C-contiguous eager array of its dtype and of NumPy's contiguous shape: the shape itself, or `(1,)` for a 0-d array. |
| `ArrayModule.ContiguousZeroDimFails` | src/awkward/_nplikes/array_module.py:81-86 | As written, the lazy copy of a 0-d array fails with `AssertionError` whenever its parent materialises, and with the parent's error otherwise. |
| `ArrayModule.AsContiguousArray` | src/awkward/_nplikes/array_module.py:74-89 | Corrected: as written, except that the lazy copy declares NumPy's contiguous shape of the input, `(1,)` for a 0-d array. |
| `ArrayModule.ContiguousDefect` | src/awkward/_nplikes/array_module.py:81-86 | The code as written and the corrected rule agree exactly except on unmaterialised 0-d arrays. |
| `ArrayModule.ContiguousMaterializes` | src/awkward/_nplikes/array_module.py:74-89 | For every shape, the corrected lazy contiguous copy materialises exactly when its parent does, to the parent's array made contiguous. |
| `ArrayModule.FillLike` | src/awkward/_nplikes/array_module.py:136-176 | `zeros_like`, `ones_like` and `full_like` give an array of the argument's shape, filled with the fill value. Its dtype is the requested one, or the argument's own. It is C-contiguous when answered from metadata, and when the argument with data is C-contiguous. |
| `ArrayModule.FillLikeAfterMaterialize` | src/awkward/_nplikes/array_module.py:136-176 | The answer from an unmaterialised array's metadata has the same shape, dtype and values as the answer after materialising it, and is the same array when the materialised one is C-contiguous. |
| `ArrayModule.Reshape` | src/awkward/_nplikes/array_module.py:333-365 | A placeholder gets the compatible shape. An unmaterialised array gets a lazy array of the compatible shape with the same dtype, or the shape's error. An eager reshape keeps the element count and the dtype, and leaves the heap as it was. |
| `ArrayModule.ReshapeAsWritten` | src/awkward/_nplikes/array_module.py:353-365 | As written: the same result, but with `copy=False` a materialised lazy array has its cached array replaced by the reshaped one, and nothing else changes. |
| `ArrayModule.ReshapeInPlaceBreaksCache` | src/awkward/_nplikes/array_module.py:353-365 | A materialised array of shape (6,) reshaped to (2, 3) with `copy=False` still declares (6,) while its cache has shape (2, 3), so the heap invariant fails. |
| `ArrayModule.ReshapeLeavesArgument` | src/awkward/_nplikes/array_module.py:353-365 | Corrected: after reshaping a materialised array with `copy=False`, materialising it again still returns its cached array of the declared shape. |
| `ArrayModule.ReshapeMaterializes` | src/awkward/_nplikes/array_module.py:345-353 | The lazy reshape materialises exactly when its parent does and the compatible shape keeps the element count. It then yields the eager reshape of the parent's array. |
| `ArrayModule.PlaceholderStrides` | src/awkward/_nplikes/array_module.py:558-564 | A placeholder's strides are the C-contiguous strides of its shape and itemsize. The first stride times the first extent is the buffer's byte size. |
| `ArrayModule.ApplyUfunc` | src/awkward/_nplikes/array_module.py:232-314 | Only `__call__` with at least one argument is supported; otherwise `NotImplementedError`. Any placeholder argument is refused. On success each virtual argument is materialised and passed as its cached array, eager ones pass unchanged, and the implementation is the prepared ufunc. |
| `ArrayModule.PrepareUfunc` | src/awkward/_nplikes/array_module.py:43-44 | The array-module backend uses the ufunc itself. |
| `ArrayModule.ArrayStr` | src/awkward/_nplikes/array_module.py:747-765 | A placeholder prints as `[XX ... XX]` and an unmaterialised array as `[?? ... ??]`, without materialising. Everything else is printed from an array of its own shape and dtype. |
| `ArrayModule.ArrayStrAfterMaterialize` | src/awkward/_nplikes/array_module.py:747-765 | An unmaterialised array prints the marker. After a successful materialisation the same array prints NumPy's rendering of the materialised array, which has the declared shape and dtype. |
| `TorchBackend.Strides` | src/awkward/_nplikes/torch.py:49-53 | The strides are always the C-contiguous strides of the declared shape and itemsize. |
| `TorchBackend.IsOwnArrayType` | src/awkward/_nplikes/torch.py:55-65 | A type belongs to torch exactly when its module is `torch` or starts with `torch.`. |
| `TorchBackend.IsCContiguousAsWritten` | src/awkward/_nplikes/torch.py:67-72 | As written: a placeholder is contiguous without materialising. A tensor raises `AttributeError`. A virtual array is materialised, keeping that heap effect, and then raises `AttributeError`, or its own error if materialisation failed. |
| `TorchBackend.IsCContiguous` | src/awkward/_nplikes/torch.py:67-72 | Corrected: a placeholder is contiguous. A tensor reports its own flag. A virtual array is materialised and reports the flag of the materialised array. |
| `TorchBackend.IsCContiguousDefect` | src/awkward/_nplikes/torch.py:71-72 | Both leave the same heap. They differ exactly on non-placeholders whose intended answer exists, and there the code as written raises `AttributeError`. |
| `TorchBackend.AsContiguousArrayAsWritten` | src/awkward/_nplikes/torch.py:74-89 | As written, with the heap untouched: a placeholder is returned as is, and a tensor becomes a contiguous tensor of the same shape, 0-d included, and dtype. An unmaterialised virtual array fails with `TypeError`, and a materialised one with `AttributeError`. |
| `TorchBackend.AsContiguousArray` | src/awkward/_nplikes/torch.py:74-89 | Corrected: always succeeds. Placeholders and tensors are handled as written. A virtual array is handled as its NumPy or CuPy backend does: an eager C-order copy, or a lazy copy declaring NumPy's contiguous shape. |
| `TorchBackend.ContiguousMaterializes` | src/awkward/_nplikes/torch.py:81-87 | The corrected lazy copy materialises exactly when its parent does, to the parent's array made contiguous. |
| `TorchBackend.AsContiguousArrayDefect` | src/awkward/_nplikes/torch.py:77-87 | The code as written and the corrected rule agree exactly on placeholders and tensors. On every virtual array the code as written fails where the corrected one succeeds. |
| `TorchBackend.PrepareUfunc` | src/awkward/_nplikes/torch.py:26-29 | The torch backend substitutes the torch function exactly for the ufuncs torch provides. |
| `Shapes.ComputeCompatibleShape` | src/awkward/_nplikes/array_module.py:316-331 | The loop agrees with the reference definition. More than one wildcard is a `ValueError`. With no wildcard the shape is kept. One wildcard is filled with the floor quotient of the existing element count by the other extents, and a zero product is a `ZeroDivisionError`. |
| `Shapes.ReshapeKeepsSize` | src/awkward/_nplikes/array_module.py:316-331 | With no wildcard, the requested shape is returned. With one wildcard and an evenly dividing known product, the result has exactly the existing element count. |
| `Shapes.CompatibleShapeNonneg` | src/awkward/_nplikes/array_module.py:316-331 | Valid inputs resolve to a shape whose extents are all non-negative and which has no wildcard left. |
| `Shapes.FillWildcardProduct` | src/awkward/_nplikes/array_module.py:329-330 | Filling the single wildcard with `v` multiplies the known product by `v`. |
| `Shapes.ShapeItemAsIndex` | src/awkward/_nplikes/array_module.py:367-373 | A known integer is its own index; `unknown_length` and other items are a `TypeError`. |
| `Shapes.CStrides` | src/awkward/_nplikes/array_module.py:558-564 | The stride loop's result satisfies the row-major recurrence. Each stride is the itemsize times the product of the later extents. |
| `Shapes.CStridesUnique` | src/awkward/_nplikes/array_module.py:558-564 | The recurrence admits only one stride sequence for a given shape and itemsize. |
| `Slicing.SliceIndices` | src/awkward/_nplikes/array_module.py:399-401 | `slice.indices`: a negative length or zero step is a `ValueError`. The step defaults to 1. An omitted start is 0, or `length - 1` for a negative step. An omitted stop is `length`, or -1. A bound in `[-length, length)` is kept, and a negative one is counted from the end. A bound at or beyond `length` becomes `length`, or `length - 1` for a negative step. A bound below `-length` becomes 0, or -1 for a negative step. So bounds lie in `[0, length]` for positive steps and in `[-1, length)` for negative ones. |
| `Slicing.RangeLengthCounts` | src/awkward/_nplikes/array_module.py:402 | The closed-form length counts exactly the indices the range yields. |
| `Slicing.RangeBetween` | src/awkward/_nplikes/array_module.py:399-402 | Every index a range yields lies between its start and stop. |
| `Slicing.SliceIndicesInBounds` | src/awkward/_nplikes/array_module.py:399-401 | Every index a slice selects is a valid position in the array. |
| `Slicing.DeriveSliceForLength` | src/awkward/_nplikes/array_module.py:378-407 | As written: the normalised bounds of `slice.indices`, and a length that is the ceiling of `(stop - start) / step`, stated as bounds on `step * length` for both step signs. |
| `Slicing.CeilLengthAgreesWhenOrdered` | src/awkward/_nplikes/array_module.py:402 | When the bounds are in the step's direction, the ceiling formula equals the number of selected indices. |
| `Slicing.DeriveSliceNegativeLength` | src/awkward/_nplikes/array_module.py:402-406 | `slice(5, 2)` over length 10 selects nothing, but the derived length is -3. |
| `Slicing.DeriveSliceForLengthClamped` | src/awkward/_nplikes/array_module.py:378-407 | Corrected: the same bounds, with a length equal to the number of selected indices, between 0 and the array length. |
| `Slicing.CeilLengthClamped` | src/awkward/_nplikes/array_module.py:402 | The ceiling formula clamped at 0 is exactly the number of selected indices, for any bounds. |
| `Slicing.RangeLengthBound` | src/awkward/_nplikes/array_module.py:399-402 | A range within normalised bounds selects at most `length` indices. |
| `Slicing.RegularizeIndexForLength` | src/awkward/_nplikes/array_module.py:409-427 | Succeeds exactly for indices in `[-length, length)`. The result is in `[0, length)` and congruent to the index; anything else is an `IndexError`. |
| `Slicing.RegularizeIndexRoundTrip` | src/awkward/_nplikes/array_module.py:409-427 | A position and that position minus the length both resolve to the position. |
| `DTypes.PrimitiveNameRoundTrip` | src/awkward/operations/ak_from_virtual.py:104-106 | Primitive names and dtypes correspond one to one. |
| `Forms.RecordArity` | src/awkward/operations/ak_from_virtual.py:306-316 | A record builds as many children as `zip(contents, fields)` yields: the shorter of the two, or all contents for a tuple. |
| `Forms.Length` | src/awkward/_nplikes/virtual.py:268-269 | `len` of a buffer is its first declared extent, and an `IndexError` for a 0-d buffer. |
| `FromVirtual.DefaultKey` | src/awkward/operations/ak_from_virtual.py:22 | The default `"{form_key}-{attribute}"` key is the form key (or `None`), a dash and the attribute. |
| `FromVirtual.DefaultKeysDistinct` | src/awkward/operations/ak_from_virtual.py:22 | Under the default key, one node's distinct attributes name distinct buffers. |
| `FromVirtual.OwnKeysAreAttributes` | src/awkward/operations/ak_from_virtual.py:128-347 | A node's own keys are exactly the keys of the attributes its kind fetches. |
| `FromVirtual.Fetch` | src/awkward/operations/ak_from_virtual.py:128-134 | Fetching one buffer: a missing key is `KeyError(key)`. It succeeds exactly when the key is present and either dtypes are overwritten or the stored dtype already matches. The overwrite changes only that buffer's dtype; without it the container is unchanged. |
| `FromVirtual.RetypedTrans` | src/awkward/operations/ak_from_virtual.py:124-356 | Dtype-only changes under two key sets compose to a dtype-only change under their union. |
| `FromVirtual.ListBuffers` | src/awkward/operations/ak_from_virtual.py:245-271 | Corrected list node. Success requires both keys present, matching or overwritten dtypes, both buffers at least 1-d and of equal length. `starts` is looked up first. A 0-d buffer is an `IndexError` and a mismatch an `AssertionError`. The overwrites go to `starts` and `stops`. |
| `FromVirtual.ListBuffersAsWritten` | src/awkward/operations/ak_from_virtual.py:245-271 | As written: with `use_dtypes_from_form`, a present `starts` buffer always fails, because the overwrite assigns to the unbound `index`. Without it, the behaviour is the corrected one. |
| `FromVirtual.ListOverrideUnbound` | src/awkward/operations/ak_from_virtual.py:249-256 | A concrete valid list container that the corrected node accepts and the code as written rejects. |
| `FromVirtual.FetchOwn` | src/awkward/operations/ak_from_virtual.py:128-347 | A node's buffers are fetched in source order. Success means all its keys are present. A `KeyError` names one of its own missing keys. Without dtype overwriting the container is unchanged. |
| `FromVirtual.FetchOwnRetypes` | src/awkward/operations/ak_from_virtual.py:128-347 | Fetching a node's buffers changes only the dtypes of its own keys. |
| `FromVirtual.FetchRetypes` | src/awkward/operations/ak_from_virtual.py:128-134 | Fetching one buffer changes only that buffer's dtype. |
| `FromVirtual.Request` | src/awkward/operations/ak_from_virtual.py:124-356 | What a recognised node kind asks its constructor for is never a `.simplified` request. |
| `FromVirtual.Literal` | src/awkward/operations/ak_from_virtual.py:42-44 | A literal constructor fails exactly on an unrecognised form kind (`AssertionError`) or a non-canonical node (`TypeError`). |
| `FromVirtual.Assemble` | src/awkward/operations/ak_from_virtual.py:42-44 | Without `allow_noncanonical_form`, a non-canonical node is refused with `TypeError`; with it, only an unrecognised kind fails. The `.simplified` constructor is used exactly when the flag is set and the kind has one. |
| `FromVirtual.Reconstitute` | src/awkward/operations/ak_from_virtual.py:124-356 | An unrecognised form kind is an `AssertionError`. |
| `FromVirtual.ReconstituteAll` | src/awkward/operations/ak_from_virtual.py:306-316 | Building the first `count` children yields exactly `count` layouts. |
| `FromVirtual.NumpyLeaf` | src/awkward/operations/ak_from_virtual.py:128-134 | A `NumpyForm` fetches its `data` buffer and builds a `NumpyArray` over that key with the form's parameters, or fails as the lookup does, with either constructor choice. |
| `FromVirtual.TouchesOnlyItsKeys` | src/awkward/operations/ak_from_virtual.py:124-356 | A successful reconstruction found every key the form names. It changed only the dtypes of those keys, and changed nothing without `use_dtypes_from_form`. A `KeyError` names a key of the form that is missing. |
| `FromVirtual.ChildrenTouchOnlyTheirKeys` | src/awkward/operations/ak_from_virtual.py:306-321 | The same for a node's children built in sequence. |
| `FromVirtual.LiteralMirrorsForm` | src/awkward/operations/ak_from_virtual.py:124-356 | Without simplification, the layout mirrors the form. Each node has the corresponding layout class, the form's parameters, its flags and size, the buffers named by its own keys, and children mirroring its children. |
| `FromVirtual.LiteralMirrors` | src/awkward/operations/ak_from_virtual.py:124-356 | A node's constructor request over mirroring children mirrors the node. |
| `FromVirtual.ChildrenMirror` | src/awkward/operations/ak_from_virtual.py:306-321 | Every built child mirrors its form. |
| `FromVirtual.Strip` | src/awkward/operations/ak_from_virtual.py:144-147 | Removing every `.simplified` request leaves a layout with none at the top. |
| `FromVirtual.SimplifyOnlyWraps` | src/awkward/operations/ak_from_virtual.py:42-44 | A literal success needs every node to be canonical. `allow_noncanonical_form` then also succeeds, with the same container, and removing its `.simplified` requests gives the literal layout. When only the flagged run succeeds, the literal one failed with `TypeError`. On a canonical form both runs succeed or fail together, with the same error. |
| `FromVirtual.StripAssemble` | src/awkward/operations/ak_from_virtual.py:144-147 | When the literal assembly succeeds, so does the simplified one over children that strip to the literal ones, and it strips to the literal layout. |
| `FromVirtual.StripRequest` | src/awkward/operations/ak_from_virtual.py:144-147 | A constructor request commutes with stripping its children. |
| `FromVirtual.ChildrenSimplifyOnlyWrap` | src/awkward/operations/ak_from_virtual.py:306-321 | The same for children built in sequence, with all of them canonical. |
| `FromVirtual.OptionOfOptionNeedsSimplify` | src/awkward/operations/ak_from_virtual.py:65-75 | An indexed-option form directly inside another fails with `TypeError` without the flag and is built with it. |
| `FromVirtual.UseDTypesHarmless` | src/awkward/operations/ak_from_virtual.py:131-133 | When a container already holds the form's dtypes, a successful reconstruction leaves it as it was, and overwriting the dtypes gives the identical result. |
| `FromVirtual.ChildrenUseDTypesHarmless` | src/awkward/operations/ak_from_virtual.py:306-321 | The same for children built in sequence. |
| `FromVirtual.FetchOwnHarmless` | src/awkward/operations/ak_from_virtual.py:131-133 | Overwriting dtypes that already match leaves the container unchanged. |
| `FromVirtual.FetchHarmless` | src/awkward/operations/ak_from_virtual.py:131-133 | The same for one buffer. |
| `FromVirtual.OnlyItsKeysMatter` | src/awkward/operations/ak_from_virtual.py:124-356 | Two containers that agree on the form's keys give the same outcome: the same error, or the same layout with containers still agreeing on those keys. |
| `FromVirtual.ChildrenOnlyTheirKeysMatter` | src/awkward/operations/ak_from_virtual.py:306-321 | The same for children built in sequence. |
| `FromVirtual.NextChildOnlyItsKeysMatter` | src/awkward/operations/ak_from_virtual.py:306-321 | Agreement is preserved by building one more child. |
| `FromVirtual.WithinOfSubset` | src/awkward/operations/ak_from_virtual.py:306-321 | If all the children's keys lie in a set, so do each child's. |
| `FromVirtual.KeysAllHas` | src/awkward/operations/ak_from_virtual.py:306-321 | A key of the `i`-th child is among the keys of the first `count` children. |
| `FromVirtual.WithinOfEach` | src/awkward/operations/ak_from_virtual.py:306-321 | Each child's keys lying in a set means the children are covered by it. |
| `FromVirtual.FetchOwnAgree` | src/awkward/operations/ak_from_virtual.py:128-347 | Fetching a node's buffers from agreeing containers agrees. |
| `FromVirtual.FetchAgree` | src/awkward/operations/ak_from_virtual.py:128-134 | Fetching one buffer from agreeing containers agrees. |
| `FromVirtual.NormalizeForm` | src/awkward/operations/ak_from_virtual.py:103-114 | A `Form` passes unchanged and a primitive name becomes a bare `NumpyForm`. Other text is parsed as JSON and a dict as a form dict. Anything else is a `TypeError`. |
| `FromVirtual.PrimitiveNameNormalizes` | src/awkward/operations/ak_from_virtual.py:104-106 | A primitive's name normalises to a `NumpyForm` of that primitive, with no key or parameters. |
| `FromVirtual.Impl` | src/awkward/operations/ak_from_virtual.py:92-121 | A non-form argument is a `TypeError`. A `Form` is reconstituted as given, and success implies the argument normalised. |
| `FromVirtual.FromVirtualPrimitive` | src/awkward/operations/ak_from_virtual.py:92-134 | `from_virtual("int64", container)` under the default key reads `None-data`. A missing buffer is `KeyError("None-data")`. A matching or overwritten dtype gives a `NumpyArray` of that buffer. A mismatch without overwriting is an `AssertionError`. |

## Left out

- I/O and data: buffer contents are symbolic. Eager NumPy/CuPy/torch results
  are described only by shape, dtype and a C-contiguity flag. Strides of eager
  arrays are not modelled, and the flag approximates NumPy's, as the lines
  below on `EagerReshape`, `EagerApply`, `Converted` and `ViewMaterializes`
  say.
- `asarray` inside `materialize` is treated as returning the generator's array
  unchanged.
- `reshape(copy=False)` on an eager array is approximated by "succeeds when the
  array is C-contiguous". NumPy's full no-copy rule depends on strides.
- NEP 50 and legacy dtype promotion in `apply_ufunc`, and broadcasting, are not
  modelled. Only the routing is modelled: placeholders refused, virtual
  arguments materialised, the ufunc prepared.
- Some operations only materialise and then delegate to the eager array:
  `tobytes`, `real`, `imag`, `max`, `min`, `argsort`, `byteswap`, `tolist`,
  `__array__`, `__bool__`, `__int__`, `__index__`, `__iter__`, `__setitem__`,
  `ctypes`, `data`, dlpack, and the other backend functions that materialise
  and then call the library. They add nothing beyond `MaterializeIfVirtual`.
- `__repr__` and `__str__` produce text for humans and are not modelled.
- `regularize_buffer_key` is a function parameter (`KeyFn`). Only the default
  format string is modelled (`DefaultKey`).
- `from_json` and `from_dict` are parameters (`Parsers`). Form parsing is not
  part of this model.
- `wrap_layout`, `highlevel`, `behavior` and `attrs` are not part of this model.
- The layout classes (`src/awkward/contents`) are not part of this model. Of
  their constructors' validation only the canonical-form rule is modelled: an
  option or indexed layout refuses option, indexed and union content, and a
  union refuses union contents. The other checks (buffer lengths, index
  ranges, the number of union contents) are not modelled, and neither is
  `.simplified`'s rewriting or `ak.index.Index`. A layout records which
  constructor was asked for and with which arguments.
- `NumpyForm.inner_shape` is ignored. Form parameters that are `None` are
  modelled as the empty map, and `EmptyArray` takes no parameters.
- Container values are assumed to be virtual arrays, so the `_dtype` overwrite
  is a change to the buffer's metadata.
- FromVirtual.Fetch: the overwrite `_dtype = dtype` changes only the lazy
  array's declared dtype, not its generator or cache. A buffer retyped this way
  whose generator yields its old dtype passes the reconstruction and then fails
  the dtype assertion of `materialize` (virtual.py:116-118). An already
  materialised buffer is left declaring a dtype that its cache does not have.
  A container's buffer records only its declared dtype and is not tied to a heap
  node, so neither consequence is stated by the model.
- VirtualArrays.ViewMaterializes: NumPy refuses a view to another itemsize
  when the last axis is not contiguous, which depends on that axis's stride.
  The model reads it from the whole array's C-contiguity flag. So it refuses
  some views NumPy accepts, such as of `x[::2, :]`, whose rows are still
  contiguous.
- VirtualArrays.EagerReshape: the result keeps the argument's C-contiguity
  flag. NumPy copies into C order when it cannot make a view, so the reshape of
  a transposed array is C-contiguous in NumPy but not in the model.
- VirtualArrays.EagerApply: a copy (`CopyOf`) and a cast (`CastTo`) are
  flagged C-contiguous. NumPy keeps the layout (`order='K'`), so the copy of a
  transposed 2-d array stays Fortran-ordered.
- ArrayModule.Converted: a copy or cast is flagged C-contiguous, as in
  `EagerApply`, where `np.array(copy=True)` and `np.asarray(dtype=...)` keep
  the argument's layout. So `reshape(copy=False)` after `asarray(copy=True)` of
  a transposed array succeeds in the model where NumPy refuses, and
  `FillLike` and `TorchBackend.IsCContiguous` report the flag as modelled.
- VirtualArrays.NewVirtual: shape items are modelled as known integers,
  `unknown_length` or any other object. The source checks `isinstance(item,
  int)`, so a `bool` would also pass there.
- VirtualArrays.Size: the source's `reduce(operator.mul, shape)` has no
  initial value, so a 0-d array raises `TypeError`. The model follows the code,
  not a product of 1.
- Slicing.DeriveSliceForLength: `math.ceil` over a float quotient is modelled
  as exact integer ceiling division. Floating-point rounding for very large
  bounds is not modelled.
- FromVirtual.Reconstitute: the per-kind branches are factored into fetching
  the node's buffers, building its children and constructing it. Buffers are
  fetched before children, as in every branch of the source. The properties
  about it are stated in the separate lemmas listed above.
- FromVirtual.FetchOwn: the list step is the corrected `ListBuffers`, not
  `ListBuffersAsWritten`. So `Reconstitute` and the lemmas about it
  (`TouchesOnlyItsKeys`, `LiteralMirrorsForm`, `UseDTypesHarmless`,
  `OnlyItsKeysMatter`, `SimplifyOnlyWraps`) describe the intended code on list
  forms with `use_dtypes_from_form`, where the code as written raises
  `UnboundLocalError` (see Findings).
- FromVirtual.TouchesOnlyItsKeys: the container maps each key to its own
  buffer. A dict that maps two keys to one `VirtualArray` object would have
  both keys retyped by one overwrite. That aliasing is not modelled.
- FromVirtual.NormalizeForm: the `datetime64` and `timedelta64` primitives and
  their units are not dtypes of this model. Such names go to the JSON parser
  here, while the source turns them into a `NumpyForm`.
- ArrayModule.FillLike: for an argument with data that is not C-contiguous,
  NumPy's `order='K'` follows its strides, which the model does not carry. The
  model reports such a result as not C-contiguous, and the contract promises
  C-contiguity only for metadata answers and C-contiguous arguments.
- TorchBackend.AsContiguousArray: a value with data handed to the Torch
  backend is taken to be a tensor. A plain NumPy array handed to it, which has
  neither tensor method either, is not told apart from a tensor.
- ArrayModule.Reshape: `copy=False` on an eager argument reshapes the caller's
  own array object in place in the source. Eager arrays are values here, so
  only the materialised lazy array's case is modelled (`ReshapeAsWritten`).
  With `copy=False` the model refuses every argument not flagged C-contiguous.
  NumPy refuses only those whose strides admit no reshaped view, which the
  flag cannot tell apart.
- On a failed reconstruction, the dtype overwrites already made stay on the
  container's buffer objects in Python. The model returns only the error, and
  the effects of a successful run are stated by `TouchesOnlyItsKeys`.

## Findings

| source | as written | input that shows it | evidently intended | confidence | as-written member | corrected member |
|---|---|---|---|---|---|---|
| src/awkward/_nplikes/virtual.py:236-237 | a lazy slice declares length `(stop - start) // step` (floor) and only the first axis | `x[0:5:2]` of an unmaterialised length-5 array declares length 2, and the eager slice has 3 elements, so materialising fails the shape assertion | the declared shape is the shape the slice materialises to, which the assertion at virtual.py:113-115 demands: the number of selected indices, with the trailing extents kept | not executed | `VirtualArrays.SliceFloorMismatch` | `VirtualArrays.SliceCorrectedMaterializes` |
| src/awkward/_nplikes/array_module.py:402-406 | `derive_slice_for_length` returns `ceil((stop - start) / step)` as the length | `slice(5, 2)` over length 10 gives `(5, 2, 1, -3)`, a negative length for an empty selection | the length fits the array, as the function's docstring states at array_module.py:386-391: it is clamped at 0 and is the number of selected indices | not executed | `Slicing.DeriveSliceNegativeLength` | `Slicing.DeriveSliceForLengthClamped` |
| src/awkward/operations/ak_from_virtual.py:249-256 | the list node's dtype overwrites assign to `index`, which is unbound in that branch | any `ListForm` with `use_dtypes_from_form=True` and a present `starts` buffer raises `UnboundLocalError` | the overwrites go to `starts` and `stops` | not executed | `FromVirtual.ListOverrideUnbound` | `FromVirtual.ListBuffers` |
| src/awkward/_nplikes/array_module.py:353-365 | `reshape(copy=False)` sets `.shape` on the array `asarray` returns, which for a materialised lazy array is its own cache | a materialised lazy array of shape (6,) reshaped to (2, 3) keeps declaring (6,) over a cache of shape (2, 3) | the argument is left as it was, and only the returned array has the new shape | not executed | `ArrayModule.ReshapeInPlaceBreaksCache` | `ArrayModule.ReshapeLeavesArgument` |
| src/awkward/_nplikes/torch.py:81-87 | `ascontiguousarray` passes five arguments to the four-parameter `VirtualArray` constructor | any unmaterialised virtual array raises `TypeError` | a lazy array that makes its parent contiguous on materialisation, as the array-module backend builds it | not executed | `TorchBackend.AsContiguousArrayDefect` | `TorchBackend.ContiguousMaterializes` |
| src/awkward/_nplikes/torch.py:71-72 | `is_c_contiguous` calls the method `is_c_contiguous()` on the array at hand | a materialised `VirtualArray` of shape (3,): its array is a NumPy or CuPy array (its nplike must be NumPy or CuPy, virtual.py:42-45, and `materialize` returns that nplike's `asarray`, virtual.py:112), which has no such method, so the call raises `AttributeError`; a tensor's method of that meaning is `is_contiguous()` | the C-contiguity of the materialised array or tensor is reported | not executed; certain for virtual arrays from the code alone, for tensors it rests on PyTorch's `Tensor` having no `is_c_contiguous` | `TorchBackend.IsCContiguousDefect` | `TorchBackend.IsCContiguous` |
| src/awkward/_nplikes/torch.py:78-79 | a materialised virtual array is replaced by its array and passed back to the Torch `ascontiguousarray`, whose last branch calls `contiguous()` (torch.py:89) | a materialised `VirtualArray` of shape (3,): its NumPy or CuPy array has no `contiguous()` method, so the call raises `AttributeError` | the array is copied to C order as the array-module backend does | not executed | `TorchBackend.AsContiguousArrayDefect` | `TorchBackend.AsContiguousArray` |
| src/awkward/_nplikes/array_module.py:77-86 | the lazy C-order copy of an unmaterialised array declares the input's shape, while NumPy's `ascontiguousarray` returns at least one axis | an unmaterialised 0-d `VirtualArray` declares `()`; the copy's generator returns shape `(1,)`, so materialising the copy fails the assertion at virtual.py:113-115 while the original materialises | the copy declares the shape it materialises to, so that it materialises whenever its parent does | not executed; rests on NumPy's documented `ndim >= 1` result | `ArrayModule.ContiguousZeroDimFails` | `ArrayModule.ContiguousMaterializes` |

=== FILE: backend.dfy ===
/** The array-module backend's routing of placeholders and virtual arrays:
    which operations pass data-less inputs through untouched, which build a
    new lazy array, and which materialise their arguments first. The NumPy
    calls themselves are the eager rules of `VirtualArrays.EagerApply`. */
module ArrayModule {
  import opened Results
  import opened DTypes
  import opened Shapes
  import opened VirtualArrays

  /** NumPy's comparison of a dtype with an optional requested dtype: a
      missing dtype means float64 (`np.dtype(None)`). */
  predicate DTypeMatches(d: DType, requested: Option<DType>)
  {
    d == requested.GetOr(Float64)
  }

  /** The array behind a value that has data, read without running anything:
      an eager array itself, or a materialised virtual array's cache. */
  function ArrayOf(h: Heap, v: Value): (a: Arr)
    requires Valid(h) && Refers(h, v) && !Dataless(h, v)
    ensures a.shape == ShapeOf(h, v) && a.dtype == DTypeOf(h, v)
  {
    if v.Virtual? then h.nodes[v.id].cache.value else v.arr
  }

  /** `np.array(a, dtype, copy=True)` and `np.asarray(a, dtype)`: a cast or
      copy when asked for or when the dtype differs, otherwise `a` itself. */
  function Converted(a: Arr, dtype: Option<DType>, copy: bool): (r: Arr)
    ensures r.shape == a.shape && r.dtype == dtype.GetOr(a.dtype)
    ensures !copy && (dtype.None? || dtype.value == a.dtype) ==> r == a
  {
    if copy || (dtype.Some? && dtype.value != a.dtype) then
      Arr(a.shape, dtype.GetOr(a.dtype), Transformed(CastTo(dtype.GetOr(a.dtype)), a.data), true)
    else a
  }

  /** `asarray(obj, dtype=, copy=)`. A placeholder or unmaterialised virtual
      array is returned as it is, provided the requested dtype is absent or
      equal (`AssertionError` otherwise); anything else becomes an eager array
      of the requested dtype, where `copy=False` refuses a dtype change with
      `ValueError`. Nothing is ever materialised. */
  function AsArray(h: Heap, v: Value, dtype: Option<DType>, copy: Option<bool>): (s: Step<Value>)
    requires Valid(h) && Refers(h, v)
    ensures s.heap == h
    ensures Dataless(h, v) ==>
      && (s.result.Ok? <==> dtype.None? || dtype.value == DTypeOf(h, v))
      && (s.result.Ok? ==> s.result.value == v)
      && (s.result.Err? ==> s.result.error == AssertionError)
    ensures !Dataless(h, v) ==>
      && (s.result.Err? <==> copy == Some(false) && !DTypeMatches(DTypeOf(h, v), dtype))
      && (s.result.Err? ==> s.result.error == ValueError)
      && (s.result.Ok? ==>
            && s.result.value.Eager?
            && s.result.value.arr.shape == ShapeOf(h, v)
            && s.result.value.arr.dtype == dtype.GetOr(DTypeOf(h, v)))
    ensures !Dataless(h, v) && copy != Some(true) && dtype.None? && s.result.Ok? ==>
      s.result.value == Eager(ArrayOf(h, v))
  {
    if Dataless(h, v) then
      if dtype.None? || DTypeOf(h, v) == dtype.value then Step(h, Ok(v)) else Step(h, Err(AssertionError))
    else
      var a := ArrayOf(h, v);
      match copy
      case Some(true) => Step(h, Ok(Eager(Converted(a, dtype, true))))
      case None => Step(h, Ok(Eager(Converted(a, dtype, false))))
      case Some(false) =>
        if !DTypeMatches(a.dtype, dtype) then Step(h, Err(ValueError))
        else Step(h, Ok(Eager(Converted(a, dtype, false))))
  }

  /** `asarray` without a copy request is idempotent. */
  lemma AsArrayIdempotent(h: Heap, v: Value, dtype: Option<DType>)
    requires Valid(h) && Refers(h, v)
    requires AsArray(h, v, dtype, None).result.Ok?
    ensures var first := AsArray(h, v, dtype, None).result.value;
      Refers(h, first) && AsArray(h, first, dtype, None) == Step(h, Ok(first))
  {
  }

  /** `ascontiguousarray` as written: a placeholder is returned as it is; an
      unmaterialised virtual array becomes a new lazy array declaring the
      same shape and dtype, and nothing runs; everything else is copied to C
      order from the data at hand. NumPy gives a 0-d array one axis, so the
      lazy copy of a 0-d array declares a shape its own generator does not
      produce. */
  function AsContiguousArrayAsWritten(h: Heap, v: Value): (s: Step<Value>)
    requires Valid(h) && Refers(h, v)
    ensures Valid(s.heap) && s.result.Ok?
    ensures v.Placeholder? ==> s == Step(h, Ok(v))
    ensures !Dataless(h, v) ==>
      && s.heap == h && s.result.value.Eager?
      && s.result.value.arr.shape == ContiguousShape(ShapeOf(h, v))
      && s.result.value.arr.dtype == DTypeOf(h, v)
      && s.result.value.arr.cContiguous
    ensures v.Virtual? && Dataless(h, v) ==>
      && |s.heap.nodes| == |h.nodes| + 1 && s.heap.nodes[..|h.nodes|] == h.nodes
      && s.result.value == Virtual(|h.nodes|)
      && s.heap.nodes[|h.nodes|].cache.None?
      && s.heap.nodes[|h.nodes|].shape == ShapeOf(h, v)
      && s.heap.nodes[|h.nodes|].dtype == DTypeOf(h, v)
  {
    if v.Placeholder? then Step(h, Ok(v))
    else if Dataless(h, v) then
      var n := h.nodes[v.id];
      var s := Defer(h, v.id, n.shape, n.dtype, MakeContiguous);
      assert s.heap.nodes[..|h.nodes|] == h.nodes;
      s
    else Step(h, Ok(Eager(EagerApply(MakeContiguous, ArrayOf(h, v)).value)))
  }

  /** The lazy C-order copy of a 0-d array, as written, fails NumPy's shape
      check whenever its parent materialises: the parent declares `()` and
      the copy's generator returns shape `(1,)`. */
  lemma ContiguousZeroDimFails(h: Heap, id: nat)
    requires Valid(h) && id < |h.nodes| && h.nodes[id].cache.None?
    requires |h.nodes[id].shape| == 0
    ensures var c := AsContiguousArrayAsWritten(h, Virtual(id));
      var parent := Materialize(h, id);
      && (parent.result.Ok? ==> Materialize(c.heap, |h.nodes|).result == Err(AssertionError))
      && (parent.result.Err? ==> Materialize(c.heap, |h.nodes|).result == Err(parent.result.error))
  {
    var n := h.nodes[id];
    var deferred := DeferOn(h, n.nplike, id, n.shape, n.dtype, MakeContiguous);
    assert AsContiguousArrayAsWritten(h, Virtual(id)).heap == deferred.heap;
    DeferredMaterialize(h, n.nplike, id, n.shape, n.dtype, MakeContiguous);
    var parent := Materialize(h, id).result;
    if parent.Ok? {
      assert EagerApply(MakeContiguous, parent.value).value.shape == [1] != n.shape;
    }
  }

  /** `ascontiguousarray` with the lazy copy declaring the shape NumPy will
      produce: a placeholder is returned as it is; an unmaterialised virtual
      array becomes a new lazy array, and nothing runs; everything else is
      copied to C order from the data at hand. */
  function AsContiguousArray(h: Heap, v: Value): (s: Step<Value>)
    requires Valid(h) && Refers(h, v)
    ensures Valid(s.heap) && s.result.Ok?
    ensures v.Placeholder? ==> s == Step(h, Ok(v))
    ensures !Dataless(h, v) ==>
      && s.heap == h && s.result.value.Eager?
      && s.result.value.arr.shape == ContiguousShape(ShapeOf(h, v))
      && s.result.value.arr.dtype == DTypeOf(h, v)
      && s.result.value.arr.cContiguous
    ensures v.Virtual? && Dataless(h, v) ==>
      && |s.heap.nodes| == |h.nodes| + 1 && s.heap.nodes[..|h.nodes|] == h.nodes
      && s.result.value == Virtual(|h.nodes|)
      && s.heap.nodes[|h.nodes|].cache.None?
      && s.heap.nodes[|h.nodes|].shape == ContiguousShape(ShapeOf(h, v))
      && s.heap.nodes[|h.nodes|].dtype == DTypeOf(h, v)
  {
    if v.Placeholder? then Step(h, Ok(v))
    else if Dataless(h, v) then
      var n := h.nodes[v.id];
      var s := Defer(h, v.id, ContiguousShape(n.shape), n.dtype, MakeContiguous);
      assert s.heap.nodes[..|h.nodes|] == h.nodes;
      s
    else Step(h, Ok(Eager(EagerApply(MakeContiguous, ArrayOf(h, v)).value)))
  }

  /** The code as written and the corrected `ascontiguousarray` differ only on
      unmaterialised 0-d arrays, where only the declared shape differs. */
  lemma ContiguousDefect(h: Heap, v: Value)
    requires Valid(h) && Refers(h, v)
    ensures AsContiguousArrayAsWritten(h, v) == AsContiguousArray(h, v)
      <==> !(v.Virtual? && Dataless(h, v) && |ShapeOf(h, v)| == 0)
  {
    if v.Virtual? && Dataless(h, v) && |ShapeOf(h, v)| == 0 {
      var n := |h.nodes|;
      assert AsContiguousArrayAsWritten(h, v).heap.nodes[n].shape == [];
      assert AsContiguousArray(h, v).heap.nodes[n].shape == [1];
    }
  }

  /** The lazy C-order copy materialises exactly when the original does, to
      the original's array copied to C order, for every shape. */
  lemma ContiguousMaterializes(h: Heap, id: nat)
    requires Valid(h) && id < |h.nodes| && h.nodes[id].cache.None?
    ensures var c := AsContiguousArray(h, Virtual(id));
      var parent := Materialize(h, id);
      && (Materialize(c.heap, |h.nodes|).result.Ok? <==> parent.result.Ok?)
      && (parent.result.Ok? ==>
            Materialize(c.heap, |h.nodes|).result == EagerApply(MakeContiguous, parent.result.value))
  {
    DeferredMaterialize(h, h.nodes[id].nplike, id, ContiguousShape(h.nodes[id].shape), h.nodes[id].dtype, MakeContiguous);
  }

  /** The fill of `zeros_like`, `ones_like` and `full_like`. */
  datatype Fill = Zeros | Ones | Full(value: int)

  function FillValue(f: Fill): int
  {
    match f
    case Zeros => 0
    case Ones => 1
    case Full(x) => x
  }

  /** `zeros_like`, `ones_like`, `full_like`: a new eager array of `x`'s
      shape filled with the value, of the requested dtype or else `x`'s. A
      placeholder or unmaterialised virtual array is answered from its
      metadata by `zeros`/`ones`/`full`, in C order, and the heap is never
      touched; an array with data goes to NumPy's `*_like`, whose default
      `order='K'` keeps a C-contiguous argument's layout. */
  function FillLike(h: Heap, v: Value, fill: Fill, dtype: Option<DType>): (r: Arr)
    requires Valid(h) && Refers(h, v)
    ensures r.shape == ShapeOf(h, v)
    ensures r.dtype == dtype.GetOr(DTypeOf(h, v))
    ensures r.data == Filled(FillValue(fill))
    ensures Dataless(h, v) ==> r.cContiguous
    ensures !Dataless(h, v) && ArrayOf(h, v).cContiguous ==> r.cContiguous
  {
    if Dataless(h, v) then
      Arr(ShapeOf(h, v), dtype.GetOr(DTypeOf(h, v)), Filled(FillValue(fill)), true)
    else
      var a := ArrayOf(h, v);
      Arr(a.shape, dtype.GetOr(a.dtype), Filled(FillValue(fill)), a.cContiguous)
  }

  /** Answering from the metadata agrees with materialising first: after a
      successful materialisation the fill has the same shape, dtype and
      values, and is the same array when the materialised one is
      C-contiguous. */
  lemma FillLikeAfterMaterialize(h: Heap, id: nat, fill: Fill, dtype: Option<DType>)
    requires Valid(h) && id < |h.nodes| && h.nodes[id].cache.None?
    requires Materialize(h, id).result.Ok?
    ensures var m := Materialize(h, id);
      var before := FillLike(h, Virtual(id), fill, dtype);
      var after := FillLike(m.heap, Virtual(id), fill, dtype);
      && before.shape == after.shape && before.dtype == after.dtype && before.data == after.data
      && (m.result.value.cContiguous ==> before == after)
  {
  }

  /** `reshape(x, shape, copy=)`. A placeholder and an unmaterialised virtual
      array get the wildcard-resolved shape and keep their dtype without any
      element-count check and without running anything; a new virtual array
      needs a NumPy or CuPy backend (`TypeError`). Other inputs are reshaped
      eagerly: `copy=True` from a C-order copy, `copy=False` only without
      copying, which a non-contiguous array refuses with `ValueError`. The
      argument itself is left as it was. */
  function Reshape(h: Heap, backend: Nplike, v: Value, shape: seq<int>, copy: Option<bool>): (s: Step<Value>)
    requires Valid(h) && Refers(h, v)
    ensures Valid(s.heap)
    ensures v.Placeholder? ==>
      && s.heap == h
      && (s.result.Ok? <==> CompatibleShape(shape, v.shape).Ok?)
      && (s.result.Ok? ==> s.result.value == Placeholder(CompatibleShape(shape, v.shape).value, v.dtype))
    ensures v.Virtual? && Dataless(h, v) ==>
      && (s.result.Ok? <==> CompatibleShape(shape, ShapeOf(h, v)).Ok? && (backend == Numpy || backend == Cupy))
      && (s.result.Err? ==> s.heap == h)
      && (s.result.Ok? ==>
            && |s.heap.nodes| == |h.nodes| + 1 && s.heap.nodes[..|h.nodes|] == h.nodes
            && s.result.value == Virtual(|h.nodes|)
            && s.heap.nodes[|h.nodes|].cache.None?
            && s.heap.nodes[|h.nodes|].shape == CompatibleShape(shape, ShapeOf(h, v)).value
            && s.heap.nodes[|h.nodes|].dtype == DTypeOf(h, v))
    ensures !Dataless(h, v) ==>
      && s.heap == h
      && (s.result.Ok? ==>
            && s.result.value.Eager?
            && Product(s.result.value.arr.shape) == Product(ShapeOf(h, v))
            && s.result.value.arr.dtype == DTypeOf(h, v))
  {
    if v.Placeholder? then
      match CompatibleShape(shape, v.shape)
      case Err(e) => Step(h, Err(e))
      case Ok(next) => Step(h, Ok(Placeholder(next, v.dtype)))
    else if Dataless(h, v) then
      var n := h.nodes[v.id];
      match CompatibleShape(shape, n.shape)
      case Err(e) => Step(h, Err(e))
      case Ok(next) =>
        if !(backend == Numpy || backend == Cupy) then Step(h, Err(TypeError))
        else
          var s := DeferOn(h, backend, v.id, next, n.dtype, ReshapeTo(next));
          assert s.heap.nodes[..|h.nodes|] == h.nodes;
          s
    else
      var a := ArrayOf(h, v);
      var source :=
        if copy == Some(true) then Ok(EagerApply(CopyOf, a).value)
        else if copy == Some(false) && !a.cContiguous then Err(ValueError)
        else Ok(a);
      match source
      case Err(e) => Step(h, Err(e))
      case Ok(b) =>
        match EagerReshape(b, shape)
        case Err(e) => Step(h, Err(e))
        case Ok(r) => Step(h, Ok(Eager(r)))
  }

  /** A lazy reshape of an array with non-negative extents materialises
      exactly when the original does and the requested shape keeps its
      element count; the array is then NumPy's reshape of the original. */
  lemma ReshapeMaterializes(h: Heap, backend: Nplike, id: nat, shape: seq<int>)
    requires Valid(h) && id < |h.nodes| && h.nodes[id].cache.None?
    requires AllAtLeast(shape, -1) && AllAtLeast(h.nodes[id].shape, 0)
    requires Reshape(h, backend, Virtual(id), shape, None).result.Ok?
    ensures var r := Reshape(h, backend, Virtual(id), shape, None);
      var next := CompatibleShape(shape, h.nodes[id].shape).value;
      var parent := Materialize(h, id);
      && (Materialize(r.heap, |h.nodes|).result.Ok? <==>
            parent.result.Ok? && Product(next) == Product(h.nodes[id].shape))
      && (Materialize(r.heap, |h.nodes|).result.Ok? ==>
            Materialize(r.heap, |h.nodes|).result == EagerReshape(parent.result.value, shape))
  {
    var n := h.nodes[id];
    var next := CompatibleShape(shape, n.shape).value;
    CompatibleShapeNonneg(shape, n.shape);
    ReshapeKeepsSize(next, n.shape);
    assert Reshape(h, backend, Virtual(id), shape, None) == DeferOn(h, backend, id, next, n.dtype, ReshapeTo(next));
    DeferredMaterialize(h, backend, id, next, n.dtype, ReshapeTo(next));
    var parent := Materialize(h, id);
    if parent.result.Ok? {
      EagerApplyReduces(ReshapeTo(next), parent.result.value);
    }
  }

  /** `reshape` as written: with `copy=False` the result is the argument's
      own array given the new shape (`asarray` returns it, then
      `result.shape = shape`), so a materialised lazy array has its cached
      array reshaped in place. The value returned is `Reshape`'s. */
  function ReshapeAsWritten(h: Heap, backend: Nplike, v: Value, shape: seq<int>, copy: Option<bool>): (s: Step<Value>)
    requires Valid(h) && Refers(h, v)
    ensures s.result == Reshape(h, backend, v, shape, copy).result
    ensures v.Virtual? && !Dataless(h, v) && copy == Some(false) && s.result.Ok? ==>
      && |s.heap.nodes| == |h.nodes|
      && s.heap.nodes[v.id] == h.nodes[v.id].(cache := Some(s.result.value.arr))
      && forall i | 0 <= i < |h.nodes| && i != v.id :: s.heap.nodes[i] == h.nodes[i]
    ensures !(v.Virtual? && !Dataless(h, v) && copy == Some(false)) ==> s == Reshape(h, backend, v, shape, copy)
  {
    var s := Reshape(h, backend, v, shape, copy);
    if v.Virtual? && !Dataless(h, v) && copy == Some(false) && s.result.Ok? then
      Step(Heap(h.nodes[v.id := h.nodes[v.id].(cache := Some(s.result.value.arr))]), s.result)
    else s
  }

  /** A lazy array of shape (6,) and dtype int64 that has been materialised. */
  function MaterializedSix(): (h: Heap)
    ensures Valid(h) && |h.nodes| == 1 && h.nodes[0].cache.Some? && h.nodes[0].shape == [6]
  {
    var a := Arr([6], Int64, Produced(0), true);
    Heap([Node(Numpy, [6], Int64, Generator((_: nat) => Ok(a)), Some(a), 1)])
  }

  /** Counterexample: reshaping it to (2, 3) with `copy=False` leaves the
      lazy array declaring shape (6,) over a cached array of shape (2, 3),
      which breaks the heap invariant; materialising it again returns the
      (2, 3) array. */
  lemma ReshapeInPlaceBreaksCache()
    ensures var s := ReshapeAsWritten(MaterializedSix(), Numpy, Virtual(0), [2, 3], Some(false));
      && s.result.Ok?
      && s.heap.nodes[0].shape == [6]
      && s.heap.nodes[0].cache.value.shape == [2, 3]
      && !Valid(s.heap)
  {
    var a := Arr([6], Int64, Produced(0), true);
    assert CompatibleShape([2, 3], [6]) == Ok([2, 3]);
    assert EagerReshape(a, [2, 3]) == Ok(Arr([2, 3], Int64, Transformed(ReshapeTo([2, 3]), a.data), true));
    var s := ReshapeAsWritten(MaterializedSix(), Numpy, Virtual(0), [2, 3], Some(false));
    assert !NodeOk(s.heap.nodes[0], 0);
  }

  /** What the reshape evidently intends: without copying, a materialised
      lazy array keeps its cached array, so materialising it again still
      gives the array of its declared shape. */
  lemma ReshapeLeavesArgument(h: Heap, backend: Nplike, id: nat, shape: seq<int>)
    requires Valid(h) && id < |h.nodes| && h.nodes[id].cache.Some?
    ensures var s := Reshape(h, backend, Virtual(id), shape, Some(false));
      && Valid(s.heap)
      && Materialize(s.heap, id) == Step(h, Ok(h.nodes[id].cache.value))
      && Materialize(s.heap, id).result.value.shape == h.nodes[id].shape
  {
  }

  /** `(a * b) * c == a * (c * b)`, stated once so that the solver does not
      search for it. */
  lemma MulRotate(a: int, b: int, c: int)
    ensures (a * b) * c == a * (c * b)
  {
  }

  /** `strides` of a placeholder: assumed C-contiguous, by the loop over the
      shape from the last axis down to the second. */
  method PlaceholderStrides(shape: seq<int>, dtype: DType) returns (r: seq<int>)
    ensures IsCStrides(r, shape, ItemSize(dtype))
    ensures |shape| > 0 ==> r[0] * shape[0] == ItemSize(dtype) * Product(shape)
  {
    r := CStrides(shape, ItemSize(dtype));
    if |shape| > 0 {
      var tail := Product(shape[1..]);
      ProductCons(shape, 0);
      assert shape[0..] == shape;
      assert r[0] == ItemSize(dtype) * tail;
      assert Product(shape) == shape[0] * tail;
      assert r[0] * shape[0] == ItemSize(dtype) * (shape[0] * tail) by {
        MulRotate(ItemSize(dtype), tail, shape[0]);
      }
    }
  }

  /** A ufunc and the implementation a backend substitutes for it. */
  datatype Impl = NumpyUfunc(name: string) | TorchFunction(name: string)

  /** `apply_ufunc`'s guard and argument preparation: only `__call__` with at
      least one argument (`NotImplementedError`), every virtual argument is
      materialised first, and a placeholder is refused (`AssertionError`)
      before the backend's implementation of the ufunc is chosen. NumPy's
      dtype resolution and the computation itself are not modelled. */
  function ApplyUfunc(h: Heap, ufunc: string, kind: string, args: seq<Value>, prepare: string -> Impl): (s: Step<(Impl, seq<Arr>)>)
    requires Valid(h) && forall i :: 0 <= i < |args| && args[i].Virtual? ==> args[i].id < |h.nodes|
    ensures Valid(s.heap) && Evolves(h, s.heap)
    ensures kind != "__call__" || |args| == 0 ==> s == Step(h, Err(NotImplementedError))
    ensures (exists i :: 0 <= i < |args| && args[i].Placeholder?) ==> s.result.Err?
    ensures s.result.Ok? ==>
      && s.result.value.0 == prepare(ufunc)
      && |s.result.value.1| == |args|
      && forall i :: 0 <= i < |args| ==>
           && !args[i].Placeholder?
           && (args[i].Eager? ==> s.result.value.1[i] == args[i].arr)
           && (args[i].Virtual? ==>
                 s.heap.nodes[args[i].id].cache == Some(s.result.value.1[i]))
    ensures (&& kind == "__call__" && |args| > 0
             && (forall i :: 0 <= i < |args| ==> !args[i].Placeholder?)
             && MaterializeIfVirtual(h, args).result.Ok?) ==> s.result.Ok?
  {
    if kind != "__call__" || |args| == 0 then Step(h, Err(NotImplementedError))
    else
      var m := MaterializeIfVirtual(h, args);
      match m.result
      case Err(e) => Step(m.heap, Err(e))
      case Ok(vs) =>
        if exists i :: 0 <= i < |vs| && vs[i].Placeholder? then Step(m.heap, Err(AssertionError))
        else
          var arrays := seq(|vs|, i requires 0 <= i < |vs| => vs[i].arr);
          Step(m.heap, Ok((prepare(ufunc), arrays)))
  }

  /** `prepare_ufunc` of the NumPy and CuPy backends: the ufunc itself. */
  function PrepareUfunc(ufunc: string): (r: Impl)
    ensures r.NumpyUfunc? && r.name == ufunc
  {
    NumpyUfunc(ufunc)
  }

  /** What `array_str` shows. */
  datatype Text = Marker(s: string) | NumpyArrayStr(a: Arr)

  /** `array_str`: fixed markers for a placeholder and for an unmaterialised
      virtual array, which are never materialised; NumPy's rendering of the
      data otherwise. */
  function ArrayStr(h: Heap, v: Value): (r: Text)
    requires Valid(h) && Refers(h, v)
    ensures r.Marker? <==> Dataless(h, v)
    ensures v.Placeholder? ==> r == Marker("[XX ... XX]")
    ensures v.Virtual? && Dataless(h, v) ==> r == Marker("[?? ... ??]")
    ensures r.NumpyArrayStr? ==> r.a.shape == ShapeOf(h, v) && r.a.dtype == DTypeOf(h, v)
  {
    if v.Placeholder? then Marker("[XX ... XX]")
    else if Dataless(h, v) then Marker("[?? ... ??]")
    else NumpyArrayStr(ArrayOf(h, v))
  }

  /** The marker stands for the array a materialisation would give: after a
      successful one, the same lazy array prints NumPy's rendering of it,
      of the declared shape and dtype. */
  lemma ArrayStrAfterMaterialize(h: Heap, id: nat)
    requires Valid(h) && id < |h.nodes| && h.nodes[id].cache.None?
    requires Materialize(h, id).result.Ok?
    ensures var m := Materialize(h, id);
      && ArrayStr(h, Virtual(id)) == Marker("[?? ... ??]")
      && ArrayStr(m.heap, Virtual(id)) == NumpyArrayStr(m.result.value)
      && m.result.value.shape == h.nodes[id].shape && m.result.value.dtype == h.nodes[id].dtype
  {
  }
}

=== FILE: dtypes.dfy ===
/** Element types: NumPy's fixed-width dtypes, their item sizes, the primitive
    names a `NumpyForm` carries and the index kinds of the other forms. */
module DTypes {
  import opened Results

  datatype DType =
    | Bool
    | Int8 | UInt8 | Int16 | UInt16 | Int32 | UInt32 | Int64 | UInt64
    | Float16 | Float32 | Float64
    | Complex64 | Complex128

  /** Bytes per element (`dtype.itemsize`). */
  function ItemSize(d: DType): (n: nat)
    ensures n >= 1
  {
    match d
    case Bool => 1
    case Int8 => 1
    case UInt8 => 1
    case Int16 => 2
    case UInt16 => 2
    case Int32 => 4
    case UInt32 => 4
    case Int64 => 8
    case UInt64 => 8
    case Float16 => 2
    case Float32 => 4
    case Float64 => 8
    case Complex64 => 8
    case Complex128 => 16
  }

  /** The primitive name awkward uses for a dtype. */
  function PrimitiveName(d: DType): string
  {
    match d
    case Bool => "bool"
    case Int8 => "int8"
    case UInt8 => "uint8"
    case Int16 => "int16"
    case UInt16 => "uint16"
    case Int32 => "int32"
    case UInt32 => "uint32"
    case Int64 => "int64"
    case UInt64 => "uint64"
    case Float16 => "float16"
    case Float32 => "float32"
    case Float64 => "float64"
    case Complex64 => "complex64"
    case Complex128 => "complex128"
  }

  /** `primitive_to_dtype`, with `None` for a string that names no primitive
      (`is_primitive` is false exactly then). */
  function PrimitiveToDType(name: string): Option<DType>
  {
    if name == "bool" then Some(Bool)
    else if name == "int8" then Some(Int8)
    else if name == "uint8" then Some(UInt8)
    else if name == "int16" then Some(Int16)
    else if name == "uint16" then Some(UInt16)
    else if name == "int32" then Some(Int32)
    else if name == "uint32" then Some(UInt32)
    else if name == "int64" then Some(Int64)
    else if name == "uint64" then Some(UInt64)
    else if name == "float16" then Some(Float16)
    else if name == "float32" then Some(Float32)
    else if name == "float64" then Some(Float64)
    else if name == "complex64" then Some(Complex64)
    else if name == "complex128" then Some(Complex128)
    else None
  }

  /** A primitive name and its dtype determine each other. */
  lemma PrimitiveNameRoundTrip(d: DType, name: string)
    ensures PrimitiveToDType(PrimitiveName(d)) == Some(d)
    ensures PrimitiveToDType(name) == Some(d) ==> name == PrimitiveName(d)
  {
  }

  /** Integer widths of the index, mask, offset and tag buffers of a form. */
  datatype IndexKind = I8 | U8 | I32 | U32 | I64

  /** `index_to_dtype`. */
  function IndexDType(k: IndexKind): (d: DType)
    ensures d in {Int8, UInt8, Int32, UInt32, Int64}
  {
    match k
    case I8 => Int8
    case U8 => UInt8
    case I32 => Int32
    case U32 => UInt32
    case I64 => Int64
  }
}

=== FILE: forms.dfy ===
/** The two trees of the reconstruction: a Form (the type description that
    names buffers by form key) and the layout built from it, with the
    container of lazy buffers it reads. The layout classes' constructors and
    their `.simplified` variants are not modelled beyond which one was asked
    for and with which arguments. */
module Forms {
  import opened Results
  import opened DTypes

  /** A node's parameters; their JSON values are kept as text. */
  type Params = map<string, string>

  /** A form node with the key naming its buffers and its parameters. */
  datatype Form = Form(node: FormNode, key: Option<string>, params: Params)

  /** The node kinds of a form. `OtherForm` stands for any further subclass of
      `Form`; `NumpyForm` carries its primitive as the dtype it names. */
  datatype FormNode =
    | EmptyForm
    | NumpyForm(primitive: DType)
    | UnmaskedForm(content: Form)
    | BitMaskedForm(mask: IndexKind, content: Form, validWhen: bool, lsbOrder: bool)
    | ByteMaskedForm(mask: IndexKind, content: Form, validWhen: bool)
    | IndexedOptionForm(index: IndexKind, content: Form)
    | IndexedForm(index: IndexKind, content: Form)
    | ListForm(starts: IndexKind, stops: IndexKind, content: Form)
    | ListOffsetForm(offsets: IndexKind, content: Form)
    | RegularForm(content: Form, size: int)
    // `fields == None` is a tuple, whose field names are "0", "1", ...
    | RecordForm(contents: seq<Form>, fields: Option<seq<string>>)
    | UnionForm(tags: IndexKind, index: IndexKind, contents: seq<Form>)
    | OtherForm(typeName: string)

  /** The buffers a node of this kind fetches from the container, in order. */
  function Attributes(node: FormNode): (r: seq<string>)
    ensures |r| <= 2
  {
    match node
    case NumpyForm(_) => ["data"]
    case BitMaskedForm(_, _, _, _) => ["mask"]
    case ByteMaskedForm(_, _, _) => ["mask"]
    case IndexedOptionForm(_, _) => ["index"]
    case IndexedForm(_, _) => ["index"]
    case ListForm(_, _, _) => ["starts", "stops"]
    case ListOffsetForm(_, _) => ["offsets"]
    case UnionForm(_, _, _) => ["tags", "index"]
    case _ => []
  }

  /** How many children a record builds: `zip(contents, fields)` stops at the
      shorter list, and a tuple's generated field names match its contents. */
  function RecordArity(contents: seq<Form>, fields: Option<seq<string>>): (n: nat)
    ensures n <= |contents|
    ensures fields.None? ==> n == |contents|
    ensures fields.Some? ==> n <= |fields.value| && (n == |contents| || n == |fields.value|)
  {
    if fields.Some? && |fields.value| < |contents| then |fields.value| else |contents|
  }

  /** A container key; a layout refers to the container's array object by the
      key it was fetched under, so a later dtype overwrite of that object is
      visible through every layout holding it. */
  type BufRef = string

  /** The layout classes, with their constructor arguments. `Simplified(l)` is
      the result of the `.simplified` constructor asked to build `l`. */
  datatype Layout =
    | EmptyArray
    | NumpyArray(data: BufRef, params: Params)
    | UnmaskedArray(content: Layout, params: Params)
    | BitMaskedArray(mask: BufRef, content: Layout, validWhen: bool, lsbOrder: bool, params: Params)
    | ByteMaskedArray(mask: BufRef, content: Layout, validWhen: bool, params: Params)
    | IndexedOptionArray(index: BufRef, content: Layout, params: Params)
    | IndexedArray(index: BufRef, content: Layout, params: Params)
    | ListArray(starts: BufRef, stops: BufRef, content: Layout, params: Params)
    | ListOffsetArray(offsets: BufRef, content: Layout, params: Params)
    | RegularArray(content: Layout, size: int, params: Params)
    | RecordArray(contents: seq<Layout>, fields: Option<seq<string>>, params: Params)
    | UnionArray(tags: BufRef, index: BufRef, contents: seq<Layout>, params: Params)
    | Simplified(request: Layout)

  /** The metadata of one lazy buffer in the container: its declared shape, its
      (overwritable) dtype, and the lazy array that produces its data. */
  datatype Buf = Buf(shape: seq<int>, dtype: DType, source: nat)

  /** The container: string keys to lazy buffers. Looking a key up twice
      yields the same object, as with a `dict`. */
  type Container = map<string, Buf>

  /** `len(buffer)`: the declared first extent; a 0-d buffer has none. */
  function Length(b: Buf): (r: Result<int>)
    ensures r.Ok? <==> |b.shape| >= 1
    ensures r.Ok? ==> r.value == b.shape[0]
    ensures r.Err? ==> r.error == IndexError
  {
    if |b.shape| == 0 then Err(IndexError) else Ok(b.shape[0])
  }
}

=== FILE: fromvirtual.dfy ===
/** `ak.from_virtual`: normalising the form argument, then rebuilding a layout
    from a Form and a container of lazy buffers, node by node. Buffers are
    never materialised; the only change made to the container is the dtype
    overwrite asked for by `use_dtypes_from_form`. */
module FromVirtual {
  import opened Results
  import opened DTypes
  import opened Forms

  /** `getkey(form, attribute)`: the container key of one of a node's buffers. */
  type KeyFn = (Form, string) -> string

  /** A built layout and the container as it stands afterwards. */
  datatype Built = Built(layout: Layout, container: Container)

  /** The key the default template `"{form_key}-{attribute}"` expands to; a
      missing form key formats as `None`. */
  function DefaultKey(formKey: Option<string>, attribute: string): (k: string)
    ensures |k| == |formKey.GetOr("None")| + 1 + |attribute|
    ensures k[..|formKey.GetOr("None")|] == formKey.GetOr("None")
    ensures k[|formKey.GetOr("None")|] == '-'
  {
    formKey.GetOr("None") + "-" + attribute
  }

  /** The default key function. */
  function DefaultGetKey(form: Form, attribute: string): string
  {
    DefaultKey(form.key, attribute)
  }

  /** Under the default template one node's buffers never share a key, so the
      starts/stops of a list and the tags/index of a union are distinct objects. */
  lemma DefaultKeysDistinct(formKey: Option<string>, a: string, b: string)
    requires a != b
    ensures DefaultKey(formKey, a) != DefaultKey(formKey, b)
  {
    var p := |formKey.GetOr("None")| + 1;
    assert DefaultKey(formKey, a)[p..] == a;
    assert DefaultKey(formKey, b)[p..] == b;
  }

  /** The keys one node fetches itself: one per attribute of its kind. */
  function OwnKeys(form: Form, getkey: KeyFn): set<string>
  {
    match form.node
    case NumpyForm(_) => {getkey(form, "data")}
    case BitMaskedForm(_, _, _, _) => {getkey(form, "mask")}
    case ByteMaskedForm(_, _, _) => {getkey(form, "mask")}
    case IndexedOptionForm(_, _) => {getkey(form, "index")}
    case IndexedForm(_, _) => {getkey(form, "index")}
    case ListForm(_, _, _) => {getkey(form, "starts"), getkey(form, "stops")}
    case ListOffsetForm(_, _) => {getkey(form, "offsets")}
    case UnionForm(_, _, _) => {getkey(form, "tags"), getkey(form, "index")}
    case _ => {}
  }

  /** The node's own keys are exactly the keys of its kind's attributes. */
  lemma OwnKeysAreAttributes(form: Form, getkey: KeyFn)
    ensures forall a :: a in Attributes(form.node) ==> getkey(form, a) in OwnKeys(form, getkey)
    ensures forall k :: k in OwnKeys(form, getkey) ==> exists a :: a in Attributes(form.node) && k == getkey(form, a)
  {
  }

  /** Every key the reconstruction of `form` may fetch: its own and its
      children's. */
  function Keys(form: Form, getkey: KeyFn): set<string>
    decreases form, 1
  {
    OwnKeys(form, getkey) + KeysAll(form, |Children(form)|, getkey)
  }

  /** The keys of the first `count` children of `parent`. */
  function KeysAll(parent: Form, count: nat, getkey: KeyFn): set<string>
    requires count <= |Children(parent)|
    decreases parent, 0, count
  {
    if count == 0 then {}
    else KeysAll(parent, count - 1, getkey) + Keys(Children(parent)[count - 1], getkey)
  }

  /** `c2` differs from `c` at most in the dtypes of the buffers under `touched`. */
  predicate Retyped(c: Container, c2: Container, touched: set<string>)
  {
    && c2.Keys == c.Keys
    && forall k | k in c :: c2[k].shape == c[k].shape && c2[k].source == c[k].source
                            && (k !in touched ==> c2[k] == c[k])
  }

  lemma RetypedTrans(c1: Container, c2: Container, c3: Container, k1: set<string>, k2: set<string>)
    requires Retyped(c1, c2, k1) && Retyped(c2, c3, k2)
    ensures Retyped(c1, c3, k1 + k2)
  {
  }

  /** The container with one buffer's dtype replaced (`buffer._dtype = d`). */
  function Retype(c: Container, key: string, d: DType): Container
    requires key in c
  {
    c[key := c[key].(dtype := d)]
  }

  /** One buffer lookup: `container[key]` (a `KeyError` when absent), the dtype
      overwrite when `useDtypes`, then `assert dtype == buffer.dtype`. */
  function Fetch(c: Container, key: string, want: DType, useDtypes: bool): (r: Result<Container>)
    ensures r.Ok? <==> key in c && (useDtypes || c[key].dtype == want)
    ensures key !in c ==> r == Err(KeyError(key))
    ensures key in c && r.Err? ==> r.error == AssertionError
    ensures r.Ok? && useDtypes ==> r.value == Retype(c, key, want)
    ensures r.Ok? && !useDtypes ==> r.value == c && c[key].dtype == want
  {
    if key !in c then Err(KeyError(key))
    else
      var buf := if useDtypes then c[key].(dtype := want) else c[key];
      if buf.dtype != want then Err(AssertionError)
      else
        assert !useDtypes ==> c[key := buf] == c;
        Ok(c[key := buf])
  }

  /** The list node's buffer checks with the overwrite written to `starts` and
      `stops`, then `assert len(starts) == len(stops)`. */
  function ListBuffers(c: Container, startsKey: string, stopsKey: string,
                       starts: IndexKind, stops: IndexKind, useDtypes: bool): (r: Result<Container>)
    ensures r.Ok? <==>
      && startsKey in c && stopsKey in c
      && (useDtypes || (c[startsKey].dtype == IndexDType(starts) && c[stopsKey].dtype == IndexDType(stops)))
      && |c[startsKey].shape| >= 1 && |c[stopsKey].shape| >= 1
      && c[startsKey].shape[0] == c[stopsKey].shape[0]
    ensures r.Ok? && useDtypes ==>
      r.value == Retype(Retype(c, startsKey, IndexDType(starts)), stopsKey, IndexDType(stops))
    ensures r.Ok? && !useDtypes ==> r.value == c
    ensures startsKey !in c ==> r == Err(KeyError(startsKey))
    ensures r.Err? && r.error.KeyError? ==> r.error.key in {startsKey, stopsKey} && r.error.key !in c
    ensures r.Err? && !r.error.KeyError? ==> r.error == AssertionError || r.error == IndexError
    ensures r.Err? && r.error == IndexError ==>
      startsKey in c && stopsKey in c && (|c[startsKey].shape| == 0 || |c[stopsKey].shape| == 0)
  {
    var c1 :- Fetch(c, startsKey, IndexDType(starts), useDtypes);
    var c2 :- Fetch(c1, stopsKey, IndexDType(stops), useDtypes);
    var n1 :- Length(c2[startsKey]);
    var n2 :- Length(c2[stopsKey]);
    if n1 != n2 then Err(AssertionError) else Ok(c2)
  }

  /** The list node as written: the dtype overwrites assign to `index`, which
      is unbound in this branch, so with `useDtypes` the first one raises
      `UnboundLocalError` right after `starts` is looked up. */
  function ListBuffersAsWritten(c: Container, startsKey: string, stopsKey: string,
                                starts: IndexKind, stops: IndexKind, useDtypes: bool): (r: Result<Container>)
    ensures startsKey !in c ==> r == Err(KeyError(startsKey))
    ensures startsKey in c && useDtypes ==> r == Err(NameError)
    ensures !useDtypes ==> r == ListBuffers(c, startsKey, stopsKey, starts, stops, false)
  {
    if startsKey !in c then Err(KeyError(startsKey))
    else if useDtypes then Err(NameError)
    else ListBuffers(c, startsKey, stopsKey, starts, stops, false)
  }

  /** A list of two one-element int64 buffers: the intended checks pass with
      `use_dtypes_from_form`, the code as written fails. */
  lemma ListOverrideUnbound()
    ensures var c := map["None-starts" := Buf([1], Int64, 0), "None-stops" := Buf([1], Int64, 1)];
      && ListBuffers(c, "None-starts", "None-stops", I64, I64, true).Ok?
      && ListBuffersAsWritten(c, "None-starts", "None-stops", I64, I64, true) == Err(NameError)
  {
  }

  /** The children a node builds, in order. A record builds only as many as
      `zip(contents, fields)` yields. */
  function Children(form: Form): (r: seq<Form>)
  {
    match form.node
    case UnmaskedForm(content) => [content]
    case BitMaskedForm(_, content, _, _) => [content]
    case ByteMaskedForm(_, content, _) => [content]
    case IndexedOptionForm(_, content) => [content]
    case IndexedForm(_, content) => [content]
    case ListForm(_, _, content) => [content]
    case ListOffsetForm(_, content) => [content]
    case RegularForm(content, _) => [content]
    case RecordForm(contents, fields) => contents[..RecordArity(contents, fields)]
    case UnionForm(_, _, contents) => contents
    case _ => []
  }

  /** The node's own buffers, fetched and checked in the order the code looks
      them up. */
  function FetchOwn(form: Form, c: Container, getkey: KeyFn, useDtypes: bool): (r: Result<Container>)
    ensures r.Ok? ==> OwnKeys(form, getkey) <= c.Keys
    ensures r.Ok? && !useDtypes ==> r.value == c
    ensures r.Err? && r.error.KeyError? ==> r.error.key in OwnKeys(form, getkey) && r.error.key !in c
  {
    match form.node
    case NumpyForm(dtype) => Fetch(c, getkey(form, "data"), dtype, useDtypes)
    case BitMaskedForm(mask, _, _, _) => Fetch(c, getkey(form, "mask"), IndexDType(mask), useDtypes)
    case ByteMaskedForm(mask, _, _) => Fetch(c, getkey(form, "mask"), IndexDType(mask), useDtypes)
    case IndexedOptionForm(index, _) => Fetch(c, getkey(form, "index"), IndexDType(index), useDtypes)
    case IndexedForm(index, _) => Fetch(c, getkey(form, "index"), IndexDType(index), useDtypes)
    case ListForm(starts, stops, _) =>
      ListBuffers(c, getkey(form, "starts"), getkey(form, "stops"), starts, stops, useDtypes)
    case ListOffsetForm(offsets, _) => Fetch(c, getkey(form, "offsets"), IndexDType(offsets), useDtypes)
    case UnionForm(tags, index, _) =>
      var c1 :- Fetch(c, getkey(form, "tags"), IndexDType(tags), useDtypes);
      Fetch(c1, getkey(form, "index"), IndexDType(index), useDtypes)
    case _ => Ok(c)
  }

  /** Option-type, indexed and union nodes, by the kind of layout built from
      them. They are also exactly the kinds whose constructor
      `allow_noncanonical_form` switches to the `.simplified` one, since those
      are the layouts that can merge a nesting the canonical rule refuses. */
  predicate OptionIndexedOrUnion(node: FormNode)
  {
    || node.UnmaskedForm? || node.BitMaskedForm? || node.ByteMaskedForm?
    || node.IndexedOptionForm? || node.IndexedForm? || node.UnionForm?
  }

  /** Whether the node's literal constructor accepts the children its form
      builds: an option or indexed layout refuses option, indexed and union
      content, and a union refuses union contents. Such a form is
      non-canonical (`option[option[...]]`, say); only the `.simplified`
      constructors merge the nesting away. */
  predicate Canonical(form: Form)
  {
    match form.node
    case UnmaskedForm(content) => !OptionIndexedOrUnion(content.node)
    case BitMaskedForm(_, content, _, _) => !OptionIndexedOrUnion(content.node)
    case ByteMaskedForm(_, content, _) => !OptionIndexedOrUnion(content.node)
    case IndexedOptionForm(_, content) => !OptionIndexedOrUnion(content.node)
    case IndexedForm(_, content) => !OptionIndexedOrUnion(content.node)
    case UnionForm(_, _, contents) => NoUnions(contents)
    case _ => true
  }

  predicate NoUnions(forms: seq<Form>)
  {
    forall i :: 0 <= i < |forms| ==> !forms[i].node.UnionForm?
  }

  /** Every node the reconstruction of `form` builds is canonical. */
  predicate AllCanonical(form: Form)
    decreases form, 1
  {
    Canonical(form) && ChildrenCanonical(form, |Children(form)|)
  }

  /** The first `count` children of `parent` are canonical throughout. */
  predicate ChildrenCanonical(parent: Form, count: nat)
    requires count <= |Children(parent)|
    decreases parent, 0, count
  {
    count == 0 || (ChildrenCanonical(parent, count - 1) && AllCanonical(Children(parent)[count - 1]))
  }

  /** The layout a node's constructor is asked to build from its buffer keys
      and built children. */
  function Request(form: Form, children: seq<Layout>, getkey: KeyFn): (r: Layout)
    requires |children| == |Children(form)| && !form.node.OtherForm?
    ensures !r.Simplified?
  {
    match form.node
    case EmptyForm => EmptyArray
    case NumpyForm(_) => NumpyArray(getkey(form, "data"), form.params)
    case UnmaskedForm(_) => UnmaskedArray(children[0], form.params)
    case BitMaskedForm(_, _, validWhen, lsbOrder) =>
      BitMaskedArray(getkey(form, "mask"), children[0], validWhen, lsbOrder, form.params)
    case ByteMaskedForm(_, _, validWhen) => ByteMaskedArray(getkey(form, "mask"), children[0], validWhen, form.params)
    case IndexedOptionForm(_, _) => IndexedOptionArray(getkey(form, "index"), children[0], form.params)
    case IndexedForm(_, _) => IndexedArray(getkey(form, "index"), children[0], form.params)
    case ListForm(_, _, _) => ListArray(getkey(form, "starts"), getkey(form, "stops"), children[0], form.params)
    case ListOffsetForm(_, _) => ListOffsetArray(getkey(form, "offsets"), children[0], form.params)
    case RegularForm(_, size) => RegularArray(children[0], size, form.params)
    case RecordForm(_, fields) => RecordArray(children, fields, form.params)
    case UnionForm(_, _, _) => UnionArray(getkey(form, "tags"), getkey(form, "index"), children, form.params)
  }

  /** The node's literal constructor: an unrecognised form kind is an
      `AssertionError`, and a non-canonical node is refused with `TypeError`. */
  function Literal(form: Form, children: seq<Layout>, getkey: KeyFn): (r: Result<Layout>)
    requires |children| == |Children(form)|
    ensures r.Err? <==> form.node.OtherForm? || !Canonical(form)
    ensures r.Err? ==> r.error == (if form.node.OtherForm? then AssertionError else TypeError)
  {
    if form.node.OtherForm? then Err(AssertionError)
    else if !Canonical(form) then Err(TypeError)
    else Ok(Request(form, children, getkey))
  }

  /** The node as built: by the `.simplified` constructor when `simplify` is
      set and the kind has one, which accepts non-canonical children; by the
      literal constructor otherwise. */
  function Assemble(form: Form, children: seq<Layout>, getkey: KeyFn, simplify: bool): (r: Result<Layout>)
    requires |children| == |Children(form)|
    ensures r.Err? <==> form.node.OtherForm? || (!simplify && !Canonical(form))
    ensures r.Err? ==> r.error == (if form.node.OtherForm? then AssertionError else TypeError)
    ensures r.Ok? ==> (r.value.Simplified? <==> simplify && OptionIndexedOrUnion(form.node))
  {
    if simplify && OptionIndexedOrUnion(form.node) then Ok(Simplified(Request(form, children, getkey)))
    else Literal(form, children, getkey)
  }

  /** The children built so far, and the container after them. */
  datatype BuiltAll = BuiltAll(layouts: seq<Layout>, container: Container)

  /** `_reconstitute`: fetch the node's buffers in order, overwriting and
      checking their dtypes, build the children left to right, then construct
      the node. Only the container's dtypes change, and only under the keys
      the form names; without `useDtypes` it is left as it was. */
  function Reconstitute(form: Form, c: Container, getkey: KeyFn, useDtypes: bool, simplify: bool): (r: Result<Built>)
    decreases form, 1
    ensures form.node.OtherForm? ==> r == Err(AssertionError)
  {
    var c1 :- FetchOwn(form, c, getkey, useDtypes);
    var all :- ReconstituteAll(form, |Children(form)|, c1, getkey, useDtypes, simplify);
    var layout :- Assemble(form, all.layouts, getkey, simplify);
    Ok(Built(layout, all.container))
  }

  /** The first `count` children of `parent`, built left to right with the
      container threaded through. */
  function ReconstituteAll(parent: Form, count: nat, c: Container, getkey: KeyFn,
                           useDtypes: bool, simplify: bool): (r: Result<BuiltAll>)
    requires count <= |Children(parent)|
    decreases parent, 0, count
    ensures r.Ok? ==> |r.value.layouts| == count
  {
    if count == 0 then Ok(BuiltAll([], c))
    else
      var prior :- ReconstituteAll(parent, count - 1, c, getkey, useDtypes, simplify);
      Extend(prior, Reconstitute(Children(parent)[count - 1], prior.container, getkey, useDtypes, simplify))
  }

  /** The children built so far, followed by the next child's outcome. */
  function Extend(prior: BuiltAll, last: Result<Built>): (r: Result<BuiltAll>)
    ensures r.Ok? <==> last.Ok?
    ensures r.Ok? ==> |r.value.layouts| == |prior.layouts| + 1 && r.value.container == last.value.container
  {
    match last
    case Err(e) => Err(e)
    case Ok(b) => Ok(BuiltAll(prior.layouts + [b.layout], b.container))
  }

  // ---------------------------------------------------------------------
  // What the reconstruction does to the container

  /** A successful reconstruction found every key the form names; it changed
      only the dtypes of those buffers, and nothing at all without
      `useDtypes`. A `KeyError` names a key of the form that is missing. */
  lemma {:induction false} TouchesOnlyItsKeys(form: Form, c: Container, getkey: KeyFn, useDtypes: bool, simplify: bool)
    ensures var r := Reconstitute(form, c, getkey, useDtypes, simplify);
      && (r.Ok? ==> Keys(form, getkey) <= c.Keys && Retyped(c, r.value.container, Keys(form, getkey)))
      && (r.Ok? && !useDtypes ==> r.value.container == c)
      && (r.Err? && r.error.KeyError? ==> r.error.key in Keys(form, getkey) && r.error.key !in c)
    decreases form, 1
  {
    var own := FetchOwn(form, c, getkey, useDtypes);
    if own.Ok? {
      FetchOwnRetypes(form, c, getkey, useDtypes);
      ChildrenTouchOnlyTheirKeys(form, |Children(form)|, own.value, getkey, useDtypes, simplify);
    }
  }

  /** The node's own lookups change only the dtypes of its own buffers. */
  lemma FetchOwnRetypes(form: Form, c: Container, getkey: KeyFn, useDtypes: bool)
    requires FetchOwn(form, c, getkey, useDtypes).Ok?
    ensures Retyped(c, FetchOwn(form, c, getkey, useDtypes).value, OwnKeys(form, getkey))
  {
    match form.node
    case NumpyForm(dtype) => FetchRetypes(c, getkey(form, "data"), dtype, useDtypes);
    case BitMaskedForm(mask, _, _, _) => FetchRetypes(c, getkey(form, "mask"), IndexDType(mask), useDtypes);
    case ByteMaskedForm(mask, _, _) => FetchRetypes(c, getkey(form, "mask"), IndexDType(mask), useDtypes);
    case IndexedOptionForm(index, _) => FetchRetypes(c, getkey(form, "index"), IndexDType(index), useDtypes);
    case IndexedForm(index, _) => FetchRetypes(c, getkey(form, "index"), IndexDType(index), useDtypes);
    case ListOffsetForm(offsets, _) => FetchRetypes(c, getkey(form, "offsets"), IndexDType(offsets), useDtypes);
    case ListForm(starts, stops, _) =>
      if useDtypes {
        var c1 := Retype(c, getkey(form, "starts"), IndexDType(starts));
        RetypedTrans(c, c1, Retype(c1, getkey(form, "stops"), IndexDType(stops)),
                     {getkey(form, "starts")}, {getkey(form, "stops")});
      }
    case UnionForm(tags, index, _) =>
      var c1 := Fetch(c, getkey(form, "tags"), IndexDType(tags), useDtypes).value;
      FetchRetypes(c, getkey(form, "tags"), IndexDType(tags), useDtypes);
      FetchRetypes(c1, getkey(form, "index"), IndexDType(index), useDtypes);
      RetypedTrans(c, c1, FetchOwn(form, c, getkey, useDtypes).value,
                   {getkey(form, "tags")}, {getkey(form, "index")});
    case _ =>
  }

  /** One lookup changes at most the dtype of the buffer it fetched. */
  lemma FetchRetypes(c: Container, key: string, want: DType, useDtypes: bool)
    requires Fetch(c, key, want, useDtypes).Ok?
    ensures Retyped(c, Fetch(c, key, want, useDtypes).value, {key})
  {
  }

  /** The same for the first `count` children of `parent`. */
  lemma {:induction false} ChildrenTouchOnlyTheirKeys(parent: Form, count: nat, c: Container, getkey: KeyFn,
                                                      useDtypes: bool, simplify: bool)
    requires count <= |Children(parent)|
    ensures var r := ReconstituteAll(parent, count, c, getkey, useDtypes, simplify);
      && (r.Ok? ==> KeysAll(parent, count, getkey) <= c.Keys
                    && Retyped(c, r.value.container, KeysAll(parent, count, getkey)))
      && (r.Ok? && !useDtypes ==> r.value.container == c)
      && (r.Err? && r.error.KeyError? ==> r.error.key in KeysAll(parent, count, getkey) && r.error.key !in c)
    decreases parent, 0, count
  {
    if count > 0 {
      var child := Children(parent)[count - 1];
      ChildrenTouchOnlyTheirKeys(parent, count - 1, c, getkey, useDtypes, simplify);
      var prior := ReconstituteAll(parent, count - 1, c, getkey, useDtypes, simplify);
      assert KeysAll(parent, count, getkey) == KeysAll(parent, count - 1, getkey) + Keys(child, getkey);
      if prior.Ok? {
        TouchesOnlyItsKeys(child, prior.value.container, getkey, useDtypes, simplify);
        var last := Reconstitute(child, prior.value.container, getkey, useDtypes, simplify);
        if last.Ok? {
          RetypedTrans(c, prior.value.container, last.value.container,
                       KeysAll(parent, count - 1, getkey), Keys(child, getkey));
          assert ReconstituteAll(parent, count, c, getkey, useDtypes, simplify)
              == Ok(BuiltAll(prior.value.layouts + [last.value.layout], last.value.container));
        } else {
          assert ReconstituteAll(parent, count, c, getkey, useDtypes, simplify) == Err(last.error);
        }
      } else {
        assert ReconstituteAll(parent, count, c, getkey, useDtypes, simplify) == Err(prior.error);
      }
    }
  }

  // ---------------------------------------------------------------------
  // Without `simplify` the layout mirrors the form

  /** `layout` is the literal construction of `form`: the same node kind with
      the form's parameters, buffer keys, flags, size and record fields, and
      children that mirror the children the form builds. */
  predicate Mirrors(form: Form, layout: Layout, getkey: KeyFn)
    decreases form
  {
    match form.node
    case EmptyForm => layout == EmptyArray
    case NumpyForm(_) => layout == NumpyArray(getkey(form, "data"), form.params)
    case UnmaskedForm(content) =>
      layout.UnmaskedArray? && layout.params == form.params && Mirrors(content, layout.content, getkey)
    case BitMaskedForm(_, content, validWhen, lsbOrder) =>
      && layout.BitMaskedArray? && layout.mask == getkey(form, "mask") && layout.params == form.params
      && layout.validWhen == validWhen && layout.lsbOrder == lsbOrder && Mirrors(content, layout.content, getkey)
    case ByteMaskedForm(_, content, validWhen) =>
      && layout.ByteMaskedArray? && layout.mask == getkey(form, "mask") && layout.params == form.params
      && layout.validWhen == validWhen && Mirrors(content, layout.content, getkey)
    case IndexedOptionForm(_, content) =>
      && layout.IndexedOptionArray? && layout.index == getkey(form, "index") && layout.params == form.params
      && Mirrors(content, layout.content, getkey)
    case IndexedForm(_, content) =>
      && layout.IndexedArray? && layout.index == getkey(form, "index") && layout.params == form.params
      && Mirrors(content, layout.content, getkey)
    case ListForm(_, _, content) =>
      && layout.ListArray? && layout.starts == getkey(form, "starts") && layout.stops == getkey(form, "stops")
      && layout.params == form.params && Mirrors(content, layout.content, getkey)
    case ListOffsetForm(_, content) =>
      && layout.ListOffsetArray? && layout.offsets == getkey(form, "offsets") && layout.params == form.params
      && Mirrors(content, layout.content, getkey)
    case RegularForm(content, size) =>
      && layout.RegularArray? && layout.size == size && layout.params == form.params
      && Mirrors(content, layout.content, getkey)
    case RecordForm(contents, fields) =>
      && layout.RecordArray? && layout.fields == fields && layout.params == form.params
      && |layout.contents| == RecordArity(contents, fields)
      && forall i :: 0 <= i < |layout.contents| ==> Mirrors(contents[i], layout.contents[i], getkey)
    case UnionForm(_, _, contents) =>
      && layout.UnionArray? && layout.tags == getkey(form, "tags") && layout.index == getkey(form, "index")
      && layout.params == form.params && |layout.contents| == |contents|
      && forall i :: 0 <= i < |layout.contents| ==> Mirrors(contents[i], layout.contents[i], getkey)
    case OtherForm(_) => false
  }

  /** With `simplify` false every node is built by its literal constructor, so
      the layout has the form's shape exactly. */
  lemma {:induction false} LiteralMirrorsForm(form: Form, c: Container, getkey: KeyFn, useDtypes: bool)
    requires Reconstitute(form, c, getkey, useDtypes, false).Ok?
    ensures Mirrors(form, Reconstitute(form, c, getkey, useDtypes, false).value.layout, getkey)
    decreases form, 1
  {
    var c1 := FetchOwn(form, c, getkey, useDtypes).value;
    var all := ReconstituteAll(form, |Children(form)|, c1, getkey, useDtypes, false).value;
    ChildrenMirror(form, |Children(form)|, c1, getkey, useDtypes);
    LiteralMirrors(form, all.layouts, getkey);
    assert Reconstitute(form, c, getkey, useDtypes, false).value.layout == Request(form, all.layouts, getkey);
  }

  /** A constructor's request built from mirroring children mirrors the form. */
  lemma LiteralMirrors(form: Form, children: seq<Layout>, getkey: KeyFn)
    requires |children| == |Children(form)| && !form.node.OtherForm?
    requires ChildrenMirrored(form, children, getkey)
    ensures Mirrors(form, Request(form, children, getkey), getkey)
  {
  }

  /** Each of `layouts` mirrors the corresponding child form of `parent`. */
  predicate ChildrenMirrored(parent: Form, layouts: seq<Layout>, getkey: KeyFn)
  {
    |layouts| <= |Children(parent)|
    && forall i :: 0 <= i < |layouts| ==> Mirrors(Children(parent)[i], layouts[i], getkey)
  }

  lemma MirroredAppend(parent: Form, layouts: seq<Layout>, last: Layout, getkey: KeyFn)
    requires ChildrenMirrored(parent, layouts, getkey) && |layouts| < |Children(parent)|
    requires Mirrors(Children(parent)[|layouts|], last, getkey)
    ensures ChildrenMirrored(parent, layouts + [last], getkey)
  {
    forall i | 0 <= i < |layouts| + 1
      ensures Mirrors(Children(parent)[i], (layouts + [last])[i], getkey)
    {
      if i < |layouts| {
        assert (layouts + [last])[i] == layouts[i];
      }
    }
  }

  /** The children built so far mirror the corresponding child forms. */
  lemma {:induction false} ChildrenMirror(parent: Form, count: nat, c: Container, getkey: KeyFn, useDtypes: bool)
    requires count <= |Children(parent)|
    requires ReconstituteAll(parent, count, c, getkey, useDtypes, false).Ok?
    ensures ChildrenMirrored(parent, ReconstituteAll(parent, count, c, getkey, useDtypes, false).value.layouts, getkey)
    decreases parent, 0, count
  {
    if count > 0 {
      var prior := ReconstituteAll(parent, count - 1, c, getkey, useDtypes, false).value;
      var child := Children(parent)[count - 1];
      var last := Reconstitute(child, prior.container, getkey, useDtypes, false).value;
      ChildrenMirror(parent, count - 1, c, getkey, useDtypes);
      LiteralMirrorsForm(child, prior.container, getkey, useDtypes);
      MirroredAppend(parent, prior.layouts, last.layout, getkey);
      assert ReconstituteAll(parent, count, c, getkey, useDtypes, false).value.layouts == prior.layouts + [last.layout];
    }
  }

  // ---------------------------------------------------------------------
  // `simplify` only chooses the constructor

  /** The layout with every `.simplified` request replaced by the literal
      construction it asked for. */
  function Strip(l: Layout): (r: Layout)
    ensures !r.Simplified?
  {
    match l
    case Simplified(request) => Strip(request)
    case UnmaskedArray(content, params) => UnmaskedArray(Strip(content), params)
    case BitMaskedArray(mask, content, validWhen, lsbOrder, params) =>
      BitMaskedArray(mask, Strip(content), validWhen, lsbOrder, params)
    case ByteMaskedArray(mask, content, validWhen, params) => ByteMaskedArray(mask, Strip(content), validWhen, params)
    case IndexedOptionArray(index, content, params) => IndexedOptionArray(index, Strip(content), params)
    case IndexedArray(index, content, params) => IndexedArray(index, Strip(content), params)
    case ListArray(starts, stops, content, params) => ListArray(starts, stops, Strip(content), params)
    case ListOffsetArray(offsets, content, params) => ListOffsetArray(offsets, Strip(content), params)
    case RegularArray(content, size, params) => RegularArray(Strip(content), size, params)
    case RecordArray(contents, fields, params) =>
      RecordArray(seq(|contents|, i requires 0 <= i < |contents| => Strip(contents[i])), fields, params)
    case UnionArray(tags, index, contents, params) =>
      UnionArray(tags, index, seq(|contents|, i requires 0 <= i < |contents| => Strip(contents[i])), params)
    case _ => l
  }

  /** `allow_noncanonical_form` changes which constructor builds the option,
      indexed and union nodes and nothing else: the same buffers are fetched,
      a literal success is a simplified one whose `.simplified` requests
      undo to the literal layout, and a literal success needs every node to
      be canonical. Where the two differ, it is because a literal
      constructor refused a non-canonical node with `TypeError`; on a
      canonical form they end alike. */
  lemma {:induction false} SimplifyOnlyWraps(form: Form, c: Container, getkey: KeyFn, useDtypes: bool)
    ensures NodeStripRelated(Reconstitute(form, c, getkey, useDtypes, false),
                             Reconstitute(form, c, getkey, useDtypes, true), AllCanonical(form))
    decreases form, 1
  {
    var own := FetchOwn(form, c, getkey, useDtypes);
    if own.Ok? {
      var n := |Children(form)|;
      ChildrenSimplifyOnlyWrap(form, n, own.value, getkey, useDtypes);
      var literal := ReconstituteAll(form, n, own.value, getkey, useDtypes, false);
      var simplified := ReconstituteAll(form, n, own.value, getkey, useDtypes, true);
      if literal.Ok? {
        StripAssemble(form, simplified.value.layouts, literal.value.layouts, getkey);
        var a := Assemble(form, simplified.value.layouts, getkey, true);
        var b := Assemble(form, literal.value.layouts, getkey, false);
        if a.Ok? {
          assert Reconstitute(form, c, getkey, useDtypes, true) == Ok(Built(a.value, simplified.value.container));
        } else {
          assert Reconstitute(form, c, getkey, useDtypes, true) == Err(a.error);
        }
        if b.Ok? {
          assert Reconstitute(form, c, getkey, useDtypes, false) == Ok(Built(b.value, literal.value.container));
        } else {
          assert Reconstitute(form, c, getkey, useDtypes, false) == Err(b.error);
        }
      } else {
        assert Reconstitute(form, c, getkey, useDtypes, false) == Err(literal.error);
        if simplified.Err? {
          assert Reconstitute(form, c, getkey, useDtypes, true) == Err(simplified.error);
        }
      }
    }
  }

  /** Assembling a node from children that agree up to simplification: a
      literal success is a simplified one that strips to it. */
  lemma StripAssemble(form: Form, simps: seq<Layout>, lits: seq<Layout>, getkey: KeyFn)
    requires StripsTo(simps, lits) && |lits| == |Children(form)|
    ensures Assemble(form, lits, getkey, false).Ok? ==>
              && Assemble(form, simps, getkey, true).Ok?
              && Strip(Assemble(form, simps, getkey, true).value) == Assemble(form, lits, getkey, false).value
  {
    if !form.node.OtherForm? {
      StripRequest(form, simps, lits, getkey);
    }
  }

  /** Stripping commutes with the constructors' requests. */
  lemma StripRequest(form: Form, simps: seq<Layout>, lits: seq<Layout>, getkey: KeyFn)
    requires StripsTo(simps, lits) && |lits| == |Children(form)|
    requires !form.node.OtherForm?
    ensures Strip(Request(form, simps, getkey)) == Request(form, lits, getkey)
  {
    if form.node.RecordForm? || form.node.UnionForm? {
      assert seq(|simps|, i requires 0 <= i < |simps| => Strip(simps[i])) == lits;
    }
  }

  /** Two reconstructions of one node, without and with
      `allow_noncanonical_form`, where `canonical` says whether every node
      they build is canonical: a literal success is a simplified one with the
      same container that strips to the literal layout, and needs
      `canonical`; a literal failure beside a simplified success is a
      `TypeError`; and when `canonical` holds they end alike. */
  predicate NodeStripRelated(literal: Result<Built>, simplified: Result<Built>, canonical: bool)
  {
    && (literal.Ok? ==> && simplified.Ok? && simplified.value.container == literal.value.container
                        && Strip(simplified.value.layout) == literal.value.layout
                        && canonical)
    && (literal.Err? && simplified.Ok? ==> literal.error == TypeError)
    && (canonical ==> (simplified.Ok? <==> literal.Ok?) && (simplified.Err? ==> simplified.error == literal.error))
  }

  /** The same relation between two runs over children. */
  predicate StripRelated(literal: Result<BuiltAll>, simplified: Result<BuiltAll>, canonical: bool)
  {
    && (literal.Ok? ==> && simplified.Ok? && simplified.value.container == literal.value.container
                        && StripsTo(simplified.value.layouts, literal.value.layouts)
                        && canonical)
    && (literal.Err? && simplified.Ok? ==> literal.error == TypeError)
    && (canonical ==> (simplified.Ok? <==> literal.Ok?) && (simplified.Err? ==> simplified.error == literal.error))
  }

  /** Each of `simps` strips to the corresponding one of `lits`. */
  predicate StripsTo(simps: seq<Layout>, lits: seq<Layout>)
  {
    |simps| == |lits| && forall i :: 0 <= i < |lits| ==> Strip(simps[i]) == lits[i]
  }

  lemma StripsToAppend(simps: seq<Layout>, lits: seq<Layout>, s: Layout, l: Layout)
    requires StripsTo(simps, lits) && Strip(s) == l
    ensures StripsTo(simps + [s], lits + [l])
  {
    forall i | 0 <= i < |lits| + 1
      ensures Strip((simps + [s])[i]) == (lits + [l])[i]
    {
      if i < |lits| {
        assert (simps + [s])[i] == simps[i] && (lits + [l])[i] == lits[i];
      }
    }
  }

  /** The children agree up to simplification, in the same sense. */
  lemma {:induction false} ChildrenSimplifyOnlyWrap(parent: Form, count: nat, c: Container, getkey: KeyFn,
                                                    useDtypes: bool)
    requires count <= |Children(parent)|
    ensures StripRelated(ReconstituteAll(parent, count, c, getkey, useDtypes, false),
                         ReconstituteAll(parent, count, c, getkey, useDtypes, true),
                         ChildrenCanonical(parent, count))
    decreases parent, 0, count, 1
  {
    if count > 0 {
      ChildrenSimplifyOnlyWrap(parent, count - 1, c, getkey, useDtypes);
      if ReconstituteAll(parent, count - 1, c, getkey, useDtypes, false).Ok? {
        NextChildSimplifyOnlyWraps(parent, count, c, getkey, useDtypes);
      } else {
        NextChildAfterLiteralFailed(parent, count, c, getkey, useDtypes);
      }
    }
  }

  /** The step once the literal run over the earlier children failed: it
      fails the same way, and the simplified run keeps its relation to it. */
  lemma NextChildAfterLiteralFailed(parent: Form, count: nat, c: Container, getkey: KeyFn, useDtypes: bool)
    requires 0 < count <= |Children(parent)|
    requires ReconstituteAll(parent, count - 1, c, getkey, useDtypes, false).Err?
    requires StripRelated(ReconstituteAll(parent, count - 1, c, getkey, useDtypes, false),
                          ReconstituteAll(parent, count - 1, c, getkey, useDtypes, true),
                          ChildrenCanonical(parent, count - 1))
    ensures StripRelated(ReconstituteAll(parent, count, c, getkey, useDtypes, false),
                         ReconstituteAll(parent, count, c, getkey, useDtypes, true),
                         ChildrenCanonical(parent, count))
  {
    var literal := ReconstituteAll(parent, count - 1, c, getkey, useDtypes, false);
    var simplified := ReconstituteAll(parent, count - 1, c, getkey, useDtypes, true);
    assert ChildrenCanonical(parent, count) ==> ChildrenCanonical(parent, count - 1);
    assert ReconstituteAll(parent, count, c, getkey, useDtypes, false) == Err(literal.error);
    if simplified.Err? {
      assert ReconstituteAll(parent, count, c, getkey, useDtypes, true) == Err(simplified.error);
    }
  }

  /** The step once the literal run over the earlier children succeeded:
      the next child is related by `SimplifyOnlyWraps`. */
  lemma NextChildSimplifyOnlyWraps(parent: Form, count: nat, c: Container, getkey: KeyFn, useDtypes: bool)
    requires 0 < count <= |Children(parent)|
    requires ReconstituteAll(parent, count - 1, c, getkey, useDtypes, false).Ok?
    requires StripRelated(ReconstituteAll(parent, count - 1, c, getkey, useDtypes, false),
                          ReconstituteAll(parent, count - 1, c, getkey, useDtypes, true),
                          ChildrenCanonical(parent, count - 1))
    ensures StripRelated(ReconstituteAll(parent, count, c, getkey, useDtypes, false),
                         ReconstituteAll(parent, count, c, getkey, useDtypes, true),
                         ChildrenCanonical(parent, count))
    decreases parent, 0, count, 0
  {
    var child := Children(parent)[count - 1];
    var literal := ReconstituteAll(parent, count - 1, c, getkey, useDtypes, false).value;
    var simplified := ReconstituteAll(parent, count - 1, c, getkey, useDtypes, true).value;
    SimplifyOnlyWraps(child, literal.container, getkey, useDtypes);
    ExtendRelated(literal, simplified,
                  Reconstitute(child, literal.container, getkey, useDtypes, false),
                  Reconstitute(child, literal.container, getkey, useDtypes, true),
                  ChildrenCanonical(parent, count - 1), AllCanonical(child));
  }

  /** Related runs over children, extended by related outcomes of the next
      child, stay related. */
  lemma ExtendRelated(literal: BuiltAll, simplified: BuiltAll, lastLiteral: Result<Built>,
                      lastSimplified: Result<Built>, canonical: bool, childCanonical: bool)
    requires StripRelated(Ok(literal), Ok(simplified), canonical)
    requires NodeStripRelated(lastLiteral, lastSimplified, childCanonical)
    ensures StripRelated(Extend(literal, lastLiteral), Extend(simplified, lastSimplified), canonical && childCanonical)
  {
    if lastLiteral.Ok? {
      StripsToAppend(simplified.layouts, literal.layouts, lastSimplified.value.layout, lastLiteral.value.layout);
    }
  }

  /** `option[option[int64]]`: an indexed-option node over another over an
      int64 leaf, with all three buffers present and of the right dtypes. */
  function OptionOfOption(): (r: (Form, Container))
    ensures r.0.node.IndexedOptionForm? && !Canonical(r.0)
  {
    var leaf := Form(NumpyForm(Int64), Some("c"), map[]);
    var inner := Form(IndexedOptionForm(I64, leaf), Some("b"), map[]);
    (Form(IndexedOptionForm(I64, inner), Some("a"), map[]),
     map["a-index" := Buf([1], Int64, 0), "b-index" := Buf([1], Int64, 1), "c-data" := Buf([1], Int64, 2)])
  }

  /** The literal constructors refuse the outer indexed-option node over the
      inner one; the `.simplified` ones merge the two. */
  lemma OptionOfOptionNeedsSimplify()
    ensures var (form, c) := OptionOfOption();
      && Reconstitute(form, c, DefaultGetKey, true, false) == Err(TypeError)
      && Reconstitute(form, c, DefaultGetKey, true, true).Ok?
  {
    var (form, c) := OptionOfOption();
    OptionOfOptionFetches();
    OptionOfOptionInner(false);
    OptionOfOptionInner(true);
    assert ReconstituteAll(form, 1, c, DefaultGetKey, true, false).Ok?;
    assert ReconstituteAll(form, 1, c, DefaultGetKey, true, true).Ok?;
  }

  /** Every lookup finds its buffer with the right dtype, so the overwrite
      leaves the container as it was. */
  lemma OptionOfOptionFetches()
    ensures var (form, c) := OptionOfOption();
      var inner := form.node.content;
      && FetchOwn(form, c, DefaultGetKey, true) == Ok(c)
      && FetchOwn(inner, c, DefaultGetKey, true) == Ok(c)
      && FetchOwn(inner.node.content, c, DefaultGetKey, true) == Ok(c)
  {
    var (form, c) := OptionOfOption();
    var inner := form.node.content;
    assert DefaultGetKey(form, "index") == "a-index";
    assert DefaultGetKey(inner, "index") == "b-index";
    assert DefaultGetKey(inner.node.content, "data") == "c-data";
    assert Retype(c, "a-index", Int64) == c;
    assert Retype(c, "b-index", Int64) == c;
    assert Retype(c, "c-data", Int64) == c;
  }

  /** The inner option over the leaf is canonical and builds either way. */
  lemma OptionOfOptionInner(simplify: bool)
    ensures var (form, c) := OptionOfOption();
      Reconstitute(form.node.content, c, DefaultGetKey, true, simplify).Ok?
  {
    var (form, c) := OptionOfOption();
    var inner := form.node.content;
    var leaf := inner.node.content;
    OptionOfOptionFetches();
    NumpyLeaf(leaf, c, DefaultGetKey, true, simplify);
    assert ReconstituteAll(inner, 1, c, DefaultGetKey, true, simplify).Ok?;
    assert Canonical(inner);
  }

  /** A `NumpyForm` leaf fetches its one buffer and builds a `NumpyArray`
      over its key, whichever constructor is asked for. */
  lemma NumpyLeaf(form: Form, c: Container, getkey: KeyFn, useDtypes: bool, simplify: bool)
    requires form.node.NumpyForm?
    ensures var own := Fetch(c, getkey(form, "data"), form.node.primitive, useDtypes);
      Reconstitute(form, c, getkey, useDtypes, simplify)
        == if own.Ok? then Ok(Built(NumpyArray(getkey(form, "data"), form.params), own.value)) else Err(own.error)
  {
    var own := FetchOwn(form, c, getkey, useDtypes);
    if own.Ok? {
      assert ReconstituteAll(form, 0, own.value, getkey, useDtypes, simplify) == Ok(BuiltAll([], own.value));
    }
  }

  // ---------------------------------------------------------------------
  // `use_dtypes_from_form` when the dtypes already agree

  /** When every buffer already carries the dtype its form implies, the
      overwrite writes back what is there: a reconstruction that succeeds
      without `use_dtypes_from_form` leaves the container as it was and
      gives the same result with it. */
  lemma {:induction false} UseDTypesHarmless(form: Form, c: Container, getkey: KeyFn, simplify: bool)
    requires Reconstitute(form, c, getkey, false, simplify).Ok?
    ensures Reconstitute(form, c, getkey, false, simplify).value.container == c
    ensures Reconstitute(form, c, getkey, true, simplify) == Reconstitute(form, c, getkey, false, simplify)
    decreases form, 1
  {
    FetchOwnHarmless(form, c, getkey);
    ChildrenUseDTypesHarmless(form, |Children(form)|, c, getkey, simplify);
  }

  /** The same for the first `count` children of `parent`. */
  lemma {:induction false} ChildrenUseDTypesHarmless(parent: Form, count: nat, c: Container, getkey: KeyFn,
                                                     simplify: bool)
    requires count <= |Children(parent)|
    requires ReconstituteAll(parent, count, c, getkey, false, simplify).Ok?
    ensures ReconstituteAll(parent, count, c, getkey, false, simplify).value.container == c
    ensures ReconstituteAll(parent, count, c, getkey, true, simplify)
         == ReconstituteAll(parent, count, c, getkey, false, simplify)
    decreases parent, 0, count
  {
    if count > 0 {
      var child := Children(parent)[count - 1];
      ChildrenUseDTypesHarmless(parent, count - 1, c, getkey, simplify);
      var prior := ReconstituteAll(parent, count - 1, c, getkey, false, simplify).value;
      var last := Reconstitute(child, c, getkey, false, simplify);
      assert last.Ok?;
      UseDTypesHarmless(child, c, getkey, simplify);
      assert ReconstituteAll(parent, count, c, getkey, true, simplify)
          == Ok(BuiltAll(prior.layouts + [last.value.layout], last.value.container));
    }
  }

  /** The node's own lookups are unaffected likewise. */
  lemma FetchOwnHarmless(form: Form, c: Container, getkey: KeyFn)
    requires FetchOwn(form, c, getkey, false).Ok?
    ensures FetchOwn(form, c, getkey, true) == Ok(c)
  {
    match form.node
    case NumpyForm(dtype) => FetchHarmless(c, getkey(form, "data"), dtype);
    case BitMaskedForm(mask, _, _, _) => FetchHarmless(c, getkey(form, "mask"), IndexDType(mask));
    case ByteMaskedForm(mask, _, _) => FetchHarmless(c, getkey(form, "mask"), IndexDType(mask));
    case IndexedOptionForm(index, _) => FetchHarmless(c, getkey(form, "index"), IndexDType(index));
    case IndexedForm(index, _) => FetchHarmless(c, getkey(form, "index"), IndexDType(index));
    case ListForm(starts, stops, _) =>
      FetchHarmless(c, getkey(form, "starts"), IndexDType(starts));
      FetchHarmless(c, getkey(form, "stops"), IndexDType(stops));
    case ListOffsetForm(offsets, _) => FetchHarmless(c, getkey(form, "offsets"), IndexDType(offsets));
    case UnionForm(tags, index, _) =>
      FetchHarmless(c, getkey(form, "tags"), IndexDType(tags));
      FetchHarmless(c, getkey(form, "index"), IndexDType(index));
    case _ =>
  }

  lemma FetchHarmless(c: Container, key: string, want: DType)
    requires Fetch(c, key, want, false).Ok?
    ensures Fetch(c, key, want, true) == Ok(c)
  {
    assert c[key].(dtype := want) == c[key];
  }

  // ---------------------------------------------------------------------
  // Only the form's own keys matter

  /** `c1` and `c2` hold the same buffers under every key of `ks`. */
  predicate Agree(c1: Container, c2: Container, ks: set<string>)
  {
    forall k | k in ks :: (k in c1 <==> k in c2) && (k in c1 ==> c1[k] == c2[k])
  }

  /** The container is read only through `container[getkey(form, attr)]`:
      two containers that agree on the form's keys give the same layout, or
      the same exception, and still agree on those keys afterwards. */
  lemma {:induction false} OnlyItsKeysMatter(form: Form, c1: Container, c2: Container, ks: set<string>,
                                             getkey: KeyFn, useDtypes: bool, simplify: bool)
    requires Keys(form, getkey) <= ks && Agree(c1, c2, ks)
    ensures var r1 := Reconstitute(form, c1, getkey, useDtypes, simplify);
      var r2 := Reconstitute(form, c2, getkey, useDtypes, simplify);
      && (r1.Ok? <==> r2.Ok?)
      && (r1.Err? ==> r1.error == r2.error)
      && (r1.Ok? ==> r1.value.layout == r2.value.layout && Agree(r1.value.container, r2.value.container, ks))
    decreases form, 1
  {
    FetchOwnAgree(form, c1, c2, ks, getkey, useDtypes);
    var own1 := FetchOwn(form, c1, getkey, useDtypes);
    var own2 := FetchOwn(form, c2, getkey, useDtypes);
    if own1.Ok? {
      var n := |Children(form)|;
      WithinOfSubset(form, n, getkey, ks);
      ChildrenOnlyTheirKeysMatter(form, n, own1.value, own2.value, ks, getkey, useDtypes, simplify);
      var all1 := ReconstituteAll(form, n, own1.value, getkey, useDtypes, simplify);
      var all2 := ReconstituteAll(form, n, own2.value, getkey, useDtypes, simplify);
      if all1.Ok? {
        assert all1.value.layouts == all2.value.layouts;
      } else {
        assert Reconstitute(form, c1, getkey, useDtypes, simplify) == Err(all1.error);
        assert Reconstitute(form, c2, getkey, useDtypes, simplify) == Err(all2.error);
      }
    } else {
      assert Reconstitute(form, c1, getkey, useDtypes, simplify) == Err(own1.error);
      assert Reconstitute(form, c2, getkey, useDtypes, simplify) == Err(own2.error);
    }
  }

  /** Two runs over the children ended alike: the same exception, or the
      same layouts with containers that agree on `ks`. */
  predicate SameRuns(r1: Result<BuiltAll>, r2: Result<BuiltAll>, ks: set<string>)
  {
    && (r1.Ok? <==> r2.Ok?)
    && (r1.Err? ==> r1.error == r2.error)
    && (r1.Ok? ==> r1.value.layouts == r2.value.layouts && Agree(r1.value.container, r2.value.container, ks))
  }

  /** The same for the first `count` children of `parent`. */
  lemma {:induction false} ChildrenOnlyTheirKeysMatter(parent: Form, count: nat, c1: Container, c2: Container,
                                                       ks: set<string>, getkey: KeyFn, useDtypes: bool,
                                                       simplify: bool)
    requires count <= |Children(parent)|
    requires ChildrenWithin(parent, count, getkey, ks) && Agree(c1, c2, ks)
    ensures SameRuns(ReconstituteAll(parent, count, c1, getkey, useDtypes, simplify),
                    ReconstituteAll(parent, count, c2, getkey, useDtypes, simplify), ks)
    decreases parent, 0, count, 1
  {
    if count > 0 {
      ChildrenOnlyTheirKeysMatter(parent, count - 1, c1, c2, ks, getkey, useDtypes, simplify);
      NextChildOnlyItsKeysMatter(parent, count, c1, c2, ks, getkey, useDtypes, simplify);
    }
  }

  /** Every one of the first `count` children reads only keys of `ks`. */
  predicate ChildrenWithin(parent: Form, count: nat, getkey: KeyFn, ks: set<string>)
    requires count <= |Children(parent)|
  {
    count == 0
    || (ChildrenWithin(parent, count - 1, getkey, ks) && Keys(Children(parent)[count - 1], getkey) <= ks)
  }

  lemma WithinOfSubset(parent: Form, count: nat, getkey: KeyFn, ks: set<string>)
    requires count <= |Children(parent)|
    requires KeysAll(parent, count, getkey) <= ks
    ensures ChildrenWithin(parent, count, getkey, ks)
  {
    forall i | 0 <= i < count
      ensures Keys(Children(parent)[i], getkey) <= ks
    {
      forall k | k in Keys(Children(parent)[i], getkey)
        ensures k in ks
      {
        KeysAllHas(parent, count, i, getkey, k);
      }
    }
    WithinOfEach(parent, count, getkey, ks);
  }

  /** A key of one of the first `count` children is a key of them together. */
  lemma {:induction false} KeysAllHas(parent: Form, count: nat, i: nat, getkey: KeyFn, k: string)
    requires i < count <= |Children(parent)|
    requires k in Keys(Children(parent)[i], getkey)
    ensures k in KeysAll(parent, count, getkey)
  {
    var last := Children(parent)[count - 1];
    assert KeysAll(parent, count, getkey) == KeysAll(parent, count - 1, getkey) + Keys(last, getkey);
    if i < count - 1 {
      KeysAllHas(parent, count - 1, i, getkey, k);
    } else {
      assert Children(parent)[i] == last;
      assert k in Keys(last, getkey);
    }
  }

  lemma {:induction false} WithinOfEach(parent: Form, count: nat, getkey: KeyFn, ks: set<string>)
    requires count <= |Children(parent)|
    requires forall i | 0 <= i < count :: Keys(Children(parent)[i], getkey) <= ks
    ensures ChildrenWithin(parent, count, getkey, ks)
  {
    if count > 0 {
      WithinOfEach(parent, count - 1, getkey, ks);
    }
  }

  /** The step: agreeing after `count - 1` children, the next child keeps the
      two runs in step. */
  lemma NextChildOnlyItsKeysMatter(parent: Form, count: nat, c1: Container, c2: Container,
                                   ks: set<string>, getkey: KeyFn, useDtypes: bool, simplify: bool)
    requires 0 < count <= |Children(parent)|
    requires Keys(Children(parent)[count - 1], getkey) <= ks
    requires SameRuns(ReconstituteAll(parent, count - 1, c1, getkey, useDtypes, simplify),
                    ReconstituteAll(parent, count - 1, c2, getkey, useDtypes, simplify), ks)
    ensures SameRuns(ReconstituteAll(parent, count, c1, getkey, useDtypes, simplify),
                    ReconstituteAll(parent, count, c2, getkey, useDtypes, simplify), ks)
    decreases parent, 0, count, 0
  {
    var child := Children(parent)[count - 1];
    var prior1 := ReconstituteAll(parent, count - 1, c1, getkey, useDtypes, simplify);
    var prior2 := ReconstituteAll(parent, count - 1, c2, getkey, useDtypes, simplify);
    if prior1.Ok? {
      OnlyItsKeysMatter(child, prior1.value.container, prior2.value.container, ks, getkey, useDtypes, simplify);
      ExtendAgree(prior1.value, prior2.value,
                  Reconstitute(child, prior1.value.container, getkey, useDtypes, simplify),
                  Reconstitute(child, prior2.value.container, getkey, useDtypes, simplify), ks);
    }
  }

  /** Runs over children that ended alike, extended by next outcomes that
      end alike, still end alike. */
  lemma ExtendAgree(prior1: BuiltAll, prior2: BuiltAll, last1: Result<Built>, last2: Result<Built>, ks: set<string>)
    requires SameRuns(Ok(prior1), Ok(prior2), ks)
    requires && (last1.Ok? <==> last2.Ok?)
             && (last1.Err? ==> last1.error == last2.error)
             && (last1.Ok? ==> last1.value.layout == last2.value.layout
                               && Agree(last1.value.container, last2.value.container, ks))
    ensures SameRuns(Extend(prior1, last1), Extend(prior2, last2), ks)
  {
  }

  /** The node's own lookups in agreeing containers agree. */
  lemma FetchOwnAgree(form: Form, c1: Container, c2: Container, ks: set<string>, getkey: KeyFn, useDtypes: bool)
    requires OwnKeys(form, getkey) <= ks && Agree(c1, c2, ks)
    ensures var r1 := FetchOwn(form, c1, getkey, useDtypes);
      var r2 := FetchOwn(form, c2, getkey, useDtypes);
      && (r1.Ok? <==> r2.Ok?)
      && (r1.Err? ==> r1.error == r2.error)
      && (r1.Ok? ==> Agree(r1.value, r2.value, ks))
  {
    match form.node
    case UnionForm(tags, index, _) =>
      FetchAgree(c1, c2, ks, getkey(form, "tags"), IndexDType(tags), useDtypes);
      var f1 := Fetch(c1, getkey(form, "tags"), IndexDType(tags), useDtypes);
      var f2 := Fetch(c2, getkey(form, "tags"), IndexDType(tags), useDtypes);
      if f1.Ok? {
        FetchAgree(f1.value, f2.value, ks, getkey(form, "index"), IndexDType(index), useDtypes);
      }
    case ListForm(starts, stops, _) =>
      FetchAgree(c1, c2, ks, getkey(form, "starts"), IndexDType(starts), useDtypes);
      var f1 := Fetch(c1, getkey(form, "starts"), IndexDType(starts), useDtypes);
      var f2 := Fetch(c2, getkey(form, "starts"), IndexDType(starts), useDtypes);
      if f1.Ok? {
        FetchAgree(f1.value, f2.value, ks, getkey(form, "stops"), IndexDType(stops), useDtypes);
      }
    case NumpyForm(dtype) => FetchAgree(c1, c2, ks, getkey(form, "data"), dtype, useDtypes);
    case BitMaskedForm(mask, _, _, _) => FetchAgree(c1, c2, ks, getkey(form, "mask"), IndexDType(mask), useDtypes);
    case ByteMaskedForm(mask, _, _) => FetchAgree(c1, c2, ks, getkey(form, "mask"), IndexDType(mask), useDtypes);
    case IndexedOptionForm(index, _) =>
      FetchAgree(c1, c2, ks, getkey(form, "index"), IndexDType(index), useDtypes);
    case IndexedForm(index, _) => FetchAgree(c1, c2, ks, getkey(form, "index"), IndexDType(index), useDtypes);
    case ListOffsetForm(offsets, _) =>
      FetchAgree(c1, c2, ks, getkey(form, "offsets"), IndexDType(offsets), useDtypes);
    case _ =>
  }

  /** One lookup in agreeing containers. */
  lemma FetchAgree(c1: Container, c2: Container, ks: set<string>, key: string, want: DType, useDtypes: bool)
    requires key in ks && Agree(c1, c2, ks)
    ensures var r1 := Fetch(c1, key, want, useDtypes);
      var r2 := Fetch(c2, key, want, useDtypes);
      && (r1.Ok? <==> r2.Ok?)
      && (r1.Err? ==> r1.error == r2.error)
      && (r1.Ok? ==> Agree(r1.value, r2.value, ks))
  {
  }

  // ---------------------------------------------------------------------
  // `_impl`: preparing the form argument

  /** The `form` argument as passed: a Form, a string (a primitive name or a
      JSON document), a dict, or a value of any other type. */
  datatype FormArg =
    | FormValue(form: Form)
    | Text(text: string)
    | DictArg(entries: map<string, string>)
    | OtherValue

  /** The form parsers `from_json` and `from_dict`, which are not part of
      this model; a parse error is their `Err`. */
  datatype Parsers = Parsers(fromJson: string -> Result<Form>, fromDict: map<string, string> -> Result<Form>)

  /** Form preparation: a primitive name becomes a bare `NumpyForm` (no form
      key, no parameters), any other string is parsed as JSON and a dict as
      a dict; what is then not a Form is a `TypeError`. */
  function NormalizeForm(arg: FormArg, parse: Parsers): (r: Result<Form>)
    ensures arg.FormValue? ==> r == Ok(arg.form)
    ensures arg.OtherValue? <==> r == Err(TypeError) && !arg.Text? && !arg.DictArg?
    ensures r.Err? ==> arg.OtherValue? || (arg.Text? && PrimitiveToDType(arg.text).None?) || arg.DictArg?
    ensures r.Ok? && arg.Text? && PrimitiveToDType(arg.text).Some? ==>
      r.value.node == NumpyForm(PrimitiveToDType(arg.text).value) && r.value.key.None? && r.value.params == map[]
  {
    match arg
    case FormValue(f) => Ok(f)
    case Text(t) =>
      (match PrimitiveToDType(t)
       case Some(d) => Ok(Form(NumpyForm(d), None, map[]))
       case None => parse.fromJson(t))
    case DictArg(m) => parse.fromDict(m)
    case OtherValue => Err(TypeError)
  }

  /** The name of a primitive always reads as that primitive, whatever the
      parsers would make of it. */
  lemma PrimitiveNameNormalizes(d: DType, parse: Parsers)
    ensures NormalizeForm(Text(PrimitiveName(d)), parse) == Ok(Form(NumpyForm(d), None, map[]))
  {
    PrimitiveNameRoundTrip(d, PrimitiveName(d));
  }

  /** `_impl` up to `wrap_layout`: prepare the form, then rebuild it from the
      container with the regularised key function. */
  function Impl(arg: FormArg, parse: Parsers, c: Container, getkey: KeyFn, useDtypes: bool, simplify: bool)
    : (r: Result<Built>)
    ensures arg.OtherValue? ==> r == Err(TypeError)
    ensures arg.FormValue? ==> r == Reconstitute(arg.form, c, getkey, useDtypes, simplify)
    ensures r.Ok? ==> NormalizeForm(arg, parse).Ok?
  {
    var form :- NormalizeForm(arg, parse);
    Reconstitute(form, c, getkey, useDtypes, simplify)
  }

  /** `ak.from_virtual("float64", {"None-data": buffer})` under the default key
      template: the one buffer is looked up as `"None-data"`, and the result is
      a `NumpyArray` over it, its dtype overwritten to the primitive's when
      asked, or checked against it otherwise. */
  lemma FromVirtualPrimitive(d: DType, parse: Parsers, c: Container, useDtypes: bool, simplify: bool)
    ensures var r := Impl(Text(PrimitiveName(d)), parse, c, DefaultGetKey, useDtypes, simplify);
      && ("None-data" !in c ==> r == Err(KeyError("None-data")))
      && ("None-data" in c && (useDtypes || c["None-data"].dtype == d) ==>
            r == Ok(Built(NumpyArray("None-data", map[]), if useDtypes then Retype(c, "None-data", d) else c)))
      && ("None-data" in c && !useDtypes && c["None-data"].dtype != d ==> r == Err(AssertionError))
  {
    PrimitiveNameNormalizes(d, parse);
    var form := Form(NumpyForm(d), None, map[]);
    assert DefaultGetKey(form, "data") == "None-data";
    NumpyLeaf(form, c, DefaultGetKey, useDtypes, simplify);
  }
}

=== FILE: results.dfy ===
/** The Python exceptions the modelled code raises, and the failure-compatible
    `Result` and `Option` types that carry them through the model. */
module Results {

  /** Exception classes raised by the lazy array, the array-module and Torch
      backends and the reconstruction; a missing container key carries the key it looked up. */
  datatype Error =
    | TypeError
    | ValueError
    | IndexError
    | KeyError(key: string)
    | AssertionError
    | NotImplementedError
    | ZeroDivisionError
    // `UnboundLocalError`, a subclass of `NameError`
    | NameError
    // a method the object's class does not define
    | AttributeError

  datatype Option<+T> = None | Some(value: T) {
    /** The wrapped value, or `default` when there is none (Python's `x or default`). */
    function GetOr(default: T): T {
      if Some? then value else default
    }
  }

  datatype Result<+T> = Ok(value: T) | Err(error: Error) {
    predicate IsFailure() {
      Err?
    }

    function PropagateFailure<U>(): Result<U>
      requires Err?
    {
      Err(error)
    }

    function Extract(): T
      requires Ok?
    {
      value
    }
  }
}

=== FILE: shapes.dfy ===
/** Shape arithmetic of the array-module backend: dimension products, the
    single `-1` reshape wildcard, C-contiguous strides and shape items. */
module Shapes {
  import opened Results

  /** One shape entry as a Python caller may supply it: an `int`, the
      `unknown_length` sentinel, or any other object. */
  datatype ShapeItem = Known(n: int) | UnknownLength | NonInteger

  /** `math.prod` of a shape: 1 for the empty shape. */
  function Product(s: seq<int>): int
  {
    if |s| == 0 then 1 else s[0] * Product(s[1..])
  }

  /** Python's floor division `a // b`. */
  function FloorDiv(a: int, b: int): (q: int)
    requires b != 0
    ensures b > 0 ==> b * q <= a < b * q + b
    ensures b < 0 ==> b * q >= a > b * q + b
  {
    if b > 0 then a / b else (-a) / (-b)
  }

  /** `math.ceil(a / b)`, with the division done exactly. */
  function CeilDiv(a: int, b: int): (q: int)
    requires b != 0
    ensures b > 0 ==> b * q - b < a <= b * q
    ensures b < 0 ==> b * q - b > a >= b * q
  {
    -FloorDiv(-a, b)
  }

  /** Number of `-1` wildcards in a requested shape. */
  function Wildcards(s: seq<int>): nat
  {
    if |s| == 0 then 0 else (if s[0] == -1 then 1 else 0) + Wildcards(s[1..])
  }

  /** Product of the entries that are not the wildcard. */
  function KnownProduct(s: seq<int>): int
  {
    if |s| == 0 then 1 else (if s[0] == -1 then 1 else s[0]) * KnownProduct(s[1..])
  }

  /** `s` with every wildcard replaced by `v`. */
  function FillWildcard(s: seq<int>, v: int): (r: seq<int>)
    ensures |r| == |s|
    ensures forall i :: 0 <= i < |s| ==> r[i] == if s[i] == -1 then v else s[i]
  {
    seq(|s|, i requires 0 <= i < |s| => if s[i] == -1 then v else s[i])
  }

  /** What `_compute_compatible_shape` means: at most one wildcard, resolved
      as the floor quotient of the existing element count by the product of
      the other requested dimensions. */
  function CompatibleShape(shape: seq<int>, existing: seq<int>): Result<seq<int>>
  {
    if Wildcards(shape) > 1 then Err(ValueError)
    else if Wildcards(shape) == 0 then Ok(shape)
    else if KnownProduct(shape) == 0 then Err(ZeroDivisionError)
    else Ok(FillWildcard(shape, FloorDiv(Product(existing), KnownProduct(shape))))
  }

  lemma {:induction false} WildcardsSnoc(s: seq<int>, x: int)
    ensures Wildcards(s + [x]) == Wildcards(s) + (if x == -1 then 1 else 0)
    ensures KnownProduct(s + [x]) == KnownProduct(s) * (if x == -1 then 1 else x)
  {
    if |s| > 0 {
      assert (s + [x])[1..] == s[1..] + [x];
      WildcardsSnoc(s[1..], x);
      var h := if s[0] == -1 then 1 else s[0];
      var t := if x == -1 then 1 else x;
      assert h * (KnownProduct(s[1..]) * t) == (h * KnownProduct(s[1..])) * t;
    }
  }

  /** `_compute_compatible_shape` as the source writes it: one pass that
      multiplies the known dimensions and fails on a second wildcard. */
  method ComputeCompatibleShape(shape: seq<int>, existing: seq<int>) returns (r: Result<seq<int>>)
    ensures r == CompatibleShape(shape, existing)
  {
    var j: Option<nat> := None;
    var factor := 1;
    var i := 0;
    while i < |shape|
      invariant 0 <= i <= |shape|
      invariant Wildcards(shape[..i]) <= 1
      invariant j.None? <==> Wildcards(shape[..i]) == 0
      invariant j.Some? ==> j.value < i && shape[j.value] == -1
      invariant factor == KnownProduct(shape[..i])
    {
      assert shape[..i + 1] == shape[..i] + [shape[i]];
      WildcardsSnoc(shape[..i], shape[i]);
      if shape[i] != -1 {
        factor := factor * shape[i];
      } else if j.Some? {
        WildcardsAtLeast(shape, i + 1);
        return Err(ValueError);
      } else {
        j := Some(i);
      }
      i := i + 1;
    }
    assert shape[..i] == shape;
    if j.None? {
      return Ok(shape);
    }
    if factor == 0 {
      return Err(ZeroDivisionError);
    }
    var q := FloorDiv(Product(existing), factor);
    WildcardsAt(shape, j.value);
    return Ok(shape[j.value := q]);
  }

  lemma {:induction false} WildcardsAtLeast(s: seq<int>, i: nat)
    requires i <= |s|
    ensures Wildcards(s) >= Wildcards(s[..i])
  {
    if i > 0 {
      assert s[..i][1..] == s[1..][..i - 1];
      WildcardsAtLeast(s[1..], i - 1);
    }
  }

  /** With exactly one wildcard at `j`, filling it is the same as updating `j`. */
  lemma {:induction false} WildcardsAt(s: seq<int>, j: nat)
    requires j < |s| && s[j] == -1 && Wildcards(s) == 1
    ensures forall v :: FillWildcard(s, v) == s[j := v]
  {
    forall v ensures FillWildcard(s, v) == s[j := v] {
      forall k | 0 <= k < |s| && k != j ensures s[k] != -1 {
        OnlyWildcard(s, j, k);
      }
    }
  }

  lemma {:induction false} OnlyWildcard(s: seq<int>, j: nat, k: nat)
    requires j < |s| && k < |s| && j != k && s[j] == -1 && Wildcards(s) == 1
    ensures s[k] != -1
  {
    if s[0] == -1 {
      if j == 0 {
        if s[k] == -1 { WildcardPresent(s[1..], k - 1); }
      } else {
        WildcardPresent(s[1..], j - 1);
      }
    } else if k > 0 {
      OnlyWildcard(s[1..], j - 1, k - 1);
    }
  }

  lemma {:induction false} WildcardPresent(s: seq<int>, j: nat)
    requires j < |s| && s[j] == -1
    ensures Wildcards(s) >= 1
  {
    if j > 0 {
      WildcardPresent(s[1..], j - 1);
    }
  }

  /** Filling the wildcard multiplies the product of the other dimensions. */
  lemma {:induction false} FillWildcardProduct(s: seq<int>, v: int)
    requires Wildcards(s) == 1
    ensures Product(FillWildcard(s, v)) == KnownProduct(s) * v
  {
    var f := FillWildcard(s, v);
    assert f[1..] == FillWildcard(s[1..], v);
    if s[0] == -1 {
      NoWildcardProduct(s[1..]);
    } else {
      FillWildcardProduct(s[1..], v);
      assert s[0] * (KnownProduct(s[1..]) * v) == (s[0] * KnownProduct(s[1..])) * v;
    }
  }

  lemma {:induction false} NoWildcardProduct(s: seq<int>)
    requires Wildcards(s) == 0
    ensures forall v :: FillWildcard(s, v) == s
    ensures KnownProduct(s) == Product(s)
  {
    if |s| > 0 {
      NoWildcardProduct(s[1..]);
      forall v ensures FillWildcard(s, v) == s {
        assert FillWildcard(s, v) == [s[0]] + FillWildcard(s[1..], v);
        assert s == [s[0]] + s[1..];
      }
    }
  }

  /** A reshape with one wildcard keeps the element count whenever the product
      of the other requested dimensions is positive and divides it; without a
      wildcard the requested shape is returned as given. */
  lemma ReshapeKeepsSize(shape: seq<int>, existing: seq<int>)
    ensures Wildcards(shape) == 0 ==> CompatibleShape(shape, existing) == Ok(shape)
    ensures Wildcards(shape) == 1 && KnownProduct(shape) > 0
            && Product(existing) % KnownProduct(shape) == 0
            ==> CompatibleShape(shape, existing).Ok?
                && Product(CompatibleShape(shape, existing).value) == Product(existing)
  {
    if Wildcards(shape) == 1 && KnownProduct(shape) > 0 && Product(existing) % KnownProduct(shape) == 0 {
      var k := KnownProduct(shape);
      var q := FloorDiv(Product(existing), k);
      FillWildcardProduct(shape, q);
      DivExact(Product(existing), k);
    }
  }

  predicate AllAtLeast(s: seq<int>, bound: int)
  {
    forall i :: 0 <= i < |s| ==> s[i] >= bound
  }

  /** With non-negative existing extents and no request entry below `-1`, a
      resolved shape is a proper shape again: no wildcard, no negative
      extent. */
  lemma CompatibleShapeNonneg(shape: seq<int>, existing: seq<int>)
    requires AllAtLeast(shape, -1) && AllAtLeast(existing, 0)
    requires CompatibleShape(shape, existing).Ok?
    ensures AllAtLeast(CompatibleShape(shape, existing).value, 0)
    ensures Wildcards(CompatibleShape(shape, existing).value) == 0
  {
    var r := CompatibleShape(shape, existing).value;
    if Wildcards(shape) == 0 {
      forall i | 0 <= i < |shape| ensures shape[i] >= 0 {
        if shape[i] == -1 {
          WildcardPresent(shape, i);
        }
      }
    } else {
      ProductNonneg(existing);
      KnownProductNonneg(shape);
    }
    NoWildcards(r);
  }

  lemma {:induction false} ProductNonneg(s: seq<int>)
    requires AllAtLeast(s, 0)
    ensures Product(s) >= 0
  {
    if |s| > 0 {
      ProductNonneg(s[1..]);
    }
  }

  lemma {:induction false} KnownProductNonneg(s: seq<int>)
    requires AllAtLeast(s, -1)
    ensures KnownProduct(s) >= 0
  {
    if |s| > 0 {
      KnownProductNonneg(s[1..]);
    }
  }

  lemma {:induction false} NoWildcards(s: seq<int>)
    requires AllAtLeast(s, 0)
    ensures Wildcards(s) == 0
  {
    if |s| > 0 {
      NoWildcards(s[1..]);
    }
  }

  lemma DivExact(a: int, b: int)
    requires b > 0 && a % b == 0
    ensures b * FloorDiv(a, b) == a
  {
    assert a == b * (a / b) + a % b;
  }

  /** `shape_item_as_index`: only a concrete integer is an index. */
  function ShapeItemAsIndex(x: ShapeItem): (r: Result<int>)
    ensures r.Ok? <==> x.Known?
    ensures r.Ok? ==> r.value == x.n
    ensures r.Err? ==> r.error == TypeError
  {
    match x
    case UnknownLength => Err(TypeError)
    case Known(n) => Ok(n)
    case NonInteger => Err(TypeError)
  }

  /** Row-major strides as the backends lay them out: one entry per axis (a
      single entry for a 0-d shape), the last being the itemsize and each
      earlier one the next axis' extent times the next stride. */
  predicate IsCStrides(r: seq<int>, shape: seq<int>, itemsize: int)
  {
    && |r| == (if |shape| == 0 then 1 else |shape|)
    && r[|r| - 1] == itemsize
    && forall i :: 0 <= i < |r| - 1 ==> r[i] == shape[i + 1] * r[i + 1]
  }

  /** The recurrence determines the strides completely. */
  lemma {:induction false} CStridesUnique(r1: seq<int>, r2: seq<int>, shape: seq<int>, itemsize: int)
    requires IsCStrides(r1, shape, itemsize) && IsCStrides(r2, shape, itemsize)
    ensures r1 == r2
  {
    var n := |r1|;
    var k := n - 1;
    while k > 0
      invariant 0 <= k <= n - 1
      invariant forall t :: k <= t < n ==> r1[t] == r2[t]
    {
      assert r1[k - 1] == shape[k] * r1[k] && r2[k - 1] == shape[k] * r2[k];
      k := k - 1;
    }
    assert forall t :: 0 <= t < n ==> r1[t] == r2[t];
  }

  /** Row-major strides by `strides`' loop: start from `(itemsize,)` and prepend
      `shape[k] * strides[0]` for `k` from the last index down to 1; a 0-d shape
      still gets the one stride `(itemsize,)`. */
  method CStrides(shape: seq<int>, itemsize: int) returns (r: seq<int>)
    ensures IsCStrides(r, shape, itemsize)
    ensures |shape| > 0 ==> forall i :: 0 <= i < |r| ==> r[i] == itemsize * Product(shape[i + 1..])
  {
    r := [itemsize];
    if |shape| == 0 {
      return;
    }
    var k := |shape| - 1;
    assert shape[k + 1..] == [];
    while k >= 1
      invariant 0 <= k <= |shape| - 1
      invariant |r| == |shape| - k
      invariant forall t :: 0 <= t < |r| ==> r[t] == itemsize * Product(shape[k + t + 1..])
    {
      var next := shape[k] * r[0];
      ProductCons(shape, k);
      assert next == itemsize * Product(shape[k..]);
      r := [next] + r;
      k := k - 1;
    }
    forall i | 0 <= i < |r| - 1
      ensures r[i] == shape[i + 1] * r[i + 1]
    {
      ProductCons(shape, i + 1);
    }
  }

  lemma ProductCons(s: seq<int>, k: nat)
    requires k < |s|
    ensures Product(s[k..]) == s[k] * Product(s[k + 1..])
  {
    assert s[k..][1..] == s[k + 1..];
  }
}

=== FILE: slicing.dfy ===
/** Index arithmetic of the array-module backend: Python's `slice.indices`,
    `range` lengths, `derive_slice_for_length` and
    `regularize_index_for_length`. */
module Slicing {
  import opened Results
  import opened Shapes

  /** A Python `slice` whose bounds are integers or `None`. */
  datatype PySlice = PySlice(start: Option<int>, stop: Option<int>, step: Option<int>)

  /** Clamping of one given bound by `slice.indices`: a negative bound counts
      from the end and is raised to `lower`; a non-negative one is cut to `upper`. */
  function AdjustBound(x: int, length: int, lower: int, upper: int): int
  {
    if x < 0 then (if x + length < lower then lower else x + length)
    else if x > upper then upper
    else x
  }

  /** Python's `slice.indices(length)`. */
  function SliceIndices(s: PySlice, length: int): (r: Result<(int, int, int)>)
    ensures r.Err? <==> length < 0 || s.step == Some(0)
    ensures r.Err? ==> r.error == ValueError
    ensures r.Ok? ==> r.value.2 == s.step.GetOr(1)
    ensures r.Ok? && r.value.2 > 0 ==> 0 <= r.value.0 <= length && 0 <= r.value.1 <= length
    ensures r.Ok? && r.value.2 < 0 ==> -1 <= r.value.0 < length && -1 <= r.value.1 < length
    // an omitted bound is the end the step walks away from or towards
    ensures r.Ok? && s.start.None? ==> r.value.0 == (if r.value.2 > 0 then 0 else length - 1)
    ensures r.Ok? && s.stop.None? ==> r.value.1 == (if r.value.2 > 0 then length else -1)
    // a bound inside the array is kept, a negative one counted from the end
    ensures r.Ok? && s.start.Some? && -length <= s.start.value < length ==>
      r.value.0 == (if s.start.value < 0 then s.start.value + length else s.start.value)
    ensures r.Ok? && s.stop.Some? && -length <= s.stop.value < length ==>
      r.value.1 == (if s.stop.value < 0 then s.stop.value + length else s.stop.value)
    // a bound beyond either end is clamped to that end
    ensures r.Ok? && s.start.Some? && s.start.value >= length ==> r.value.0 == (if r.value.2 > 0 then length else length - 1)
    ensures r.Ok? && s.stop.Some? && s.stop.value >= length ==> r.value.1 == (if r.value.2 > 0 then length else length - 1)
    ensures r.Ok? && s.start.Some? && s.start.value < -length ==> r.value.0 == (if r.value.2 > 0 then 0 else -1)
    ensures r.Ok? && s.stop.Some? && s.stop.value < -length ==> r.value.1 == (if r.value.2 > 0 then 0 else -1)
  {
    if length < 0 then Err(ValueError)
    else
      var step := s.step.GetOr(1);
      if step == 0 then Err(ValueError)
      else
        var lower := if step < 0 then -1 else 0;
        var upper := if step < 0 then length - 1 else length;
        var start := if s.start.None? then (if step < 0 then upper else lower)
                     else AdjustBound(s.start.value, length, lower, upper);
        var stop := if s.stop.None? then (if step < 0 then lower else upper)
                    else AdjustBound(s.stop.value, length, lower, upper);
        Ok((start, stop, step))
  }

  /** The positions `range(start, stop, step)` visits, in order. */
  function RangeSeq(start: int, stop: int, step: int): seq<int>
    requires step != 0
    decreases if step > 0 then stop - start else start - stop
  {
    if (step > 0 && start >= stop) || (step < 0 && start <= stop) then []
    else [start] + RangeSeq(start + step, stop, step)
  }

  /** `len(range(start, stop, step))`, never negative. */
  function RangeLength(start: int, stop: int, step: int): nat
    requires step != 0
  {
    if step > 0 then (if start < stop then (stop - start - 1) / step + 1 else 0)
    else (if start > stop then (start - stop - 1) / (-step) + 1 else 0)
  }

  /** The closed-form length counts exactly the positions the range visits. */
  lemma {:induction false} RangeLengthCounts(start: int, stop: int, step: int)
    requires step != 0
    ensures |RangeSeq(start, stop, step)| == RangeLength(start, stop, step)
    decreases if step > 0 then stop - start else start - stop
  {
    if (step > 0 && start >= stop) || (step < 0 && start <= stop) {
    } else {
      RangeLengthCounts(start + step, stop, step);
      if step > 0 {
        DivStep(stop - start - 1, step);
      } else {
        DivStep(start - stop - 1, -step);
      }
    }
  }

  /** One step fewer to go: `(n - d) / d == n / d - 1` for `n >= d > 0`, and
      `n / d == 0` below `d`. */
  lemma DivStep(n: int, d: int)
    requires n >= 0 && d > 0
    ensures n >= d ==> (n - d) / d == n / d - 1
    ensures n < d ==> n / d == 0
  {
    var q := n / d;
    var m := n % d;
    if n >= d {
      assert n - d == d * (q - 1) + m;
      DivUnique(n - d, d, q - 1, m);
    } else {
      DivUnique(n, d, 0, n);
    }
  }

  /** Euclidean division is determined by quotient and remainder. */
  lemma DivUnique(a: int, d: int, x: int, m: int)
    requires d > 0 && 0 <= m < d && a == d * x + m
    ensures a / d == x && a % d == m
  {
    var y := a / d;
    var r := a % d;
    assert a == d * y + r && 0 <= r < d;
    if y > x {
      MulMono(d, x + 1, y);
    } else if y < x {
      MulMono(d, y + 1, x);
    }
  }

  lemma MulMono(d: int, a: int, b: int)
    requires d > 0 && a <= b
    ensures d * a <= d * b
  {
    assert d * b - d * a == d * (b - a);
  }

  /** Every position a range visits lies between its start and its stop. */
  lemma {:induction false} RangeBetween(start: int, stop: int, step: int)
    requires step != 0
    ensures forall k :: k in RangeSeq(start, stop, step) ==>
      if step > 0 then start <= k < stop else stop < k <= start
    decreases if step > 0 then stop - start else start - stop
  {
    if (step > 0 && start >= stop) || (step < 0 && start <= stop) {
    } else {
      RangeBetween(start + step, stop, step);
    }
  }

  /** The normalised slice only ever visits valid positions of the array. */
  lemma SliceIndicesInBounds(s: PySlice, length: int)
    requires SliceIndices(s, length).Ok?
    ensures var (start, stop, step) := SliceIndices(s, length).value;
      forall k :: k in RangeSeq(start, stop, step) ==> 0 <= k < length
  {
    var (start, stop, step) := SliceIndices(s, length).value;
    RangeBetween(start, stop, step);
  }

  /** `derive_slice_for_length` as written: `slice.indices` followed by
      `math.ceil((stop - start) / step)`, which is negative for a slice whose
      clamped bounds run against its step. */
  function DeriveSliceForLength(s: PySlice, length: int): (r: Result<(int, int, int, int)>)
    ensures r.Ok? <==> SliceIndices(s, length).Ok?
    ensures r.Ok? ==> (r.value.0, r.value.1, r.value.2) == SliceIndices(s, length).value
    ensures r.Ok? && r.value.2 > 0 ==> r.value.2 * r.value.3 - r.value.2 < r.value.1 - r.value.0 <= r.value.2 * r.value.3
    ensures r.Ok? && r.value.2 < 0 ==> r.value.2 * r.value.3 <= r.value.1 - r.value.0 < r.value.2 * r.value.3 - r.value.2
  {
    var (start, stop, step) :- SliceIndices(s, length);
    Ok((start, stop, step, CeilDiv(stop - start, step)))
  }

  /** Where the clamped bounds follow the step's direction, the ceiling
      quotient is the true number of selected positions. */
  lemma CeilLengthAgreesWhenOrdered(start: int, stop: int, step: int)
    requires step != 0
    requires (step > 0 && start <= stop) || (step < 0 && start >= stop)
    ensures CeilDiv(stop - start, step) == RangeLength(start, stop, step)
  {
    var n := if step > 0 then stop - start else start - stop;
    var d := if step > 0 then step else -step;
    if n > 0 {
      CeilAsFloor(n, d);
      if step < 0 {
        assert CeilDiv(stop - start, step) == -FloorDiv(start - stop, step);
        assert FloorDiv(start - stop, step) == (stop - start) / (-step);
      }
    }
  }

  /** `ceil(n / d) == (n - 1) / d + 1` for positive `n` and `d`. */
  lemma CeilAsFloor(n: int, d: int)
    requires n > 0 && d > 0
    ensures -((-n) / d) == (n - 1) / d + 1
  {
    var q := (n - 1) / d;
    var m := (n - 1) % d;
    assert n - 1 == d * q + m && 0 <= m < d;
    assert -n == d * (-q - 1) + (d - 1 - m);
    DivUnique(-n, d, -q - 1, d - 1 - m);
  }

  /** Counterexample: `slice(5, 2)` over length 10 selects nothing, yet the
      derived length is -3. */
  lemma DeriveSliceNegativeLength()
    ensures DeriveSliceForLength(PySlice(Some(5), Some(2), None), 10) == Ok((5, 2, 1, -3))
    ensures RangeLength(5, 2, 1) == 0
  {
  }

  /** `derive_slice_for_length` with the length floored at zero: the length
      is the number of positions the normalised slice visits. */
  function DeriveSliceForLengthClamped(s: PySlice, length: int): (r: Result<(int, int, int, int)>)
    ensures r.Ok? <==> SliceIndices(s, length).Ok?
    ensures r.Ok? ==> (r.value.0, r.value.1, r.value.2) == SliceIndices(s, length).value
    ensures r.Ok? ==> r.value.3 == |RangeSeq(r.value.0, r.value.1, r.value.2)|
    ensures r.Ok? ==> 0 <= r.value.3 <= length
  {
    var (start, stop, step) :- SliceIndices(s, length);
    var n := CeilDiv(stop - start, step);
    var clamped := if n < 0 then 0 else n;
    CeilLengthClamped(start, stop, step);
    RangeLengthCounts(start, stop, step);
    RangeLengthBound(start, stop, step, length);
    Ok((start, stop, step, clamped))
  }

  lemma CeilLengthClamped(start: int, stop: int, step: int)
    requires step != 0
    ensures (if CeilDiv(stop - start, step) < 0 then 0 else CeilDiv(stop - start, step))
            == RangeLength(start, stop, step)
  {
    if (step > 0 && start <= stop) || (step < 0 && start >= stop) {
      CeilLengthAgreesWhenOrdered(start, stop, step);
    }
  }

  /** A normalised slice selects at most `length` positions. */
  lemma RangeLengthBound(start: int, stop: int, step: int, length: int)
    requires step != 0 && length >= 0
    requires step > 0 ==> 0 <= start && stop <= length
    requires step < 0 ==> start < length && -1 <= stop
    ensures RangeLength(start, stop, step) <= length
  {
    if step > 0 && start < stop {
      DivAtMost(stop - start - 1, step);
    } else if step < 0 && start > stop {
      DivAtMost(start - stop - 1, -step);
    }
  }

  lemma DivAtMost(n: int, d: int)
    requires n >= 0 && d >= 1
    ensures 0 <= n / d <= n
  {
    var q := n / d;
    assert n == d * q + n % d;
    if q < 0 {
      MulMono(d, q, -1);
    } else if q > 0 {
      MulMono(q, 1, d);
    }
  }

  /** `regularize_index_for_length`: a negative index counts from the end and
      the result must be a valid position, otherwise `IndexError`. */
  function RegularizeIndexForLength(index: int, length: int): (r: Result<int>)
    ensures r.Ok? <==> -length <= index < length
    ensures r.Ok? ==> 0 <= r.value < length && r.value % length == index % length
    ensures r.Err? ==> r.error == IndexError
  {
    var i := if index < 0 then index + length else index;
    if 0 <= i < length then Ok(i) else Err(IndexError)
  }

  /** Every valid position is reached both from itself and from its negative
      alias. */
  lemma RegularizeIndexRoundTrip(k: int, length: int)
    requires 0 <= k < length
    ensures RegularizeIndexForLength(k, length) == Ok(k)
    ensures RegularizeIndexForLength(k - length, length) == Ok(k)
  {
  }
}

=== FILE: torch.dfy ===
/** The PyTorch backend's departures from the array-module backend: strides
    from metadata, ownership by module name, contiguity, and the ufunc
    substitution. */
module TorchBackend {
  import opened Results
  import opened DTypes
  import opened Shapes
  import opened VirtualArrays
  import ArrayModule

  /** `strides`: always the C-contiguous strides of the declared shape and
      itemsize; a virtual array is not materialised for it. */
  method Strides(h: Heap, v: Value) returns (r: seq<int>)
    requires Valid(h) && Refers(h, v)
    ensures IsCStrides(r, ShapeOf(h, v), ItemSize(DTypeOf(h, v)))
  {
    r := CStrides(ShapeOf(h, v), ItemSize(DTypeOf(h, v)));
  }

  /** `is_own_array_type`: the part of the type's module name before the
      first `.` is `torch`, i.e. the module is `torch` or a submodule of it. */
  method IsOwnArrayType(typeModule: string) returns (own: bool)
    ensures own <==> typeModule == "torch" || (|typeModule| > 5 && typeModule[..6] == "torch.")
  {
    var k := 0;
    while k < |typeModule| && typeModule[k] != '.'
      invariant 0 <= k <= |typeModule|
      invariant forall j :: 0 <= j < k ==> typeModule[j] != '.'
    {
      k := k + 1;
    }
    own := typeModule[..k] == "torch";
    if typeModule == "torch" {
      assert k == 5 by {
        assert forall j :: 0 <= j < 5 ==> typeModule[j] != '.';
      }
    } else if |typeModule| > 5 && typeModule[..6] == "torch." {
      assert typeModule[5] == '.';
      assert forall j :: 0 <= j < 5 ==> typeModule[j] != '.';
      assert k == 5;
    }
  }

  /** `is_c_contiguous` as written: a placeholder counts as contiguous
      without looking at data; anything else is materialised first and then
      asked `is_c_contiguous()`. Neither a tensor nor the NumPy or CuPy array
      a virtual array materialises to has that method, so the question raises
      `AttributeError` once materialisation has succeeded. */
  function IsCContiguousAsWritten(h: Heap, v: Value): (s: Step<bool>)
    requires Valid(h) && Refers(h, v)
    ensures Valid(s.heap) && Evolves(h, s.heap)
    ensures v.Placeholder? ==> s == Step(h, Ok(true))
    ensures v.Eager? ==> s == Step(h, Err(AttributeError))
    ensures v.Virtual? ==>
      && s.heap == Materialize(h, v.id).heap
      && s.result.Err?
      && s.result.error == (if Materialize(h, v.id).result.Ok? then AttributeError else Materialize(h, v.id).result.error)
  {
    match v
    case Placeholder(_, _) => Step(h, Ok(true))
    case Eager(_) => Step(h, Err(AttributeError))
    case Virtual(id) =>
      var m := Materialize(h, id);
      Step(m.heap, if m.result.Ok? then Err(AttributeError) else Err(m.result.error))
  }

  /** `is_c_contiguous` as intended: a placeholder counts as contiguous
      without looking at data; anything else is materialised first and
      reports the C-contiguity of the array at hand. */
  function IsCContiguous(h: Heap, v: Value): (s: Step<bool>)
    requires Valid(h) && Refers(h, v)
    ensures Valid(s.heap) && Evolves(h, s.heap)
    ensures v.Placeholder? ==> s == Step(h, Ok(true))
    ensures v.Eager? ==> s == Step(h, Ok(v.arr.cContiguous))
    ensures v.Virtual? ==>
      && s.heap == Materialize(h, v.id).heap
      && (s.result.Ok? <==> Materialize(h, v.id).result.Ok?)
      && (s.result.Ok? ==> s.result.value == Materialize(h, v.id).result.value.cContiguous)
  {
    match v
    case Placeholder(_, _) => Step(h, Ok(true))
    case Eager(a) => Step(h, Ok(a.cContiguous))
    case Virtual(id) =>
      var m := Materialize(h, id);
      Step(m.heap, if m.result.Ok? then Ok(m.result.value.cContiguous) else Err(m.result.error))
  }

  /** Both leave the same heap behind, and they answer differently exactly
      where the intended question has an answer and is not about a
      placeholder: there the code as written raises `AttributeError`. */
  lemma IsCContiguousDefect(h: Heap, v: Value)
    requires Valid(h) && Refers(h, v)
    ensures IsCContiguousAsWritten(h, v).heap == IsCContiguous(h, v).heap
    ensures IsCContiguousAsWritten(h, v).result != IsCContiguous(h, v).result
      <==> !v.Placeholder? && IsCContiguous(h, v).result.Ok?
    ensures IsCContiguousAsWritten(h, v).result != IsCContiguous(h, v).result ==>
      IsCContiguousAsWritten(h, v).result == Err(AttributeError)
  {
  }

  /** A tensor's `contiguous()`: a C-ordered tensor of the same shape, 0-d
      included, and dtype. */
  function TensorContiguous(a: Arr): Arr
  {
    Arr(a.shape, a.dtype, Transformed(MakeContiguous, a.data), true)
  }

  /** `ascontiguousarray` as written: a placeholder is returned as it is; the
      unmaterialised branch passes a fifth argument to the four-parameter
      `VirtualArray` constructor, so it raises `TypeError`; a materialised
      virtual array is replaced by its NumPy or CuPy array, which is asked
      for `contiguous()`, a tensor method it lacks: `AttributeError`. A
      tensor is made contiguous. */
  function AsContiguousArrayAsWritten(h: Heap, v: Value): (s: Step<Value>)
    requires Valid(h) && Refers(h, v)
    ensures Valid(s.heap) && s.heap == h
    ensures v.Placeholder? ==> s.result == Ok(v)
    ensures v.Virtual? && Dataless(h, v) ==> s.result == Err(TypeError)
    ensures v.Virtual? && !Dataless(h, v) ==> s.result == Err(AttributeError)
    ensures v.Eager? ==>
      && s.result.Ok? && s.result.value.Eager?
      && s.result.value.arr.shape == v.arr.shape
      && s.result.value.arr.dtype == v.arr.dtype
      && s.result.value.arr.cContiguous
  {
    match v
    case Placeholder(_, _) => Step(h, Ok(v))
    case Eager(a) => Step(h, Ok(Eager(TensorContiguous(a))))
    case Virtual(id) => Step(h, Err(if h.nodes[id].cache.None? then TypeError else AttributeError))
  }

  /** `ascontiguousarray` as intended: a virtual array, whose backend is
      always NumPy or CuPy, is handled as that backend's `ascontiguousarray`
      handles it; a placeholder and a tensor as written. */
  function AsContiguousArray(h: Heap, v: Value): (s: Step<Value>)
    requires Valid(h) && Refers(h, v)
    ensures Valid(s.heap) && s.result.Ok?
    ensures v.Placeholder? ==> s == Step(h, Ok(v))
    ensures !Dataless(h, v) ==>
      && s.heap == h && s.result.value.Eager?
      && s.result.value.arr.shape == (if v.Eager? then v.arr.shape else ContiguousShape(ShapeOf(h, v)))
      && s.result.value.arr.dtype == DTypeOf(h, v)
      && s.result.value.arr.cContiguous
    ensures v.Virtual? && Dataless(h, v) ==>
      && |s.heap.nodes| == |h.nodes| + 1 && s.heap.nodes[..|h.nodes|] == h.nodes
      && s.result.value == Virtual(|h.nodes|)
      && s.heap.nodes[|h.nodes|].cache.None?
      && s.heap.nodes[|h.nodes|].shape == ContiguousShape(ShapeOf(h, v))
  {
    if v.Virtual? then ArrayModule.AsContiguousArray(h, v)
    else AsContiguousArrayAsWritten(h, v)
  }

  /** The intended lazy copy of an unmaterialised virtual array materialises
      exactly when the original does, to the original's array in C order. */
  lemma ContiguousMaterializes(h: Heap, id: nat)
    requires Valid(h) && id < |h.nodes| && h.nodes[id].cache.None?
    ensures var c := AsContiguousArray(h, Virtual(id));
      var parent := Materialize(h, id);
      && (Materialize(c.heap, |h.nodes|).result.Ok? <==> parent.result.Ok?)
      && (parent.result.Ok? ==>
            Materialize(c.heap, |h.nodes|).result == EagerApply(MakeContiguous, parent.result.value))
  {
    ArrayModule.ContiguousMaterializes(h, id);
  }

  /** The code as written and the intended override agree exactly on
      placeholders and tensors; on every virtual array the code as written
      raises where the intended one succeeds. */
  lemma AsContiguousArrayDefect(h: Heap, v: Value)
    requires Valid(h) && Refers(h, v)
    ensures AsContiguousArrayAsWritten(h, v) == AsContiguousArray(h, v) <==> !v.Virtual?
    ensures v.Virtual? ==>
      && AsContiguousArrayAsWritten(h, v).result.Err?
      && AsContiguousArray(h, v).result.Ok?
  {
  }

  /** `prepare_ufunc`: the `torch` function of the ufunc's name when `torch`
      has one, otherwise the ufunc itself. */
  function PrepareUfunc(ufunc: string, torchNames: set<string>): (r: ArrayModule.Impl)
    ensures r.name == ufunc
    ensures r.TorchFunction? <==> ufunc in torchNames
  {
    if ufunc in torchNames then ArrayModule.TorchFunction(ufunc) else ArrayModule.NumpyUfunc(ufunc)
  }
}

=== FILE: virtual.dfy ===
/** The lazy ("virtual") array: a declared shape and dtype, a producer that is
    run at most once per successful materialisation, a cache, and derived views
    (transpose, dtype view, slice, copy) whose metadata is computed without
    running any producer.

    Python objects are modelled by a `Heap` of nodes addressed by index: a
    derived array's producer materialises its parent node, so the parent's
    cache is shared exactly as the closures over `self` share it. */
module VirtualArrays {
  import opened Results
  import opened DTypes
  import opened Shapes
  import opened Slicing

  /** The array backends; a virtual array accepts only NumPy and CuPy. */
  datatype Nplike = Numpy | Cupy | Torch | Jax | TypeTracer

  /** NumPy operations that a lazy view defers and later applies eagerly. */
  datatype EagerOp =
    | Transpose
    | ViewAs(dtype: DType)
    | SliceBy(slice: PySlice)
    | TakeAt(index: int)
    | CopyOf
    | ReshapeTo(shape: seq<int>)
    | MakeContiguous
    | CastTo(dtype: DType)

  /** Array contents are not modelled: `Data` records only their provenance. */
  datatype Data =
    | Produced(token: nat)
    | Filled(value: int)
    | Transformed(op: EagerOp, source: Data)

  /** An eager (materialised) array. */
  datatype Arr = Arr(shape: seq<int>, dtype: DType, data: Data, cContiguous: bool)

  /** Byte size of an eager array (`ndarray.nbytes`). */
  function NBytesOf(a: Arr): int
  {
    Product(a.shape) * ItemSize(a.dtype)
  }

  function Reverse(s: seq<int>): (r: seq<int>)
    ensures |r| == |s|
    ensures forall i :: 0 <= i < |s| ==> r[i] == s[|s| - 1 - i]
  {
    seq(|s|, i requires 0 <= i < |s| => s[|s| - 1 - i])
  }

  /** The shape of a dtype view: the last axis is rescaled so that its byte
      length is kept, `ValueError` when the new itemsize does not divide it;
      a 0-d shape is kept. */
  function ViewShape(shape: seq<int>, from: DType, to: DType): (r: Result<seq<int>>)
    ensures r.Err? <==> |shape| >= 1 && (shape[|shape| - 1] * ItemSize(from)) % ItemSize(to) != 0
    ensures r.Err? ==> r.error == ValueError
    ensures r.Ok? ==> |r.value| == |shape|
    ensures r.Ok? && |shape| == 0 ==> r.value == shape
    ensures r.Ok? && |shape| >= 1 ==>
      && r.value[..|shape| - 1] == shape[..|shape| - 1]
      && r.value[|shape| - 1] * ItemSize(to) == shape[|shape| - 1] * ItemSize(from)
  {
    if |shape| == 0 then Ok(shape)
    else
      var bytes := shape[|shape| - 1] * ItemSize(from);
      if bytes % ItemSize(to) != 0 then Err(ValueError)
      else
        var r := shape[..|shape| - 1] + [bytes / ItemSize(to)];
        assert r[..|shape| - 1] == shape[..|shape| - 1];
        Ok(r)
  }

  /** The shape of a basic slice along the first axis: the number of
      positions the slice selects, trailing axes kept. */
  function SliceShape(shape: seq<int>, s: PySlice): (r: Result<seq<int>>)
    ensures r.Err? <==> |shape| == 0 || SliceIndices(s, shape[0]).Err?
    ensures r.Err? && |shape| == 0 ==> r.error == IndexError
    ensures r.Err? && |shape| >= 1 ==> r.error == ValueError
    ensures r.Ok? ==> |r.value| == |shape| && r.value[1..] == shape[1..]
    ensures r.Ok? ==> var (start, stop, step) := SliceIndices(s, shape[0]).value;
      r.value[0] == |RangeSeq(start, stop, step)|
  {
    if |shape| == 0 then Err(IndexError)
    else
      var (start, stop, step) :- SliceIndices(s, shape[0]);
      RangeLengthCounts(start, stop, step);
      Ok([RangeLength(start, stop, step)] + shape[1..])
  }

  /** NumPy refuses to view an array with at least one axis as a dtype of
      another itemsize unless its last axis is contiguous, has length 1, or
      the array is empty. Strides are not modelled: the last axis counts as
      contiguous exactly when the whole array is C-contiguous. */
  predicate LastAxisRefusesView(a: Arr, d: DType)
  {
    && ItemSize(d) != ItemSize(a.dtype) && |a.shape| >= 1
    && a.shape[|a.shape| - 1] != 1 && Product(a.shape) != 0 && !a.cContiguous
  }

  /** NumPy's `a.view(d)`; a 0-d array may only change to a dtype of the
      same itemsize, and a non-contiguous last axis only to one of the same
      itemsize. */
  function EagerView(a: Arr, d: DType): Result<Arr>
  {
    if |a.shape| == 0 && ItemSize(d) != ItemSize(a.dtype) then Err(ValueError)
    else if LastAxisRefusesView(a, d) then Err(ValueError)
    else
      var shape :- ViewShape(a.shape, a.dtype, d);
      Ok(Arr(shape, d, Transformed(ViewAs(d), a.data), a.cContiguous))
  }

  /** NumPy's `a[start:stop:step]`. */
  function EagerSlice(a: Arr, s: PySlice): Result<Arr>
  {
    var shape :- SliceShape(a.shape, s);
    Ok(Arr(shape, a.dtype, Transformed(SliceBy(s), a.data), a.cContiguous && s.step.GetOr(1) == 1))
  }

  /** NumPy's `a[i]`: the first axis is dropped, `IndexError` out of range. */
  function EagerTake(a: Arr, i: int): Result<Arr>
  {
    if |a.shape| == 0 then Err(IndexError)
    else
      var _ :- RegularizeIndexForLength(i, a.shape[0]);
      Ok(Arr(a.shape[1..], a.dtype, Transformed(TakeAt(i), a.data), a.cContiguous))
  }

  /** NumPy's `a.reshape(s)`: at most one `-1`, and the element count and
      non-negative extents must come out, otherwise `ValueError`. */
  function EagerReshape(a: Arr, s: seq<int>): Result<Arr>
  {
    match CompatibleShape(s, a.shape)
    case Err(_) => Err(ValueError)
    case Ok(r) =>
      if Product(r) == Product(a.shape) && forall k :: 0 <= k < |r| ==> r[k] >= 0
      then Ok(Arr(r, a.dtype, Transformed(ReshapeTo(r), a.data), a.cContiguous))
      else Err(ValueError)
  }

  /** The shape of NumPy's `ascontiguousarray`: its result has at least one
      axis, so a 0-d array comes back with the single axis `(1,)`. */
  function ContiguousShape(shape: seq<int>): seq<int>
  {
    if |shape| == 0 then [1] else shape
  }

  /** NumPy's eager result of `op`, at the level of shape, dtype and layout. */
  function EagerApply(op: EagerOp, a: Arr): Result<Arr>
  {
    match op
    case Transpose => Ok(Arr(Reverse(a.shape), a.dtype, Transformed(op, a.data), a.cContiguous && |a.shape| <= 1))
    case ViewAs(d) => EagerView(a, d)
    case SliceBy(s) => EagerSlice(a, s)
    case TakeAt(i) => EagerTake(a, i)
    case CopyOf => Ok(Arr(a.shape, a.dtype, Transformed(op, a.data), true))
    case ReshapeTo(s) => EagerReshape(a, s)
    case MakeContiguous => Ok(Arr(ContiguousShape(a.shape), a.dtype, Transformed(op, a.data), true))
    case CastTo(d) => Ok(Arr(a.shape, d, Transformed(op, a.data), true))
  }

  /** `EagerApply` on a view, a slice or a reshape is the operation's own
      function. */
  lemma EagerApplyReduces(op: EagerOp, a: Arr)
    ensures op.ViewAs? ==> EagerApply(op, a) == EagerView(a, op.dtype)
    ensures op.SliceBy? ==> EagerApply(op, a) == EagerSlice(a, op.slice)
    ensures op.ReshapeTo? ==> EagerApply(op, a) == EagerReshape(a, op.shape)
  {
  }

  /** What running a node's generator does: call the user's function, or
      materialise the parent and apply a NumPy operation to it. The user's
      function may raise, and may answer differently from one call to the
      next; it is given how often it already ran, standing in for whatever
      outside state it consults. */
  datatype Producer = Generator(call: nat -> Result<Arr>) | Apply(parent: nat, op: EagerOp)

  /** One `VirtualArray` object. `calls` counts how often its generator ran. */
  datatype Node = Node(nplike: Nplike, shape: seq<int>, dtype: DType, producer: Producer,
                       cache: Option<Arr>, calls: nat)

  datatype Heap = Heap(nodes: seq<Node>)

  /** The result of an operation together with the heap it leaves behind,
      also when it raised. */
  datatype Step<T> = Step(heap: Heap, result: Result<T>)

  predicate NodeOk(n: Node, i: nat)
  {
    && (n.nplike == Numpy || n.nplike == Cupy)
    && (n.producer.Apply? ==> n.producer.parent < i)
    && (n.cache.Some? ==> n.cache.value.shape == n.shape && n.cache.value.dtype == n.dtype && n.calls >= 1)
  }

  /** Heap invariant: every cached array has its node's declared shape and
      dtype, and parents precede their derived arrays. */
  predicate Valid(h: Heap)
  {
    forall i | 0 <= i < |h.nodes| :: NodeOk(h.nodes[i], i)
  }

  ghost predicate SameMeta(a: Node, b: Node)
  {
    a.nplike == b.nplike && a.shape == b.shape && a.dtype == b.dtype && a.producer == b.producer
  }

  /** `h2` is `h` after materialisations: no metadata changes, a filled cache
      never changes again and call counters only grow. */
  ghost predicate Evolves(h: Heap, h2: Heap)
  {
    && |h2.nodes| == |h.nodes|
    && (forall i | 0 <= i < |h.nodes| :: SameMeta(h.nodes[i], h2.nodes[i]))
    && (forall i | 0 <= i < |h.nodes| && h.nodes[i].cache.Some? :: h2.nodes[i] == h.nodes[i])
    && (forall i | 0 <= i < |h.nodes| :: h2.nodes[i].calls >= h.nodes[i].calls)
  }

  lemma EvolvesTrans(h1: Heap, h2: Heap, h3: Heap)
    requires Evolves(h1, h2) && Evolves(h2, h3)
    ensures Evolves(h1, h3)
  {
  }

  /** A node and the ancestors its producer materialises. */
  function Lineage(h: Heap, id: nat): (r: set<nat>)
    requires Valid(h) && id < |h.nodes|
    ensures id in r
    ensures forall x :: x in r ==> x <= id
    decreases id
  {
    {id} + (match h.nodes[id].producer
            case Generator(_) => {}
            case Apply(p, _) => Lineage(h, p))
  }

  /** `VirtualArray.materialize`: a cached node answers from its cache and
      runs nothing; otherwise its generator runs (once more), and the result
      is cached only if it has exactly the declared shape and dtype. */
  function Materialize(h: Heap, id: nat): (s: Step<Arr>)
    requires Valid(h) && id < |h.nodes|
    ensures Valid(s.heap) && Evolves(h, s.heap)
    ensures forall i | 0 <= i < |h.nodes| && i !in Lineage(h, id) :: s.heap.nodes[i] == h.nodes[i]
    ensures h.nodes[id].cache.Some? ==> s == Step(h, Ok(h.nodes[id].cache.value))
    ensures h.nodes[id].cache.None? ==> s.heap.nodes[id].calls == h.nodes[id].calls + 1
    ensures s.result.Ok? <==> s.heap.nodes[id].cache.Some?
    ensures s.result.Ok? ==> s.heap.nodes[id].cache == Some(s.result.value)
    ensures s.result.Ok? ==> s.result.value.shape == h.nodes[id].shape && s.result.value.dtype == h.nodes[id].dtype
    decreases id
  {
    var n := h.nodes[id];
    if n.cache.Some? then Step(h, Ok(n.cache.value))
    else
      var ran := Produce(h, id);
      var counted := n.(calls := n.calls + 1);
      match ran.result
      case Err(e) => Step(Heap(ran.heap.nodes[id := counted]), Err(e))
      case Ok(a) =>
        if a.shape != n.shape || a.dtype != n.dtype then Step(Heap(ran.heap.nodes[id := counted]), Err(AssertionError))
        else Step(Heap(ran.heap.nodes[id := counted.(cache := Some(a))]), Ok(a))
  }

  /** Runs node `id`'s generator; only its strict ancestors may change. */
  function Produce(h: Heap, id: nat): (s: Step<Arr>)
    requires Valid(h) && id < |h.nodes|
    ensures Valid(s.heap) && Evolves(h, s.heap)
    ensures forall i | 0 <= i < |h.nodes| && (i !in Lineage(h, id) || i == id) :: s.heap.nodes[i] == h.nodes[i]
    decreases id, 0
  {
    match h.nodes[id].producer
    case Generator(call) => Step(h, call(h.nodes[id].calls))
    case Apply(p, op) =>
      var m := Materialize(h, p);
      Step(m.heap, if m.result.Ok? then EagerApply(op, m.result.value) else Err(m.result.error))
  }

  /** Materialising twice: the second call returns the same array, leaves the
      heap as it is and does not run the generator again. */
  lemma MaterializeTwice(h: Heap, id: nat)
    requires Valid(h) && id < |h.nodes|
    requires Materialize(h, id).result.Ok?
    ensures var first := Materialize(h, id);
      Materialize(first.heap, id) == first
  {
  }

  /** On a freshly constructed node the generator runs exactly once over any
      number of successful materialisations. */
  lemma GeneratorRunsOnce(h: Heap, id: nat)
    requires Valid(h) && id < |h.nodes|
    requires h.nodes[id].calls == 0 && h.nodes[id].cache.None?
    requires Materialize(h, id).result.Ok?
    ensures Materialize(h, id).heap.nodes[id].calls == 1
    ensures Materialize(Materialize(h, id).heap, id).heap.nodes[id].calls == 1
  {
    var m := Materialize(h, id);
    assert m.heap.nodes[id].cache.Some?;
    assert Materialize(m.heap, id).heap == m.heap;
  }

  /** A generator whose array disagrees with the declared shape or dtype makes
      materialisation fail with `AssertionError` and caches nothing. */
  lemma MismatchIsFatal(h: Heap, id: nat)
    requires Valid(h) && id < |h.nodes|
    requires h.nodes[id].cache.None? && h.nodes[id].producer.Generator?
    requires var a := h.nodes[id].producer.call(h.nodes[id].calls);
      a.Ok? && (a.value.shape != h.nodes[id].shape || a.value.dtype != h.nodes[id].dtype)
    ensures Materialize(h, id).result == Err(AssertionError)
    ensures Materialize(h, id).heap.nodes[id].cache.None?
  {
  }

  /** A generator that raises propagates its exception and leaves the node
      unmaterialised, so the next materialisation runs the generator again. */
  lemma GeneratorFailureRetries(h: Heap, id: nat)
    requires Valid(h) && id < |h.nodes|
    requires h.nodes[id].cache.None? && h.nodes[id].producer.Generator?
    requires h.nodes[id].producer.call(h.nodes[id].calls).Err?
    ensures var n := h.nodes[id];
      var first := Materialize(h, id);
      var second := Materialize(first.heap, id);
      && first.result == n.producer.call(n.calls)
      && first.heap.nodes[id].cache.None?
      && second.heap.nodes[id].calls == n.calls + 2
      && (n.producer.call(n.calls + 1).Err? ==> second.result == n.producer.call(n.calls + 1))
      && (second.result.Ok? ==> second.result.value == n.producer.call(n.calls + 1).value)
  {
    var first := Materialize(h, id);
    assert first.heap.nodes[id].producer == h.nodes[id].producer;
  }

  /** Appends a new, unmaterialised node (no checks). */
  function Alloc(h: Heap, nplike: Nplike, shape: seq<int>, dtype: DType, producer: Producer): (r: (Heap, nat))
    requires Valid(h) && (nplike == Numpy || nplike == Cupy)
    requires producer.Apply? ==> producer.parent < |h.nodes|
    ensures Valid(r.0) && r.1 == |h.nodes|
    ensures r.0.nodes == h.nodes + [Node(nplike, shape, dtype, producer, None, 0)]
  {
    var h2 := Heap(h.nodes + [Node(nplike, shape, dtype, producer, None, 0)]);
    assert forall i | 0 <= i < |h.nodes| :: h2.nodes[i] == h.nodes[i];
    (h2, |h.nodes|)
  }

  function IntsOf(items: seq<ShapeItem>): (r: seq<int>)
    requires forall i :: 0 <= i < |items| ==> items[i].Known?
    ensures |r| == |items| && forall i :: 0 <= i < |items| ==> items[i] == Known(r[i])
  {
    seq(|items|, i requires 0 <= i < |items| => items[i].n)
  }

  /** The `VirtualArray` constructor: only NumPy and CuPy backends and only
      integer shape items are accepted, otherwise `TypeError`. The new array
      is unmaterialised and its generator has not run. */
  function NewVirtual(h: Heap, nplike: Nplike, shape: seq<ShapeItem>, dtype: DType, producer: Producer): (r: Result<(Heap, nat)>)
    requires Valid(h)
    requires producer.Apply? ==> producer.parent < |h.nodes|
    ensures r.Ok? <==> (nplike == Numpy || nplike == Cupy) && forall i :: 0 <= i < |shape| ==> shape[i].Known?
    ensures r.Err? ==> r.error == TypeError
    ensures r.Ok? ==> Valid(r.value.0) && r.value.1 == |h.nodes| && |r.value.0.nodes| == |h.nodes| + 1
    ensures r.Ok? ==> r.value.0.nodes[..|h.nodes|] == h.nodes
    ensures r.Ok? ==> var n := r.value.0.nodes[|h.nodes|];
      && n.cache.None? && n.calls == 0 && n.dtype == dtype && n.producer == producer
      && |n.shape| == |shape| && forall i :: 0 <= i < |shape| ==> shape[i] == Known(n.shape[i])
  {
    if !(nplike == Numpy || nplike == Cupy) then Err(TypeError)
    else if exists i :: 0 <= i < |shape| && !shape[i].Known? then Err(TypeError)
    else
      var (h2, id) := Alloc(h, nplike, IntsOf(shape), dtype, producer);
      assert h2.nodes[..|h.nodes|] == h.nodes;
      Ok((h2, id))
  }

  /** The values an array-module backend meets: eager arrays, placeholders
      (shape and dtype, never any data) and virtual arrays. */
  datatype Value = Eager(arr: Arr) | Placeholder(shape: seq<int>, dtype: DType) | Virtual(id: nat)

  predicate Refers(h: Heap, v: Value)
  {
    v.Virtual? ==> v.id < |h.nodes|
  }

  /** Declared shape of any value; a virtual array answers from its metadata. */
  function ShapeOf(h: Heap, v: Value): seq<int>
    requires Refers(h, v)
  {
    match v
    case Eager(a) => a.shape
    case Placeholder(s, _) => s
    case Virtual(id) => h.nodes[id].shape
  }

  function DTypeOf(h: Heap, v: Value): DType
    requires Refers(h, v)
  {
    match v
    case Eager(a) => a.dtype
    case Placeholder(_, d) => d
    case Virtual(id) => h.nodes[id].dtype
  }

  /** A placeholder or a virtual array that has not been materialised: the
      values the backend routes around without reading data. */
  predicate Dataless(h: Heap, v: Value)
    requires Refers(h, v)
  {
    v.Placeholder? || (v.Virtual? && h.nodes[v.id].cache.None?)
  }

  /** `is_materialized`: true exactly when materialising would run nothing. */
  function IsMaterialized(h: Heap, id: nat): (r: bool)
    requires Valid(h) && id < |h.nodes|
    ensures r <==> Materialize(h, id).heap == h
    ensures r ==> Materialize(h, id).result.Ok?
  {
    h.nodes[id].cache.Some?
  }

  /** `len()`: the first declared dimension, `IndexError` for a 0-d array; it
      agrees with the materialised array's length. */
  function Len(h: Heap, id: nat): (r: Result<int>)
    requires Valid(h) && id < |h.nodes|
    ensures r.Ok? <==> |h.nodes[id].shape| >= 1
    ensures r.Err? ==> r.error == IndexError
    ensures r.Ok? && h.nodes[id].cache.Some? ==> r.value == h.nodes[id].cache.value.shape[0]
    ensures r.Ok? && Materialize(h, id).result.Ok? ==> r.value == Materialize(h, id).result.value.shape[0]
  {
    var s := h.nodes[id].shape;
    if |s| == 0 then Err(IndexError) else Ok(s[0])
  }

  /** `size`: `reduce(mul, shape)` with no initial value, so a 0-d array
      raises `TypeError`; otherwise it is the materialised element count. */
  function Size(h: Heap, id: nat): (r: Result<int>)
    requires Valid(h) && id < |h.nodes|
    ensures r.Ok? <==> |h.nodes[id].shape| >= 1
    ensures r.Err? ==> r.error == TypeError
    ensures r.Ok? && Materialize(h, id).result.Ok? ==> r.value == Product(Materialize(h, id).result.value.shape)
  {
    var s := h.nodes[id].shape;
    if |s| == 0 then Err(TypeError) else Ok(Product(s))
  }

  /** `nbytes`: 0 before materialisation, afterwards the byte size implied by
      the declared metadata. */
  function NBytes(h: Heap, id: nat): (r: int)
    requires Valid(h) && id < |h.nodes|
    ensures h.nodes[id].cache.None? ==> r == 0
    ensures h.nodes[id].cache.Some? ==> r == Product(h.nodes[id].shape) * ItemSize(h.nodes[id].dtype)
  {
    match h.nodes[id].cache
    case None => 0
    case Some(a) => NBytesOf(a)
  }

  /** A new unmaterialised node on backend `nplike` deriving `op` from node
      `id`. */
  function DeferOn(h: Heap, nplike: Nplike, id: nat, shape: seq<int>, dtype: DType, op: EagerOp): (s: Step<Value>)
    requires Valid(h) && id < |h.nodes| && (nplike == Numpy || nplike == Cupy)
    ensures Valid(s.heap) && s.result == Ok(Virtual(|h.nodes|))
    ensures s.heap.nodes == h.nodes + [Node(nplike, shape, dtype, Apply(id, op), None, 0)]
  {
    var (h2, t) := Alloc(h, nplike, shape, dtype, Apply(id, op));
    Step(h2, Ok(Virtual(t)))
  }

  /** A new node deriving `op` from node `id` on `id`'s own backend. */
  function Defer(h: Heap, id: nat, shape: seq<int>, dtype: DType, op: EagerOp): (s: Step<Value>)
    requires Valid(h) && id < |h.nodes|
    ensures Valid(s.heap) && s.result == Ok(Virtual(|h.nodes|))
    ensures s.heap.nodes == h.nodes + [Node(h.nodes[id].nplike, shape, dtype, Apply(id, op), None, 0)]
  {
    DeferOn(h, h.nodes[id].nplike, id, shape, dtype, op)
  }

  /** Applies `op` to an already materialised node's array. */
  function Eagerly(h: Heap, id: nat, op: EagerOp): (s: Step<Value>)
    requires Valid(h) && id < |h.nodes| && h.nodes[id].cache.Some?
    ensures s.heap == h
  {
    match EagerApply(op, h.nodes[id].cache.value)
    case Ok(b) => Step(h, Ok(Eager(b)))
    case Err(e) => Step(h, Err(e))
  }

  /** `T`: a materialised array is transposed eagerly; otherwise a new lazy
      array with the reversed shape and the same dtype, and nothing runs. */
  function Transposed(h: Heap, id: nat): (s: Step<Value>)
    requires Valid(h) && id < |h.nodes|
    ensures Valid(s.heap) && s.result.Ok?
    ensures h.nodes[id].cache.Some? ==>
      (s.heap == h && s.result.value.Eager? && s.result.value.arr.shape == Reverse(h.nodes[id].shape))
    ensures h.nodes[id].cache.None? ==>
      && |s.heap.nodes| == |h.nodes| + 1 && s.heap.nodes[..|h.nodes|] == h.nodes
      && s.result.value == Virtual(|h.nodes|)
      && s.heap.nodes[|h.nodes|].cache.None?
      && s.heap.nodes[|h.nodes|].shape == Reverse(h.nodes[id].shape)
      && s.heap.nodes[|h.nodes|].dtype == h.nodes[id].dtype
  {
    if h.nodes[id].cache.Some? then Eagerly(h, id, Transpose)
    else
      var s := Defer(h, id, Reverse(h.nodes[id].shape), h.nodes[id].dtype, Transpose);
      assert s.heap.nodes[..|h.nodes|] == h.nodes;
      s
  }

  /** `view(dtype)` on an unmaterialised array: the last axis is rescaled so
      that its byte length is kept, `ValueError` when it does not divide; a
      0-d shape is kept. A materialised array is viewed eagerly. */
  function View(h: Heap, id: nat, d: DType): (s: Step<Value>)
    requires Valid(h) && id < |h.nodes|
    ensures Valid(s.heap)
    ensures h.nodes[id].cache.Some? ==> s.heap == h
    ensures var n := h.nodes[id];
      n.cache.None? ==>
        && (s.result.Err? <==> |n.shape| >= 1 && (n.shape[|n.shape| - 1] * ItemSize(n.dtype)) % ItemSize(d) != 0)
        && (s.result.Err? ==> s.result.error == ValueError && s.heap == h)
    ensures var n := h.nodes[id];
      n.cache.None? && s.result.Ok? ==>
        && |s.heap.nodes| == |h.nodes| + 1 && s.heap.nodes[..|h.nodes|] == h.nodes
        && s.result.value == Virtual(|h.nodes|)
        && var v := s.heap.nodes[|h.nodes|];
          && v.cache.None? && v.dtype == d && |v.shape| == |n.shape|
          && (|n.shape| == 0 ==> v.shape == n.shape)
          && (|n.shape| >= 1 ==>
                v.shape[..|n.shape| - 1] == n.shape[..|n.shape| - 1]
                && v.shape[|n.shape| - 1] * ItemSize(d) == n.shape[|n.shape| - 1] * ItemSize(n.dtype))
  {
    var n := h.nodes[id];
    if n.cache.Some? then Eagerly(h, id, ViewAs(d))
    else
      match ViewShape(n.shape, n.dtype, d)
      case Err(e) => Step(h, Err(e))
      case Ok(shape) =>
        var s := Defer(h, id, shape, d, ViewAs(d));
        assert s.heap.nodes[..|h.nodes|] == h.nodes;
        s
  }

  /** An index as `__getitem__` receives it: a slice whose bounds may be any
      shape item, or an integer. */
  datatype Index =
    | SliceIndex(start: Option<ShapeItem>, stop: Option<ShapeItem>, step: Option<ShapeItem>)
    | IntIndex(i: int)

  predicate HasUnknownBound(idx: Index)
    requires idx.SliceIndex?
  {
    idx.start == Some(UnknownLength) || idx.stop == Some(UnknownLength) || idx.step == Some(UnknownLength)
  }

  /** A bound as `slice.indices` accepts it: an integer or `None`. */
  function IntBound(b: Option<ShapeItem>): Result<Option<int>>
  {
    match b
    case None => Ok(None)
    case Some(Known(n)) => Ok(Some(n))
    case Some(_) => Err(TypeError)
  }

  function AsPySlice(idx: Index): (r: Result<PySlice>)
    requires idx.SliceIndex?
    ensures r.Ok? <==> forall b :: b in [idx.start, idx.stop, idx.step] && b.Some? ==> b.value.Known?
  {
    var start :- IntBound(idx.start);
    var stop :- IntBound(idx.stop);
    var step :- IntBound(idx.step);
    Ok(PySlice(start, stop, step))
  }

  /** `__getitem__` as written. A materialised array is indexed eagerly; an
      integer index materialises first. A slice of an unmaterialised array
      needs a first dimension (`IndexError`) and no `unknown_length` bound
      (`TypeError`), and gives a new 1-d lazy array of length
      `(stop - start) // step` over the normalised bounds. */
  function GetItem(h: Heap, id: nat, idx: Index): (s: Step<Value>)
    requires Valid(h) && id < |h.nodes|
    ensures Valid(s.heap)
    ensures var n := h.nodes[id];
      n.cache.None? && idx.SliceIndex? ==>
        && (|n.shape| == 0 ==> s.result == Err(IndexError))
        && (|n.shape| >= 1 && HasUnknownBound(idx) ==> s.result == Err(TypeError))
        && (s.result.Err? ==> s.heap == h)
        && (s.result.Ok? ==>
              && |s.heap.nodes| == |h.nodes| + 1 && s.heap.nodes[..|h.nodes|] == h.nodes
              && s.result.value == Virtual(|h.nodes|)
              && s.heap.nodes[|h.nodes|].cache.None?
              && |s.heap.nodes[|h.nodes|].shape| == 1
              && s.heap.nodes[|h.nodes|].dtype == n.dtype)
  {
    var n := h.nodes[id];
    if n.cache.Some? then
      match idx
      case IntIndex(i) => Eagerly(h, id, TakeAt(i))
      case SliceIndex(_, _, _) =>
        (match AsPySlice(idx)
         case Err(e) => Step(h, Err(e))
         case Ok(sl) => Eagerly(h, id, SliceBy(sl)))
    else
      match idx
      case IntIndex(i) =>
        var m := Materialize(h, id);
        (match m.result
         case Err(e) => Step(m.heap, Err(e))
         case Ok(a) =>
           match EagerApply(TakeAt(i), a)
           case Err(e) => Step(m.heap, Err(e))
           case Ok(b) => Step(m.heap, Ok(Eager(b))))
      case SliceIndex(_, _, _) =>
        if |n.shape| == 0 then Step(h, Err(IndexError))
        else if HasUnknownBound(idx) then Step(h, Err(TypeError))
        else
          match AsPySlice(idx)
          case Err(e) => Step(h, Err(e))
          case Ok(sl) =>
            match SliceIndices(sl, n.shape[0])
            case Err(e) => Step(h, Err(e))
            case Ok((start, stop, step)) =>
              var s := Defer(h, id, [FloorDiv(stop - start, step)], n.dtype, SliceBy(sl));
              assert s.heap.nodes[..|h.nodes|] == h.nodes;
              s
  }

  /** `copy`: a new virtual array with the same shape and dtype, materialised
      at once; materialising it materialises the original first. */
  function Copy(h: Heap, id: nat): (s: Step<Value>)
    requires Valid(h) && id < |h.nodes|
    ensures Valid(s.heap)
    ensures s.result.Ok? <==> Materialize(h, id).result.Ok?
    ensures s.result.Ok? ==>
      && s.result.value == Virtual(|h.nodes|) && |s.heap.nodes| == |h.nodes| + 1
      && s.heap.nodes[|h.nodes|].cache.Some?
      && s.heap.nodes[|h.nodes|].shape == h.nodes[id].shape
      && s.heap.nodes[|h.nodes|].dtype == h.nodes[id].dtype
      && s.heap.nodes[id].cache.Some?
  {
    var d := Defer(h, id, h.nodes[id].shape, h.nodes[id].dtype, CopyOf);
    var t := |h.nodes|;
    var m := Materialize(d.heap, t);
    DeferredMaterialize(h, h.nodes[id].nplike, id, h.nodes[id].shape, h.nodes[id].dtype, CopyOf);
    MaterializeExtend(h, d.heap.nodes[t], id);
    Step(m.heap, if m.result.Ok? then Ok(Virtual(t)) else Err(m.result.error))
  }

  /** Appending a node does not change how existing nodes materialise. */
  lemma {:induction false} MaterializeExtend(h: Heap, n: Node, id: nat)
    requires Valid(h) && id < |h.nodes| && Valid(Heap(h.nodes + [n]))
    ensures var m := Materialize(h, id);
      Materialize(Heap(h.nodes + [n]), id) == Step(Heap(m.heap.nodes + [n]), m.result)
    decreases id, 1
  {
    var h2 := Heap(h.nodes + [n]);
    assert h2.nodes[id] == h.nodes[id];
    if h.nodes[id].cache.None? {
      ProduceExtend(h, n, id);
      var ran := Produce(h, id);
      var counted := h.nodes[id].(calls := h.nodes[id].calls + 1);
      assert (ran.heap.nodes + [n])[id := counted] == ran.heap.nodes[id := counted] + [n];
      if ran.result.Ok? {
        var cached := counted.(cache := Some(ran.result.value));
        assert (ran.heap.nodes + [n])[id := cached] == ran.heap.nodes[id := cached] + [n];
      }
    }
  }

  /** The same for running a node's producer. */
  lemma {:induction false} ProduceExtend(h: Heap, n: Node, id: nat)
    requires Valid(h) && id < |h.nodes| && Valid(Heap(h.nodes + [n]))
    ensures var m := Produce(h, id);
      Produce(Heap(h.nodes + [n]), id) == Step(Heap(m.heap.nodes + [n]), m.result)
    decreases id, 0
  {
    var h2 := Heap(h.nodes + [n]);
    assert h2.nodes[id] == h.nodes[id];
    match h.nodes[id].producer
    case Generator(_) =>
    case Apply(p, op) =>
      MaterializeExtend(h, n, p);
  }

  /** Materialising a node derived from `id` by `op` is materialising `id`,
      applying `op` eagerly, and checking the declared shape and dtype. */
  lemma DeferredMaterialize(h: Heap, nplike: Nplike, id: nat, shape: seq<int>, dtype: DType, op: EagerOp)
    requires Valid(h) && id < |h.nodes| && (nplike == Numpy || nplike == Cupy)
    ensures var derived := Materialize(DeferOn(h, nplike, id, shape, dtype, op).heap, |h.nodes|).result;
      var parent := Materialize(h, id).result;
      && (parent.Err? ==> derived == Err(parent.error))
      && (parent.Ok? && EagerApply(op, parent.value).Err? ==> derived == EagerApply(op, parent.value))
      && (parent.Ok? && EagerApply(op, parent.value).Ok? ==>
            var b := EagerApply(op, parent.value).value;
            derived == if b.shape == shape && b.dtype == dtype then Ok(b) else Err(AssertionError))
  {
    var d := DeferOn(h, nplike, id, shape, dtype, op);
    MaterializeExtend(h, d.heap.nodes[|h.nodes|], id);
  }

  /** When `op` maps every array of the node's declared shape and dtype to
      one of the derived node's, deferring `op` is invisible: the derived
      node materialises exactly when `id` does, to `op` of its array. */
  lemma DeferredAgrees(h: Heap, nplike: Nplike, id: nat, shape: seq<int>, dtype: DType, op: EagerOp)
    requires Valid(h) && id < |h.nodes| && (nplike == Numpy || nplike == Cupy)
    requires forall a: Arr | a.shape == h.nodes[id].shape && a.dtype == h.nodes[id].dtype ::
      EagerApply(op, a).Ok? && EagerApply(op, a).value.shape == shape && EagerApply(op, a).value.dtype == dtype
    ensures var derived := Materialize(DeferOn(h, nplike, id, shape, dtype, op).heap, |h.nodes|).result;
      var parent := Materialize(h, id).result;
      && (derived.Ok? <==> parent.Ok?)
      && (parent.Ok? ==> derived == EagerApply(op, parent.value))
  {
    DeferredMaterialize(h, nplike, id, shape, dtype, op);
  }

  /** A lazy transpose materialises exactly when the original does, to the
      original's array transposed: deferring is invisible. */
  lemma TransposeMaterializes(h: Heap, id: nat)
    requires Valid(h) && id < |h.nodes| && h.nodes[id].cache.None?
    ensures var t := Transposed(h, id);
      var parent := Materialize(h, id);
      && (Materialize(t.heap, |h.nodes|).result.Ok? <==> parent.result.Ok?)
      && (parent.result.Ok? ==>
            Materialize(t.heap, |h.nodes|).result == EagerApply(Transpose, parent.result.value))
  {
    DeferredMaterialize(h, h.nodes[id].nplike, id, Reverse(h.nodes[id].shape), h.nodes[id].dtype, Transpose);
  }

  lemma ViewIsDeferred(h: Heap, id: nat, d: DType)
    requires Valid(h) && id < |h.nodes| && h.nodes[id].cache.None?
    requires ViewShape(h.nodes[id].shape, h.nodes[id].dtype, d).Ok?
    ensures View(h, id, d) ==
      DeferOn(h, h.nodes[id].nplike, id, ViewShape(h.nodes[id].shape, h.nodes[id].dtype, d).value, d, ViewAs(d))
  {
  }

  /** An array with at least one axis whose last axis divides is viewed
      with the rescaled shape, unless its last axis is not contiguous. */
  lemma EagerViewOk(a: Arr, d: DType)
    requires |a.shape| >= 1 && ViewShape(a.shape, a.dtype, d).Ok?
    ensures EagerApply(ViewAs(d), a) ==
      if LastAxisRefusesView(a, d) then Err(ValueError)
      else Ok(Arr(ViewShape(a.shape, a.dtype, d).value, d, Transformed(ViewAs(d), a.data), a.cContiguous))
  {
    EagerApplyReduces(ViewAs(d), a);
  }

  /** NumPy's view of an array of the metadata a lazy view was declared from
      has the declared metadata; only a 0-d array or a non-contiguous last
      axis can refuse it. */
  lemma EagerViewDeclared(a: Arr, d: DType)
    requires ViewShape(a.shape, a.dtype, d).Ok?
    ensures EagerApply(ViewAs(d), a).Ok? ==>
      EagerApply(ViewAs(d), a).value.shape == ViewShape(a.shape, a.dtype, d).value
      && EagerApply(ViewAs(d), a).value.dtype == d
    ensures EagerApply(ViewAs(d), a).Ok? <==>
      (|a.shape| >= 1 || ItemSize(d) == ItemSize(a.dtype)) && !LastAxisRefusesView(a, d)
  {
    EagerApplyReduces(ViewAs(d), a);
  }

  /** The node a lazy dtype view appends, before the view is named. */
  lemma DeferredViewMaterializes(h: Heap, id: nat, d: DType)
    requires Valid(h) && id < |h.nodes| && ViewShape(h.nodes[id].shape, h.nodes[id].dtype, d).Ok?
    ensures var n := h.nodes[id];
      var parent := Materialize(h, id).result;
      var derived := Materialize(DeferOn(h, n.nplike, id, ViewShape(n.shape, n.dtype, d).value, d, ViewAs(d)).heap, |h.nodes|).result;
      && (parent.Err? ==> derived == Err(parent.error))
      && (parent.Ok? ==> derived == EagerApply(ViewAs(d), parent.value))
  {
    var n := h.nodes[id];
    DeferredMaterialize(h, n.nplike, id, ViewShape(n.shape, n.dtype, d).value, d, ViewAs(d));
    var parent := Materialize(h, id).result;
    if parent.Ok? {
      EagerViewDeclared(parent.value, d);
    }
  }

  /** A lazy dtype view materialises to NumPy's view of the original's
      array, and fails with the original's error. With at least one axis it
      materialises exactly when the original does and NumPy accepts the view
      of the original's array; a 0-d view needs the itemsizes to agree. Both
      are checked only at materialisation. */
  lemma ViewMaterializes(h: Heap, id: nat, d: DType)
    requires Valid(h) && id < |h.nodes| && h.nodes[id].cache.None?
    requires ViewShape(h.nodes[id].shape, h.nodes[id].dtype, d).Ok?
    ensures var v := View(h, id, d);
      var parent := Materialize(h, id).result;
      var derived := Materialize(v.heap, |h.nodes|).result;
      && (parent.Err? ==> derived == Err(parent.error))
      && (parent.Ok? ==> derived == EagerApply(ViewAs(d), parent.value))
      && (|h.nodes[id].shape| >= 1 ==>
            (derived.Ok? <==> parent.Ok? && !LastAxisRefusesView(parent.value, d)))
      && (|h.nodes[id].shape| == 0 && parent.Ok? ==>
            (derived.Ok? <==> ItemSize(d) == ItemSize(h.nodes[id].dtype)))
  {
    var n := h.nodes[id];
    var deferred := DeferOn(h, n.nplike, id, ViewShape(n.shape, n.dtype, d).value, d, ViewAs(d));
    ViewIsDeferred(h, id, d);
    assert View(h, id, d).heap == deferred.heap;
    DeferredViewMaterializes(h, id, d);
    var parent := Materialize(h, id).result;
    if parent.Ok? {
      EagerViewDeclared(parent.value, d);
    }
  }

  /** Every other element of a C-contiguous int32 array of shape (6,) cannot
      be viewed as int16, while the array itself can. */
  lemma StridedViewRefused(data: Data)
    ensures var a := Arr([6], Int32, data, true);
      && EagerView(a, Int16).Ok?
      && EagerSlice(a, PySlice(Some(0), Some(6), Some(2))).Ok?
      && EagerView(EagerSlice(a, PySlice(Some(0), Some(6), Some(2))).value, Int16) == Err(ValueError)
  {
    var a := Arr([6], Int32, data, true);
    var sl := PySlice(Some(0), Some(6), Some(2));
    assert SliceIndices(sl, 6) == Ok((0, 6, 2));
    assert RangeLength(0, 6, 2) == 3;
    var b := EagerSlice(a, sl).value;
    assert b.shape == [3] && !b.cContiguous;
    assert Product(b.shape) == 3;
    assert LastAxisRefusesView(b, Int16);
  }

  /** A lazy array of shape (5,) and dtype int64 that produces one array. */
  function FiveHeap(): (h: Heap)
    ensures Valid(h) && |h.nodes| == 1 && h.nodes[0].cache.None? && h.nodes[0].shape == [5]
  {
    Heap([Node(Numpy, [5], Int64, Generator((_: nat) => Ok(Arr([5], Int64, Produced(0), true))), None, 0)])
  }

  /** A lazy array of shape (5,) whose generator raises `ValueError` the
      first time it is called and produces its array afterwards. */
  function FlakyHeap(): (h: Heap)
    ensures Valid(h) && |h.nodes| == 1 && h.nodes[0].cache.None? && h.nodes[0].calls == 0
  {
    var call := (k: nat) => if k == 0 then Err(ValueError) else Ok(Arr([5], Int64, Produced(0), true));
    Heap([Node(Numpy, [5], Int64, Generator(call), None, 0)])
  }

  /** The first materialisation raises and the second, retrying, succeeds. */
  lemma FlakyGeneratorRecovers()
    ensures var first := Materialize(FlakyHeap(), 0);
      && first.result == Err(ValueError)
      && Materialize(first.heap, 0).result == Ok(Arr([5], Int64, Produced(0), true))
  {
    GeneratorFailureRetries(FlakyHeap(), 0);
  }

  /** `[0:5:2]` on it defers a slice declared with length `5 // 2 == 2`. */
  lemma SliceFloorDeclares()
    ensures GetItem(FiveHeap(), 0, SliceIndex(Some(Known(0)), Some(Known(5)), Some(Known(2))))
         == DeferOn(FiveHeap(), Numpy, 0, [2], Int64, SliceBy(PySlice(Some(0), Some(5), Some(2))))
  {
    var idx := SliceIndex(Some(Known(0)), Some(Known(5)), Some(Known(2)));
    var sl := PySlice(Some(0), Some(5), Some(2));
    assert AsPySlice(idx) == Ok(sl);
    assert SliceIndices(sl, 5) == Ok((0, 5, 2));
    assert FloorDiv(5 - 0, 2) == 2;
  }

  /** Counterexample: a lazy array of shape (5,) sliced `[0:5:2]` is declared
      with length `5 // 2 == 2`, but NumPy's slice has 3 elements, so
      materialising the slice fails the shape assertion. */
  lemma SliceFloorMismatch()
    ensures var s := GetItem(FiveHeap(), 0, SliceIndex(Some(Known(0)), Some(Known(5)), Some(Known(2))));
      && s.result == Ok(Virtual(1))
      && s.heap.nodes[1].shape == [2]
      && RangeLength(0, 5, 2) == 3
      && Materialize(s.heap, 1).result == Err(AssertionError)
  {
    var h := FiveHeap();
    var sl := PySlice(Some(0), Some(5), Some(2));
    SliceFloorDeclares();
    DeferredMaterialize(h, Numpy, 0, [2], Int64, SliceBy(sl));
    var a := Arr([5], Int64, Produced(0), true);
    assert Materialize(h, 0).result == Ok(a);
    assert EagerApply(SliceBy(sl), a).value.shape == [3];
  }

  /** Slicing an unmaterialised array with the declared length it evidently
      intends: the number of positions the slice selects, trailing axes kept. */
  function GetItemCorrected(h: Heap, id: nat, idx: Index): (s: Step<Value>)
    requires Valid(h) && id < |h.nodes|
    ensures Valid(s.heap)
    ensures var n := h.nodes[id];
      n.cache.None? && idx.SliceIndex? && s.result.Ok? ==>
        && |s.heap.nodes| == |h.nodes| + 1 && s.heap.nodes[..|h.nodes|] == h.nodes
        && s.result.value == Virtual(|h.nodes|)
        && s.heap.nodes[|h.nodes|].cache.None?
        && |n.shape| >= 1 && AsPySlice(idx).Ok? && SliceIndices(AsPySlice(idx).value, n.shape[0]).Ok?
        && var (start, stop, step) := SliceIndices(AsPySlice(idx).value, n.shape[0]).value;
          s.heap.nodes[|h.nodes|].shape == [|RangeSeq(start, stop, step)|] + n.shape[1..]
  {
    var n := h.nodes[id];
    if n.cache.Some? || idx.IntIndex? || |n.shape| == 0 || HasUnknownBound(idx) then GetItem(h, id, idx)
    else
      match AsPySlice(idx)
      case Err(e) => Step(h, Err(e))
      case Ok(sl) =>
        match SliceShape(n.shape, sl)
        case Err(e) => Step(h, Err(e))
        case Ok(shape) =>
          var s := Defer(h, id, shape, n.dtype, SliceBy(sl));
          assert s.heap.nodes[..|h.nodes|] == h.nodes;
          s
  }

  /** With the corrected length, a lazy slice materialises exactly when the
      original does, to NumPy's slice of it. */
  lemma SliceCorrectedMaterializes(h: Heap, id: nat, idx: Index)
    requires Valid(h) && id < |h.nodes| && h.nodes[id].cache.None? && idx.SliceIndex?
    requires GetItemCorrected(h, id, idx).result.Ok?
    ensures var s := GetItemCorrected(h, id, idx);
      var parent := Materialize(h, id);
      && (Materialize(s.heap, |h.nodes|).result.Ok? <==> parent.result.Ok?)
      && (parent.result.Ok? ==>
            Materialize(s.heap, |h.nodes|).result == EagerApply(SliceBy(AsPySlice(idx).value), parent.result.value))
  {
    var n := h.nodes[id];
    var sl := AsPySlice(idx).value;
    var shape := SliceShape(n.shape, sl).value;
    var dv := Defer(h, id, shape, n.dtype, SliceBy(sl));
    assert GetItemCorrected(h, id, idx) == dv;
    DeferredMaterialize(h, h.nodes[id].nplike, id, shape, n.dtype, SliceBy(sl));
    var parent := Materialize(h, id);
    if parent.result.Ok? {
      var a := parent.result.value;
      var b := Arr(shape, n.dtype, Transformed(SliceBy(sl), a.data), a.cContiguous && sl.step.GetOr(1) == 1);
      assert EagerSlice(a, sl) == Ok(b);
      EagerApplyReduces(SliceBy(sl), a);
    }
  }

  /** `materialize_if_virtual`: every virtual argument is materialised, left
      to right, and replaced by its array; other arguments pass unchanged.
      The first failure stops the walk. */
  function MaterializeIfVirtual(h: Heap, args: seq<Value>): (s: Step<seq<Value>>)
    requires Valid(h) && forall i :: 0 <= i < |args| && args[i].Virtual? ==> args[i].id < |h.nodes|
    ensures Valid(s.heap) && Evolves(h, s.heap)
    ensures s.result.Ok? ==>
      && |s.result.value| == |args|
      && forall i :: 0 <= i < |args| ==>
           if args[i].Virtual? then
             s.heap.nodes[args[i].id].cache.Some? && s.result.value[i] == Eager(s.heap.nodes[args[i].id].cache.value)
           else s.result.value[i] == args[i]
    decreases |args|
  {
    if |args| == 0 then Step(h, Ok([]))
    else
      var first := match args[0]
        case Virtual(id) =>
          var m := Materialize(h, id);
          Step(m.heap, if m.result.Ok? then Ok(Eager(m.result.value)) else Err(m.result.error))
        case _ => Step(h, Ok(args[0]));
      match first.result
      case Err(e) => Step(first.heap, Err(e))
      case Ok(v) =>
        var rest := MaterializeIfVirtual(first.heap, args[1..]);
        EvolvesTrans(h, first.heap, rest.heap);
        match rest.result
        case Err(e) => Step(rest.heap, Err(e))
        case Ok(vs) => Step(rest.heap, Ok([v] + vs))
  }
}
